=== FILE: README.md ===
# Hamcrest matcher generator — a Dafny model

This project models the core of the Hamcrest matcher generator: given a
bean-like type, generate a `<Type>Matcher` class whose fluent `with…`
methods register property matchers, plus a static `is<Type>()` factory.

It covers four parts of the system:

- **The Kotlin matcher generator** (`MatcherGenerator`, `PropertyExtraction`).
  Properties come from the members of the type, its superclasses and its
  interfaces. A property is a public, non-static, parameterless getter: a
  non-boolean `get…` or a boolean `is…`. Each property yields a
  Hamcrest-matcher method and an equality method. The generated class has
  the layout `TypeSafeMatcher<T>`, constructor, property methods,
  `describeTo`/`matchesSafely`/`describeMismatchSafely`, then the factory.
  Public nested types become static nested matchers. Non-public nested types
  are skipped with a note.
- **The Java bean matcher class generator** (`BeanMatcherClassGenerator`).
  It asks a naming strategy for the package and the type name. A
  Matcher-typed property gets only the matcher method; every other property
  also gets a value method. The class carries `@Generated` and `@BasedOn`.
  The file is written below the output directory, with distinct errors for
  a missing type name, a type name that is not a Java name, a primitive or
  `void` class, a factory name that is not a Java name (as for an array
  class), and a failed write.
- **The annotation-processor worker** (`ProcessorWorker`). It resolves every
  name of a `@MatcherConfiguration` to the members of packages of that name
  or to the outermost type of a type of that name, and warns when a name
  resolves to nothing. Each resolved top-level type that this processor did
  not generate itself gets one matcher file; its public nested types become
  static nested classes inside that file, not files of their own. The
  expansion of all resolved types to their public nested types only
  supplies the additional originating elements of every generated class.
  The files are handed to the annotation-processing `Filer`, which creates
  a source file at most once per type name: handing it a name a second
  time throws `FilerException`, which nothing catches, so the round ends
  there (`Filer.Run`).
- **The batch driver** (`MatcherFileGenerator`): find classes, filter out
  illegal ones, generate a matcher for each, and load the generated files.

Shared pieces:

- `Elements` is a value model of the compiler's element tree. Members,
  superclass and interfaces are nested values.
- `ClassIR` is a value model of the generated class: name, modifiers,
  annotations, superclass, fields, methods with their statements, and
  nested classes.
- `Seqs` gives the Kotlin collection operations `filter`, `flatMap`,
  `distinct` and `distinctBy`.
- `Text` gives `capitalize` and `decapitalize`.
- `Filer` replays a round's diagnostics and file writes against the
  annotation-processing `Filer`.

Exceptions become `Result` values, and diagnostics become a log sequence.
Files written by the annotation processor become returned `JavaFile` values,
replayed in program order against the `Filer`.

## Model

| member | source | states |
|---|---|---|
| Seqs.DistinctBy | hamcrest-matcher-generator-annotationprocessor/src/main/kotlin/io/github/marmer/annotationprocessing/MatcherGenerator.kt:220 | `distinctBy` keeps at most one element per key, only elements of the input, and every key of the input |
| Seqs.DistinctByIsFirstOccurrences | hamcrest-matcher-generator-annotationprocessor/src/main/kotlin/io/github/marmer/annotationprocessing/MatcherGenerator.kt:220 | `distinctBy` equals an independent back-to-front definition: exactly the first element of every key, in input order |
| Seqs.Distinct | hamcrest-matcher-generator-annotationprocessor/src/main/kotlin/io/github/marmer/annotationprocessing/MatcherGenerationProcessorWorker.kt:70-72 | `distinct` has no duplicates and the same members as its input |
| Seqs.Concat | hamcrest-matcher-generator-annotationprocessor/src/main/kotlin/io/github/marmer/annotationprocessing/MatcherGenerationProcessorWorker.kt:54-57 | `flatMap` joins the per-element lists: x is in the result iff it is in one of them |
| Seqs.ConcatAppend | hamcrest-matcher-generator-annotationprocessor/src/main/kotlin/io/github/marmer/annotationprocessing/MatcherGenerationProcessorWorker.kt:54-57 | joining distributes over concatenation of the list of lists |
| Seqs.PairUp | hamcrest-matcher-generator-annotationprocessor/src/main/kotlin/io/github/marmer/annotationprocessing/MatcherGenerator.kt:55-62 | `flatMap` to a pair per element yields twice as many elements |
| Seqs.PairUpAt | hamcrest-matcher-generator-annotationprocessor/src/main/kotlin/io/github/marmer/annotationprocessing/MatcherGenerator.kt:55-62 | element i's pair sits at positions 2i and 2i+1, first then second |
| Seqs.KeepMap | hamcrest-matcher-generator-annotationprocessor/src/main/kotlin/io/github/marmer/annotationprocessing/MatcherGenerationProcessorWorker.kt:36-50 | one pass that maps the kept elements never grows the list |
| Seqs.KeepMapIsMapOfFilter | hamcrest-matcher-generator-annotationprocessor/src/main/kotlin/io/github/marmer/annotationprocessing/MatcherGenerationProcessorWorker.kt:36-50 | the single pass equals filtering then mapping, position by position |
| Seqs.KeepMapOwner | hamcrest-matcher-generator-annotationprocessor/src/main/kotlin/io/github/marmer/annotationprocessing/MatcherGenerationProcessorWorker.kt:36-50 | every element of the single pass is the image of an input element the pass keeps |
| Seqs.Filter | hamcrest-matcher-generator-annotationprocessor/src/main/kotlin/io/github/marmer/annotationprocessing/MatcherGenerator.kt:219 | `filter` keeps exactly the elements satisfying the predicate and never grows the list |
| Seqs.FilterAppend | hamcrest-matcher-generator-annotationprocessor/src/main/kotlin/io/github/marmer/annotationprocessing/MatcherGenerator.kt:219 | filtering distributes over concatenation |
| Seqs.FilterDropsRejected | hamcrest-matcher-generator-annotationprocessor/src/main/kotlin/io/github/marmer/annotationprocessing/MatcherGenerationProcessorWorker.kt:38-40 | dropping a rejected element shortens the list |
| Text.Capitalize | hamcrest-matcher-generator-annotationprocessor/src/main/kotlin/io/github/marmer/annotationprocessing/MatcherGenerator.kt:295-296 | the first character is no longer lower case, the rest is untouched, and a string whose first character is not lower case comes back unchanged |
| Text.Decapitalize | hamcrest-matcher-generator-annotationprocessor/src/main/kotlin/io/github/marmer/annotationprocessing/MatcherGenerator.kt:298-299 | the first character is no longer upper case, the rest is untouched, and a string whose first character is not upper case comes back unchanged |
| Text.CapitalizeDecapitalize | hamcrest-matcher-generator-annotationprocessor/src/main/kotlin/io/github/marmer/annotationprocessing/MatcherGenerator.kt:295-299 | capitalizing undoes a previous decapitalization |
| Text.DecapitalizeCapitalize | hamcrest-matcher-generator-annotationprocessor/src/main/kotlin/io/github/marmer/annotationprocessing/MatcherGenerator.kt:295-299 | decapitalizing undoes a capitalization of a string that did not start upper case |
| Text.DecapitalizeOfCapitalize | hamcrest-matcher-generator-annotationprocessor/src/main/kotlin/io/github/marmer/annotationprocessing/MatcherGenerator.kt:295-299 | decapitalizing forgets a preceding capitalization |
| ClassIR.WithMethodName | hamcrest-matcher-generator-core/src/main/java/io/github/marmer/testutils/generators/beanmatcher/generation/JavaPoetHasPropertyMatcherClassGenerator.java:180-182 | `with` followed by the property name whose first letter is no longer lower case and whose other letters are unchanged; decapitalizing the suffix gives back the decapitalized property name |
| ClassIR.FactoryMethodName | hamcrest-matcher-generator-core/src/main/java/io/github/marmer/testutils/generators/beanmatcher/generation/JavaPoetHasPropertyMatcherClassGenerator.java:91-96 | the factory method name is `is` followed by the simple name of the base type, unchanged |
| ClassIR.DelegateMethods | hamcrest-matcher-generator-core/src/main/java/io/github/marmer/testutils/generators/beanmatcher/generation/JavaPoetHasPropertyMatcherClassGenerator.java:103-136 | exactly describeTo, matchesSafely and describeMismatchSafely, each an @Override that forwards only to the inner bean-property matcher; the first public, the others protected and taking the matched type |
| ClassIR.AsStatic | hamcrest-matcher-generator-annotationprocessor/src/main/kotlin/io/github/marmer/annotationprocessing/MatcherGenerator.kt:196-205 | a nested matcher gains `static`, keeps every other modifier, and differs from the prepared class in its modifiers only |
| PropertyExtraction.PropertyPrefixPrecedence | hamcrest-matcher-generator-annotationprocessor/src/main/kotlin/io/github/marmer/annotationprocessing/MatcherGenerator.kt:280-283 | despite the operator precedence, a member matches exactly when it returns a value and is a non-boolean `get…` or a boolean `is…` |
| PropertyExtraction.WithoutPropertyPrefixStripsOnePrefix | hamcrest-matcher-generator-annotationprocessor/src/main/kotlin/io/github/marmer/annotationprocessing/MatcherGenerator.kt:291-293 | one leading `get` or `is` is removed and the rest decapitalized; `get` alone gives the empty name; other names are only decapitalized |
| PropertyExtraction.TransitiveInheritedElements | hamcrest-matcher-generator-annotationprocessor/src/main/kotlin/io/github/marmer/annotationprocessing/MatcherGenerator.kt:230-237 | the type's own members come first, before any inherited member |
| PropertyExtraction.TransitiveInheritedElementsAreReachedMembers | hamcrest-matcher-generator-annotationprocessor/src/main/kotlin/io/github/marmer/annotationprocessing/MatcherGenerator.kt:230-237 | an element is collected iff it is a member of a type reachable through superclass (not from an enum or past a missing superclass) and interface edges |
| PropertyExtraction.SuperclassNotFollowed | hamcrest-matcher-generator-annotationprocessor/src/main/kotlin/io/github/marmer/annotationprocessing/MatcherGenerator.kt:230-237 | without a superclass, or for an enum, only the members and the interfaces' collections are taken |
| PropertyExtraction.PropertyAccessors | hamcrest-matcher-generator-annotationprocessor/src/main/kotlin/io/github/marmer/annotationprocessing/MatcherGenerator.kt:217-220 | accessors are property-shaped collected members, with no accessor name twice |
| PropertyExtraction.PropertiesAreFirstAccessors | hamcrest-matcher-generator-annotationprocessor/src/main/kotlin/io/github/marmer/annotationprocessing/MatcherGenerator.kt:217-228 | the properties are, in order, the first accessor of each name among the property-shaped inherited members; no accessor name repeats |
| PropertyExtraction.EveryAccessorRepresented | hamcrest-matcher-generator-annotationprocessor/src/main/kotlin/io/github/marmer/annotationprocessing/MatcherGenerator.kt:217-228 | every property-shaped inherited member yields a property with its accessor name |
| PropertyExtraction.PropertyNameFromAccessor | hamcrest-matcher-generator-annotationprocessor/src/main/kotlin/io/github/marmer/annotationprocessing/MatcherGenerator.kt:217-228 | a property name is its accessor name without `get`, or without `is` for a boolean accessor, decapitalized |
| PropertyExtraction.WithNameOfAccessor | hamcrest-matcher-generator-annotationprocessor/src/main/kotlin/io/github/marmer/annotationprocessing/MatcherGenerator.kt:64-66 | the generated `with…` name capitalizes the property name back to the accessor's suffix |
| PropertyExtraction.BoxedType | hamcrest-matcher-generator-annotationprocessor/src/main/kotlin/io/github/marmer/annotationprocessing/MatcherGenerator.kt:238-244 | primitives become their box class, type variables `java.lang.Object`, anything else is unchanged; the result is never primitive nor a type variable |
| PropertyExtraction.BoxedTypeIdempotent | hamcrest-matcher-generator-annotationprocessor/src/main/kotlin/io/github/marmer/annotationprocessing/MatcherGenerator.kt:238-244 | boxing a boxed type changes nothing |
| PropertyExtraction.ActiveAccessorsAreProperties | hamcrest-matcher-generator-annotationprocessor/src/main/kotlin/io/github/marmer/annotationprocessing/MatcherGenerator.kt:272-289 | `Boolean getActive()` and `boolean isActive()` are both property-shaped |
| PropertyExtraction.ActiveAccessorsAreDistinct | hamcrest-matcher-generator-annotationprocessor/src/main/kotlin/io/github/marmer/annotationprocessing/MatcherGenerator.kt:220 | the two accessors survive `distinctBy` on the simple name, since their names differ |
| PropertyExtraction.GetterAndIsAccessorShareAPropertyName | hamcrest-matcher-generator-annotationprocessor/src/main/kotlin/io/github/marmer/annotationprocessing/MatcherGenerator.kt:217-244 | a bean with both accessors has two properties, both named `active`, typed `Boolean` and `boolean`, with the same boxed type |
| MatcherGenerator.SamePropertyNameCollides | hamcrest-matcher-generator-annotationprocessor/src/main/kotlin/io/github/marmer/annotationprocessing/MatcherGenerator.kt:55-66 | two properties with the same name and boxed type get matcher methods with the same name and parameter types |
| MatcherGenerator.ActiveMatcherMethodsCollide | hamcrest-matcher-generator-annotationprocessor/src/main/kotlin/io/github/marmer/annotationprocessing/MatcherGenerator.kt:55-66 | the bean with `Boolean getActive()` and `boolean isActive()` gets two `withActive` methods taking the same `Matcher<? super Boolean>` parameter |
| MatcherGenerator.PropertyMatcherMethods | hamcrest-matcher-generator-annotationprocessor/src/main/kotlin/io/github/marmer/annotationprocessing/MatcherGenerator.kt:55-62 | exactly two methods per property |
| MatcherGenerator.PropertyMatcherMethodsAt | hamcrest-matcher-generator-annotationprocessor/src/main/kotlin/io/github/marmer/annotationprocessing/MatcherGenerator.kt:55-62 | property i owns positions 2i and 2i+1: the Hamcrest-matcher method then the equality method |
| MatcherGenerator.PropertyMethodPair | hamcrest-matcher-generator-annotationprocessor/src/main/kotlin/io/github/marmer/annotationprocessing/MatcherGenerator.kt:64-96 | for the i-th property the matcher takes `Matcher<? super Boxed>` and the value variant the property type, both registering under the property name and returning the matcher |
| MatcherGenerator.ClassMethodsAtProperty | hamcrest-matcher-generator-annotationprocessor/src/main/kotlin/io/github/marmer/annotationprocessing/MatcherGenerator.kt:37-53 | the i-th property's two methods sit right after the constructor at positions 1+2i and 2+2i |
| MatcherGenerator.ClassMethodsLayout | hamcrest-matcher-generator-annotationprocessor/src/main/kotlin/io/github/marmer/annotationprocessing/MatcherGenerator.kt:37-53 | for any property list: 2n+5 methods, the constructor first, then after the property methods the three delegates forwarding to the inner matcher, and the factory last |
| MatcherGenerator.PreparedTypeLayout | hamcrest-matcher-generator-annotationprocessor/src/main/kotlin/io/github/marmer/annotationprocessing/MatcherGenerator.kt:37-53 | name `<Simple>Matcher`, public, one @Generated, TypeSafeMatcher superclass, one private final field, constructor, 2n property methods, three forwarding delegates, the factory, and the origins |
| MatcherGenerator.FactoryReturnsNewMatcher | hamcrest-matcher-generator-annotationprocessor/src/main/kotlin/io/github/marmer/annotationprocessing/MatcherGenerator.kt:98-103 | the last method is the public static `is<Simple>()` returning a new instance of the generated class |
| MatcherGenerator.NestedMatchersArePublicNestedTypes | hamcrest-matcher-generator-annotationprocessor/src/main/kotlin/io/github/marmer/annotationprocessing/MatcherGenerator.kt:186-206 | exactly one static nested matcher per public nested type, in order, built with the outer type prepended to the origins |
| MatcherGenerator.InnerMatchersLayout | hamcrest-matcher-generator-annotationprocessor/src/main/kotlin/io/github/marmer/annotationprocessing/MatcherGenerator.kt:186-206 | one static nested matcher `<Simple>Matcher` per public nested type, in order, with the outer type prepended to the origins |
| MatcherGenerator.InnerMatcherAt | hamcrest-matcher-generator-annotationprocessor/src/main/kotlin/io/github/marmer/annotationprocessing/MatcherGenerator.kt:194-204 | the nested matcher at position k is the prepared class of the k-th public nested type made static, named `<Simple>Matcher`, with the outer type prepended to the origins |
| MatcherGenerator.SkipNotes | hamcrest-matcher-generator-annotationprocessor/src/main/kotlin/io/github/marmer/annotationprocessing/MatcherGenerator.kt:186-215 | every non-public nested type of the base gets a skip note |
| MatcherGenerator.SkipNotesAreHiddenTypes | hamcrest-matcher-generator-annotationprocessor/src/main/kotlin/io/github/marmer/annotationprocessing/MatcherGenerator.kt:186-215 | a note is logged iff it names a non-public nested type of the base or of a type reached from it through public nested types |
| MatcherGenerator.SkipNoteOwner | hamcrest-matcher-generator-annotationprocessor/src/main/kotlin/io/github/marmer/annotationprocessing/MatcherGenerator.kt:186-215 | every logged note names such a hidden type |
| MatcherGenerator.HiddenTypeNoted | hamcrest-matcher-generator-annotationprocessor/src/main/kotlin/io/github/marmer/annotationprocessing/MatcherGenerator.kt:186-215 | every such hidden type has its note logged |
| MatcherGenerator.NestedSkipNotesKept | hamcrest-matcher-generator-annotationprocessor/src/main/kotlin/io/github/marmer/annotationprocessing/MatcherGenerator.kt:191-204 | the notes logged for a public nested type are among those of its enclosing type |
| MatcherGenerator.Generate | hamcrest-matcher-generator-annotationprocessor/src/main/kotlin/io/github/marmer/annotationprocessing/MatcherGenerator.kt:30-35 | the file goes to the base type's package and holds `<Simple>Matcher` |
| BeanMatcherClassGenerator.MatcherTypedCount | hamcrest-matcher-generator-core/src/main/java/io/github/marmer/testutils/generators/beanmatcher/generation/JavaPoetHasPropertyMatcherClassGenerator.java:138-147 | counts the properties typed `org.hamcrest.Matcher`, at most all of them |
| BeanMatcherClassGenerator.PropertyMethods | hamcrest-matcher-generator-core/src/main/java/io/github/marmer/testutils/generators/beanmatcher/generation/JavaPoetHasPropertyMatcherClassGenerator.java:138-147 | one method per Matcher-typed property and two per other property |
| BeanMatcherClassGenerator.PropertyMethodsAppend | hamcrest-matcher-generator-core/src/main/java/io/github/marmer/testutils/generators/beanmatcher/generation/JavaPoetHasPropertyMatcherClassGenerator.java:138-147 | the property methods of a concatenation are the concatenated property methods |
| BeanMatcherClassGenerator.PropertyMethodsOfProperty | hamcrest-matcher-generator-core/src/main/java/io/github/marmer/testutils/generators/beanmatcher/generation/JavaPoetHasPropertyMatcherClassGenerator.java:138-168 | property i's matcher method sits at 2i minus the earlier Matcher-typed count; a non-Matcher property's value method follows it, a Matcher-typed property's does not |
| BeanMatcherClassGenerator.PropertyMethodOwner | hamcrest-matcher-generator-core/src/main/java/io/github/marmer/testutils/generators/beanmatcher/generation/JavaPoetHasPropertyMatcherClassGenerator.java:138-147 | every property method is the matcher method of some property or the value method of a non-Matcher property |
| BeanMatcherClassGenerator.PropertyMethodsArePublic | hamcrest-matcher-generator-core/src/main/java/io/github/marmer/testutils/generators/beanmatcher/generation/JavaPoetHasPropertyMatcherClassGenerator.java:149-168 | every property method is public |
| BeanMatcherClassGenerator.GeneratedAnnotations | hamcrest-matcher-generator-core/src/main/java/io/github/marmer/testutils/generators/beanmatcher/generation/JavaPoetHasPropertyMatcherClassGenerator.java:188-197 | exactly @Generated naming the generator class and @BasedOn naming the bean class |
| BeanMatcherClassGenerator.PrepareJavaFile | hamcrest-matcher-generator-core/src/main/java/io/github/marmer/testutils/generators/beanmatcher/generation/JavaPoetHasPropertyMatcherClassGenerator.java:64-96 | fails iff the naming strategy has no type name, or names something that is not a Java name, or the class is primitive or `void`, or `is` + its simple name is not a Java name; the first of these in builder order decides the error; otherwise uses that name and the strategy's package or the empty package |
| BeanMatcherClassGenerator.PackagePath | hamcrest-matcher-generator-core/src/main/java/io/github/marmer/testutils/generators/beanmatcher/generation/JavaPoetHasPropertyMatcherClassGenerator.java:53-62 | the package name with every dot replaced by a slash |
| BeanMatcherClassGenerator.SourceFileName | hamcrest-matcher-generator-core/src/main/java/io/github/marmer/testutils/generators/beanmatcher/generation/JavaPoetHasPropertyMatcherClassGenerator.java:53-62 | `<Name>.java`, under the package path unless the package is empty |
| BeanMatcherClassGenerator.GenerateMatcherFor | hamcrest-matcher-generator-core/src/main/java/io/github/marmer/testutils/generators/beanmatcher/generation/JavaPoetHasPropertyMatcherClassGenerator.java:53-96 | a missing name gives the runtime error with its message; an invalid class name, a primitive or `void` class and an invalid factory name give JavaPoet's errors, and nothing is written; otherwise fails iff the write fails, with the write message and no cause; success is the output directory resolved against the package path and file name |
| BeanMatcherClassGenerator.PrimitiveClassRejected | hamcrest-matcher-generator-core/src/main/java/io/github/marmer/testutils/generators/beanmatcher/generation/JavaPoetHasPropertyMatcherClassGenerator.java:79-82 | for `int.class` with a valid matcher name the result is JavaPoet's type-argument error for `int`, not a path |
| BeanMatcherClassGenerator.ArrayClassRejected | hamcrest-matcher-generator-core/src/main/java/io/github/marmer/testutils/generators/beanmatcher/generation/JavaPoetHasPropertyMatcherClassGenerator.java:91-96 | for `int[].class` with a valid matcher name the result is JavaPoet's method-name error for `isint[]`, as long as no Java name contains a bracket |
| BeanMatcherClassGenerator.GeneratedTypeLayout | hamcrest-matcher-generator-core/src/main/java/io/github/marmer/testutils/generators/beanmatcher/generation/JavaPoetHasPropertyMatcherClassGenerator.java:79-96 | name, public, both annotations, TypeSafeMatcher<Bean>, one field, constructor, property methods, three forwarding delegates and the public static `is<Simple>` factory, in that order |
| BeanMatcherClassGenerator.ClassMethodsOfLayout | hamcrest-matcher-generator-core/src/main/java/io/github/marmer/testutils/generators/beanmatcher/generation/JavaPoetHasPropertyMatcherClassGenerator.java:79-96 | for any property list: constructor, the property methods as one block, the three delegates forwarding to the inner matcher, then the factory |
| BeanMatcherClassGenerator.PublicMethodCountAppend | hamcrest-matcher-generator-core/src/main/java/io/github/marmer/testutils/generators/beanmatcher/generation/JavaPoetHasPropertyMatcherClassGenerator.java:79-89 | public methods of concatenated lists add up |
| BeanMatcherClassGenerator.PublicMethodsOfGeneratedType | hamcrest-matcher-generator-core/src/main/java/io/github/marmer/testutils/generators/beanmatcher/generation/JavaPoetHasPropertyMatcherClassGenerator.java:79-168 | the generated class has M + 2(N - M) + 2 public methods for N properties of which M are Matcher-typed |
| BeanMatcherClassGenerator.PublicMethodsOf | hamcrest-matcher-generator-core/src/main/java/io/github/marmer/testutils/generators/beanmatcher/generation/JavaPoetHasPropertyMatcherClassGenerator.java:79-168 | for any property list the class has M + 2(N - M) + 2 public methods |
| BeanMatcherClassGenerator.TrailingMethodsArePublic | hamcrest-matcher-generator-core/src/main/java/io/github/marmer/testutils/generators/beanmatcher/generation/JavaPoetHasPropertyMatcherClassGenerator.java:91-136 | of the three delegates and the factory exactly two are public: describeTo and the factory |
| ProcessorWorker.HighestNestingType | hamcrest-matcher-generator-annotationprocessor/src/main/kotlin/io/github/marmer/annotationprocessing/MatcherGenerationProcessorWorker.kt:97-101 | null stays null; otherwise the outermost enclosing type, top-level and in the same package |
| ProcessorWorker.HighestNestingTypeIdempotent | hamcrest-matcher-generator-annotationprocessor/src/main/kotlin/io/github/marmer/annotationprocessing/MatcherGenerationProcessorWorker.kt:97-101 | the outermost type of an outermost type is itself |
| ProcessorWorker.HighestNestingTypeOfNested | hamcrest-matcher-generator-annotationprocessor/src/main/kotlin/io/github/marmer/annotationprocessing/MatcherGenerationProcessorWorker.kt:97-101 | a nested type and its enclosing type have the same outermost type |
| ProcessorWorker.PackageTypes | hamcrest-matcher-generator-annotationprocessor/src/main/kotlin/io/github/marmer/annotationprocessing/MatcherGenerationProcessorWorker.kt:79-82 | one type per member of the package, and a type is collected iff it is top-level in that package and declared by one of its members |
| ProcessorWorker.TypesOfPackagesNamed | hamcrest-matcher-generator-annotationprocessor/src/main/kotlin/io/github/marmer/annotationprocessing/MatcherGenerationProcessorWorker.kt:79-81 | a type is collected iff it is a member of a package carrying the configured name |
| ProcessorWorker.TypesForName | hamcrest-matcher-generator-annotationprocessor/src/main/kotlin/io/github/marmer/annotationprocessing/MatcherGenerationProcessorWorker.kt:75-95 | a type is resolved iff it is in a package of that name or is the outermost type of the type of that name; no result logs exactly one warning, a result logs none |
| ProcessorWorker.ResolvedTypesAreTopLevel | hamcrest-matcher-generator-annotationprocessor/src/main/kotlin/io/github/marmer/annotationprocessing/MatcherGenerationProcessorWorker.kt:75-89 | every resolved type is top-level, in the named package or in the package of the named type |
| ProcessorWorker.ResolveNames | hamcrest-matcher-generator-annotationprocessor/src/main/kotlin/io/github/marmer/annotationprocessing/MatcherGenerationProcessorWorker.kt:66-73 | a type is resolved iff some configured name resolves to it; a warning is logged iff some name resolves to nothing |
| ProcessorWorker.TypesFor | hamcrest-matcher-generator-annotationprocessor/src/main/kotlin/io/github/marmer/annotationprocessing/MatcherGenerationProcessorWorker.kt:66-73 | as ResolveNames, no type appears twice, and no warning appears twice, so a name configured several times that resolves to nothing is warned about once |
| ProcessorWorker.ResolveNamesWarnsOnce | hamcrest-matcher-generator-annotationprocessor/src/main/kotlin/io/github/marmer/annotationprocessing/MatcherGenerationProcessorWorker.kt:66-73 | resolving pairwise different names prints no warning twice |
| ProcessorWorker.RepeatedUnresolvedNameWarnedOnce | hamcrest-matcher-generator-annotationprocessor/src/main/kotlin/io/github/marmer/annotationprocessing/MatcherGenerationProcessorWorker.kt:66-73 | a configuration listing the same unresolvable name twice yields exactly one warning for it |
| ProcessorWorker.ExpandToNestedTypes | hamcrest-matcher-generator-annotationprocessor/src/main/kotlin/io/github/marmer/annotationprocessing/MatcherGenerationProcessorWorker.kt:59-64 | the type itself comes first and every expanded type lies below it through public nested types |
| ProcessorWorker.BelowChild | hamcrest-matcher-generator-annotationprocessor/src/main/kotlin/io/github/marmer/annotationprocessing/MatcherGenerationProcessorWorker.kt:59-64 | a type below a public member type is below its enclosing type |
| ProcessorWorker.ExpansionIncludesPublicMembers | hamcrest-matcher-generator-annotationprocessor/src/main/kotlin/io/github/marmer/annotationprocessing/MatcherGenerationProcessorWorker.kt:59-64 | the expansion of a public nested type is part of the expansion of its enclosing type |
| ProcessorWorker.NonPublicMembersExcluded | hamcrest-matcher-generator-annotationprocessor/src/main/kotlin/io/github/marmer/annotationprocessing/MatcherGenerationProcessorWorker.kt:59-64 | nothing at or below a non-public nested type is in the expansion |
| ProcessorWorker.ExpansionWellNested | hamcrest-matcher-generator-annotationprocessor/src/main/kotlin/io/github/marmer/annotationprocessing/MatcherGenerationProcessorWorker.kt:59-64 | expansion keeps every type's enclosing chain consistent |
| ProcessorWorker.ExpansionsMembers | hamcrest-matcher-generator-annotationprocessor/src/main/kotlin/io/github/marmer/annotationprocessing/MatcherGenerationProcessorWorker.kt:56 | a type is expanded iff it is in the expansion of some input type |
| ProcessorWorker.TypesForAllMembers | hamcrest-matcher-generator-annotationprocessor/src/main/kotlin/io/github/marmer/annotationprocessing/MatcherGenerationProcessorWorker.kt:54-55 | a type is collected iff some configuration resolves to it |
| ProcessorWorker.TypesWithAsserters | hamcrest-matcher-generator-annotationprocessor/src/main/kotlin/io/github/marmer/annotationprocessing/MatcherGenerationProcessorWorker.kt:53-57 | no type twice, and the warnings are those of resolving every configuration |
| ProcessorWorker.TypesWithAssertersMembers | hamcrest-matcher-generator-annotationprocessor/src/main/kotlin/io/github/marmer/annotationprocessing/MatcherGenerationProcessorWorker.kt:53-57 | a type has an asserter iff it lies in the expansion of a type some configuration resolves to |
| ProcessorWorker.GenerateEachFiles | hamcrest-matcher-generator-annotationprocessor/src/main/kotlin/io/github/marmer/annotationprocessing/MatcherGenerationProcessorWorker.kt:36-50 | one file per type not generated by this processor, in order |
| ProcessorWorker.GenerateEachFileOwner | hamcrest-matcher-generator-annotationprocessor/src/main/kotlin/io/github/marmer/annotationprocessing/MatcherGenerationProcessorWorker.kt:36-50 | every file of the loop is the matcher file of an input type not generated by this processor |
| ProcessorWorker.GenerateEachNotesSelfGenerated | hamcrest-matcher-generator-annotationprocessor/src/main/kotlin/io/github/marmer/annotationprocessing/MatcherGenerationProcessorWorker.kt:120-138 | a type generated by this processor gets the skip note |
| ProcessorWorker.SelfGeneratedTypesSkipped | hamcrest-matcher-generator-annotationprocessor/src/main/kotlin/io/github/marmer/annotationprocessing/MatcherGenerationProcessorWorker.kt:36-40 | a type generated by this processor is noted, is not among the types the loop generates for, every file of the loop belongs to another type, and the loop writes fewer files than it has types |
| ProcessorWorker.GenerateMatcherBy | hamcrest-matcher-generator-annotationprocessor/src/main/kotlin/io/github/marmer/annotationprocessing/MatcherGenerationProcessorWorker.kt:35-51 | the resolution warnings come first, then one file per non-self-generated resolved type |
| ProcessorWorker.GenerateMatcherByFileOwner | hamcrest-matcher-generator-annotationprocessor/src/main/kotlin/io/github/marmer/annotationprocessing/MatcherGenerationProcessorWorker.kt:35-51 | every file belongs to a type the configuration resolves to and this processor did not generate |
| ProcessorWorker.GenerateMatcherByFileFor | hamcrest-matcher-generator-annotationprocessor/src/main/kotlin/io/github/marmer/annotationprocessing/MatcherGenerationProcessorWorker.kt:35-51 | every such type gets its file |
| ProcessorWorker.GenerateMatcherByFileIsOwned | hamcrest-matcher-generator-annotationprocessor/src/main/kotlin/io/github/marmer/annotationprocessing/MatcherGenerationProcessorWorker.kt:35-51 | a written file is the matcher of a resolved type this processor did not generate |
| ProcessorWorker.GenerateMatcherByFiles | hamcrest-matcher-generator-annotationprocessor/src/main/kotlin/io/github/marmer/annotationprocessing/MatcherGenerationProcessorWorker.kt:35-51 | a file is written iff it is the matcher of such a type |
| ProcessorWorker.GenerateForAllFiles | hamcrest-matcher-generator-annotationprocessor/src/main/kotlin/io/github/marmer/annotationprocessing/MatcherGenerationProcessorWorker.kt:26-28 | a file is handed over iff it belongs to a non-self-generated type of one of the configurations |
| ProcessorWorker.GenerateForAllFileOwner | hamcrest-matcher-generator-annotationprocessor/src/main/kotlin/io/github/marmer/annotationprocessing/MatcherGenerationProcessorWorker.kt:26-28 | every file handed over is the matcher of a non-self-generated type of one of the configurations |
| ProcessorWorker.GenerateForAllFileFor | hamcrest-matcher-generator-annotationprocessor/src/main/kotlin/io/github/marmer/annotationprocessing/MatcherGenerationProcessorWorker.kt:26-28 | every non-self-generated type of one of the configurations gets its file handed over |
| ProcessorWorker.Process | hamcrest-matcher-generator-annotationprocessor/src/main/kotlin/io/github/marmer/annotationprocessing/MatcherGenerationProcessorWorker.kt:21-33 | takes the claiming branch iff processing is not over and the configuration annotation is present (`claimed` records that branch; it is the returned value unless a refusal makes `process` throw instead); a final round logs and writes nothing; otherwise the start note comes first; an unclaimed round writes nothing and nothing is refused |
| ProcessorWorker.ProcessWritesConfiguredTypes | hamcrest-matcher-generator-annotationprocessor/src/main/kotlin/io/github/marmer/annotationprocessing/MatcherGenerationProcessorWorker.kt:21-51 | in a claimed round every created file is the matcher of a configured, non-self-generated type, and when the Filer refuses nothing a file is created iff it is such a matcher |
| ProcessorWorker.ProcessFilesAttempted | hamcrest-matcher-generator-annotationprocessor/src/main/kotlin/io/github/marmer/annotationprocessing/MatcherGenerationProcessorWorker.kt:21-51 | a claimed round creates only files it hands to the Filer, and all of them when nothing is refused |
| ProcessorWorker.ProcessRefusesIffRepeated | hamcrest-matcher-generator-annotationprocessor/src/main/kotlin/io/github/marmer/annotationprocessing/MatcherGenerationProcessorWorker.kt:21-51 | a claimed round ends in a refusal iff two of its files share a type name or one was created before |
| ProcessorWorker.ProcessCreatesInOrder | hamcrest-matcher-generator-annotationprocessor/src/main/kotlin/io/github/marmer/annotationprocessing/MatcherGenerationProcessorWorker.kt:21-51 | files are created in the order they are handed over; after a refusal exactly those before the refused file, whose name was created before or earlier in the round |
| ProcessorWorker.TypeConfiguredTwiceIsRefused | hamcrest-matcher-generator-annotationprocessor/src/main/kotlin/io/github/marmer/annotationprocessing/MatcherGenerationProcessorWorker.kt:26-51 | when any two configuration elements of a claimed round both resolve a type that is not self-generated, its file is handed over twice and the round ends in the Filer's refusal |
| ProcessorWorker.GenerateForAllSplit | hamcrest-matcher-generator-annotationprocessor/src/main/kotlin/io/github/marmer/annotationprocessing/MatcherGenerationProcessorWorker.kt:26-30 | the files handed over for the configurations are those of the ones before any position, then those of the rest |
| ProcessorWorker.ConfiguredTwiceNotFresh | hamcrest-matcher-generator-annotationprocessor/src/main/kotlin/io/github/marmer/annotationprocessing/MatcherGenerationProcessorWorker.kt:26-51 | when two configurations at different positions resolve the same type, the files handed over repeat a type name |
| ProcessorWorker.TypeStepsProjections | hamcrest-matcher-generator-annotationprocessor/src/main/kotlin/io/github/marmer/annotationprocessing/MatcherGenerationProcessorWorker.kt:37-49 | one type's steps print exactly its diagnostics and hand over exactly its file unless it is self-generated |
| ProcessorWorker.EachStepsProjections | hamcrest-matcher-generator-annotationprocessor/src/main/kotlin/io/github/marmer/annotationprocessing/MatcherGenerationProcessorWorker.kt:36-50 | the loop's steps print exactly its log and hand over exactly its files |
| ProcessorWorker.ConfigStepsProjections | hamcrest-matcher-generator-annotationprocessor/src/main/kotlin/io/github/marmer/annotationprocessing/MatcherGenerationProcessorWorker.kt:35-51 | a configuration's steps print exactly its log and hand over exactly its files |
| ProcessorWorker.RoundStepsProjections | hamcrest-matcher-generator-annotationprocessor/src/main/kotlin/io/github/marmer/annotationprocessing/MatcherGenerationProcessorWorker.kt:26-28 | the round's steps print exactly the log of all configurations and hand over exactly their files |
| ProcessorWorker.ClaimedStepsWritten | hamcrest-matcher-generator-annotationprocessor/src/main/kotlin/io/github/marmer/annotationprocessing/MatcherGenerationProcessorWorker.kt:25-28 | a claimed round hands the Filer exactly the files of all configurations, in order |
| Filer.Says | hamcrest-matcher-generator-annotationprocessor/src/main/kotlin/io/github/marmer/annotationprocessing/MatcherGenerator.kt:30-35 | one printing event per diagnostic |
| Filer.SaysPrintsOnly | hamcrest-matcher-generator-annotationprocessor/src/main/kotlin/io/github/marmer/annotationprocessing/MatcherGenerator.kt:30-35 | printing events print their diagnostics and hand over no file |
| Filer.ProjectionsAppend | hamcrest-matcher-generator-annotationprocessor/src/main/kotlin/io/github/marmer/annotationprocessing/MatcherGenerator.kt:30-35 | printed diagnostics and handed-over files of joined events are those of the parts, joined |
| Filer.PrintedAppend | hamcrest-matcher-generator-annotationprocessor/src/main/kotlin/io/github/marmer/annotationprocessing/MatcherGenerator.kt:30-35 | printed diagnostics distribute over joining events |
| Filer.WrittenAppend | hamcrest-matcher-generator-annotationprocessor/src/main/kotlin/io/github/marmer/annotationprocessing/MatcherGenerator.kt:30-35 | handed-over files distribute over joining events |
| Filer.SharedNotFresh | hamcrest-matcher-generator-annotationprocessor/src/main/kotlin/io/github/marmer/annotationprocessing/MatcherGenerator.kt:30-35 | two lists of files that share a file cannot both be created |
| Filer.FreshCons | hamcrest-matcher-generator-annotationprocessor/src/main/kotlin/io/github/marmer/annotationprocessing/MatcherGenerator.kt:30-35 | a list can be created iff its head's name is free and its tail can be created once that name is taken |
| Filer.Run | hamcrest-matcher-generator-annotationprocessor/src/main/kotlin/io/github/marmer/annotationprocessing/MatcherGenerator.kt:30-35 | the Filer never creates more files than it is handed |
| Filer.RunRefusesIffRepeated | hamcrest-matcher-generator-annotationprocessor/src/main/kotlin/io/github/marmer/annotationprocessing/MatcherGenerator.kt:30-35 | the Filer refuses nothing iff the files handed over have pairwise distinct type names, none already created |
| Filer.RunWithoutRefusal | hamcrest-matcher-generator-annotationprocessor/src/main/kotlin/io/github/marmer/annotationprocessing/MatcherGenerator.kt:30-35 | without a refusal every diagnostic is printed and every file created, in order |
| Filer.RunRefused | hamcrest-matcher-generator-annotationprocessor/src/main/kotlin/io/github/marmer/annotationprocessing/MatcherGenerator.kt:30-35 | after a refusal the created files are exactly those handed over before the refused one, whose name was taken before or created earlier |
| MatcherFileGenerator.GenerateMatchersFor | hamcrest-matcher-generator-core/src/main/java/io/github/marmer/testutils/generators/beanmatcher/MatcherFileGenerator.java:52-64 | classes are handed over in order; success iff every class succeeds, the paths then matching the classes; a failure stops at the failing class, all before it having succeeded |
| MatcherFileGenerator.SuccessfulPaths | hamcrest-matcher-generator-core/src/main/java/io/github/marmer/testutils/generators/beanmatcher/MatcherFileGenerator.java:52-64 | as many paths as classes that do not fail, and a path is kept iff some class generates it |
| MatcherFileGenerator.SuccessfulPathsAppend | hamcrest-matcher-generator-core/src/main/java/io/github/marmer/testutils/generators/beanmatcher/MatcherFileGenerator.java:52-64 | the kept paths of joined class lists are those of each list, joined |
| MatcherFileGenerator.FailureCount | hamcrest-matcher-generator-core/src/main/java/io/github/marmer/testutils/generators/beanmatcher/MatcherFileGenerator.java:52-64 | zero iff every class succeeds |
| MatcherFileGenerator.GenerateHelperForClassesAllIn | hamcrest-matcher-generator-core/src/main/java/io/github/marmer/testutils/generators/beanmatcher/MatcherFileGenerator.java:41-50 | succeeds iff no class fails, loading the paths of all classes; otherwise fails with the error of the first failing class |
| MatcherFileGenerator.AllSucceededPaths | hamcrest-matcher-generator-core/src/main/java/io/github/marmer/testutils/generators/beanmatcher/MatcherFileGenerator.java:52-64 | without failures the loop's paths are the successful paths |
| MatcherFileGenerator.FailureLog | hamcrest-matcher-generator-core/src/test/java/io/github/marmer/testutils/generators/beanmatcher/MatcherFileGeneratorTest.java:134-163 | exactly one `Error on matcher generation for <class>` entry with its cause per failing class |
| MatcherFileGenerator.GenerateHelperIsolated | hamcrest-matcher-generator-core/src/test/java/io/github/marmer/testutils/generators/beanmatcher/MatcherFileGeneratorTest.java:109-132 | loads exactly the paths of the succeeding classes, and logs "Error on matcher generation for <class>" with its cause for exactly the failing classes; loaded plus logged classes account for every class |
| MatcherFileGenerator.IsolationAgreesWithoutFailures | hamcrest-matcher-generator-core/src/main/java/io/github/marmer/testutils/generators/beanmatcher/MatcherFileGenerator.java:41-50 | with no failing class the isolating driver loads what the driver as written loads and logs nothing |
| MatcherFileGenerator.OneFailureIsolated | hamcrest-matcher-generator-core/src/test/java/io/github/marmer/testutils/generators/beanmatcher/MatcherFileGeneratorTest.java:109-132 | with exactly one failing class the classes before and after it succeed, the loaded paths are theirs in order, and the single log entry names that class with its error |
| MatcherFileGenerator.OneFailurePaths | hamcrest-matcher-generator-core/src/test/java/io/github/marmer/testutils/generators/beanmatcher/MatcherFileGeneratorTest.java:109-132 | with exactly one failing class the kept paths are those of the classes before it followed by those after it |
| MatcherFileGenerator.NoFailureAround | hamcrest-matcher-generator-core/src/test/java/io/github/marmer/testutils/generators/beanmatcher/MatcherFileGeneratorTest.java:109-132 | with exactly one failing class no class before or after it fails |
| MatcherFileGenerator.SkipFailingPaths | hamcrest-matcher-generator-core/src/main/java/io/github/marmer/testutils/generators/beanmatcher/MatcherFileGenerator.java:52-64 | a failing class between two lists contributes no path |
| MatcherFileGenerator.OneFailureLogged | hamcrest-matcher-generator-core/src/test/java/io/github/marmer/testutils/generators/beanmatcher/MatcherFileGeneratorTest.java:134-163 | with exactly one failing class the log is the single entry for that class |
| MatcherFileGenerator.BatchAbortsOnFailingClass | hamcrest-matcher-generator-core/src/test/java/io/github/marmer/testutils/generators/beanmatcher/MatcherFileGeneratorTest.java:109-132 | for the test's two classes, the driver as written fails with `someError`, the isolating one loads the first path and logs the second class |

## Left out

- Rendering: the JavaPoet source text is not modelled, nor imports, indentation or `skipJavaLangImports`. The model stops at the structure of the generated class.
- The `@Generated` date and the time provider: the timestamp is an external clock, so the model carries only the generator-name value.
- Messager and Filer I/O: a printed diagnostic is an entry in the log, and a written file is a `JavaFile` value the `Filer` model accepts or refuses. The only refusal modelled is a repeated type name; other I/O errors of the `Filer` are left out. Diagnostic locations are also left out, i.e. the element, the annotation mirror and the annotation value a message is attached to.
- The `Filer` key: JavaPoet's `writeTo(Filer)` creates the source file of `<package>.<Name>`, or of `<Name>` in the unnamed package. JavaPoet is not part of this model, so `ProcessorWorker.SourceTypeName` states that key rather than deriving it. Originating elements passed to the `Filer` are not modelled.
- JavaPoet's builder checks: `TypeSpec.classBuilder` and `MethodSpec.methodBuilder` reject a name that `SourceVersion.isName` refuses, and `ParameterizedTypeName.get` rejects a primitive or `void` type argument. JavaPoet is not part of this model, so `PrepareJavaFile` and `GenerateMatcherFor` take the name test as an `isName` parameter. In the source these `IllegalArgumentException`s escape `generateMatcherFor` unmapped; the model reports them as the error values `InvalidTypeName`, `InvalidTypeArgument` and `InvalidMethodName`. The checks on the `with` method names and on parameter names are not modelled: property names come from the extractor, which yields Java names.
- The success of a file write: `GenerateMatcherFor` takes it as a `writeSucceeds` parameter.
- Collaborators of the batch driver become parameters, because their code is not part of this model: the class finder, the illegal-class filter, the class loader, the naming strategy and the bean property extractor.
- Loader failures: the `IOException` that the loader may throw is not modelled.
- The two `MatcherGenerationProcessor.java` entry points: they only forward to the worker or print. Compilation and class loading of the generated sources are also left out.
- Locale-sensitive case mapping is modelled as ASCII upper/lower case. Title case is not modelled.
- Class names: `Class.getName` versus canonical names, and `Class.toString`, are modelled by `Describe` as `class`/`interface` plus the name.
- Property accessors: the `accessor` field of a property is modelled as the accessor's simple name, not the `toString` of the method element.
- Same-named packages are modelled as separate package values (several modules may share one name).
- `boxedType`: the type-variable branch of `when (type)` compares a type mirror with a Boolean condition and names `typeUtils.Object`, which does not exist. The model follows the evident intent: a type variable boxes to `java.lang.Object`.
- ProcessorWorker.GenerateMatcherBy: the worker passes `listOf(generationConfiguration)` where the generator declares an annotation mirror. That argument is only used as a diagnostic location, which is not modelled.
- ProcessorWorker.TypesForName: the warning is emitted once per `@MatcherConfiguration` mirror on the configuration element. The annotation is not repeatable, so the model logs exactly one. The message keeps the source's wording "Neither a type nor a type exists for '<name>'".
- BeanMatcherClassGenerator.GenerateMatcherFor: the write error carries only the message "Error on writing Matcher for <class>". The source drops the `IOException` cause, and the model follows the code.
- BeanMatcherClassGenerator.PublicMethodsOfGeneratedType: the count is M + 2(N − M) + 2. Besides the property methods, the public methods are `describeTo` and the factory. `matchesSafely` and `describeMismatchSafely` are protected. A count of M + 2(N − M) + 1 would disagree with the code.
- PropertyExtraction.Properties: names are not unique. `distinctBy` works on the accessor's simple name, so `Boolean getActive()` and `boolean isActive()` both survive. Both give a property named `active` (`GetterAndIsAccessorShareAPropertyName`), and the generated class then declares `withActive(Matcher<? super Boolean>)` twice (`ActiveMatcherMethodsCollide`), so it does not compile. The model keeps this behaviour, because the code does not say which of the two accessors should win.
- MatcherGenerator.SkipNotes: its own contract states only that every non-public nested type of the base gets a note. `SkipNotesAreHiddenTypes` states exactly which notes appear; neither states their order or how often each appears.
- MatcherGenerator.Generate: states the package and the class name; the rest of the class is stated by `PreparedTypeLayout` and the lemmas after it.
- ProcessorWorker.TypesWithAsserters: as a function it states distinctness and the log. Membership is stated separately by `TypesWithAssertersMembers`.
- ProcessorWorker.ProcessWritesConfiguredTypes: promises a file for every configured type only when the `Filer` refuses nothing. After a refusal it promises only that the created files are matchers of configured types; `ProcessCreatesInOrder` says which ones.

## Findings

| source | as written | input that shows it | evidently intended | confidence | as-written member | corrected member |
|---|---|---|---|---|---|---|
| hamcrest-matcher-generator-core/src/main/java/io/github/marmer/testutils/generators/beanmatcher/MatcherFileGenerator.java:52-64 | the loop lets the first generator exception escape, so the classes after it get no matcher and nothing is loaded | two legal classes where generating the second throws `IOException("someError")`: the call fails instead of returning the first class's matcher | a failing class is logged as "Error on matcher generation for <class>" with its cause and skipped; the others are generated and loaded (as the driver's tests expect) | not executed | MatcherFileGenerator.BatchAbortsOnFailingClass | MatcherFileGenerator.OneFailureIsolated |

=== FILE: bean_matcher_generator.dfy ===
/**
 * The reflective matcher generator of the core module
 * (`JavaPoetHasPropertyMatcherClassGenerator`): for a runtime class it
 * builds a public `<Name>` extends `TypeSafeMatcher<Type>` whose name and
 * package come from a pluggable naming strategy, with one `with` method for
 * a `Matcher`-typed property and two for every other property, writes it
 * below an output directory and returns the written file's path.
 */
module BeanMatcherClassGenerator {
  import opened Outcomes
  import opened Seqs
  import opened Text
  import opened Elements
  import opened ClassIR

  /** The package used when the naming strategy names none. */
  const NoPackage := ""
  /** The generator's own class name, recorded in `@Generated`. */
  const GeneratorName := "io.github.marmer.testutils.generators.beanmatcher.generation.JavaPoetHasPropertyMatcherClassGenerator"
  const TypeNameErrorPrefix := "Error on type name generation for the metcher for "
  const WriteErrorPrefix := "Error on writing Matcher for "
  const SourceSuffix := ".java"

  /** A runtime `Class<?>`: its binary name, simple name and kind. */
  datatype JavaClass = JavaClass(name: string, simpleName: string, isInterface: bool, isPrimitive: bool)

  /** `Class.toString()`: "interface ", "" (primitive) or "class " before the name. */
  function Describe(c: JavaClass): string
  {
    (if c.isInterface then "interface " else if c.isPrimitive then "" else "class ") + c.name
  }

  /** A property found by the property extractor: its name and declared type. */
  datatype BeanProperty = BeanProperty(name: string, propertyType: JavaClass)

  /** A `MatcherNamingStrategy`: either part of the decision may be absent. */
  datatype NamingStrategy = NamingStrategy(
    packageFor: JavaClass -> Option<string>,
    typeNameFor: JavaClass -> Option<string>)

  /** The generator's collaborators: the property extractor, the output directory, the naming strategy. */
  datatype ClassGenerator = ClassGenerator(
    propertiesOf: JavaClass -> seq<BeanProperty>,
    outputDir: string,
    naming: NamingStrategy)

  /**
   * The exceptions `generateMatcherFor` can end in: the two of its own, and
   * the `IllegalArgumentException`s JavaPoet's builders throw, which it does
   * not catch: a class name that is not a Java name, a primitive or `void`
   * type argument of `TypeSafeMatcher`, and a method name that is not a
   * Java name.
   */
  datatype GenerationError =
    | MatcherGenerationRuntimeException(message: string)
    | MatcherGenerationException(message: string)
    | InvalidTypeName(name: string)
    | InvalidTypeArgument(typeName: string)
    | InvalidMethodName(name: string)

  /** `outputDir.resolve(fileName)`. */
  datatype OutputPath = Resolved(directory: string, fileName: string)

  function TypeOf(c: JavaClass): TypeName
  {
    Raw(c.name)
  }

  /** `packageNameFor`: the strategy's package, the empty package when it has none. */
  function PackageNameFor(g: ClassGenerator, c: JavaClass): string
  {
    match g.naming.packageFor(c)
    case Some(p) => p
    case None => NoPackage
  }

  /** A property whose type is exactly `org.hamcrest.Matcher`. */
  predicate IsMatcherTyped(p: BeanProperty)
  {
    p.propertyType.name == MatcherClassName
  }

  /** `Matcher<? extends Object>`, the parameter type of every matcher method. */
  function AnyMatcherType(): TypeName
  {
    Parameterized(Raw(MatcherClassName), [ExtendsOf(Raw(ObjectClassName))])
  }

  /** `propertyMatcherMethodFor`: `with<Name>(Matcher<? extends Object> matcher)`. */
  function PropertyMatcherMethod(self: TypeName, p: BeanProperty): MethodDesc
  {
    MethodDesc(WithMethodName(p.name), {Public}, [], [ParamDesc(AnyMatcherType(), "matcher")],
      Some(self), [Register(InnerMatcherField, p.name, MatcherArgument), ReturnThis])
  }

  /** `propertyMethodFor`: `with<Name>(Type value)` registering `equalTo(value)`. */
  function PropertyValueMethod(self: TypeName, p: BeanProperty): MethodDesc
  {
    MethodDesc(WithMethodName(p.name), {Public}, [], [ParamDesc(TypeOf(p.propertyType), "value")],
      Some(self), [Register(InnerMatcherField, p.name, EqualToValue), ReturnThis])
  }

  /** The number of `Matcher`-typed properties. */
  function MatcherTypedCount(props: seq<BeanProperty>): (r: nat)
    ensures r <= |props|
  {
    if |props| == 0 then 0
    else (if IsMatcherTyped(props[0]) then 1 else 0) + MatcherTypedCount(props[1..])
  }

  /** The methods one property contributes. */
  function MethodsOfProperty(self: TypeName, p: BeanProperty): seq<MethodDesc>
  {
    if IsMatcherTyped(p) then [PropertyMatcherMethod(self, p)]
    else [PropertyMatcherMethod(self, p), PropertyValueMethod(self, p)]
  }

  /**
   * `propertyMethods`: the methods of every property in extractor order; a
   * class with N properties of which M are `Matcher`-typed gets
   * M + 2(N - M) of them.
   */
  function PropertyMethods(self: TypeName, props: seq<BeanProperty>): (r: seq<MethodDesc>)
    ensures |r| == MatcherTypedCount(props) + 2 * (|props| - MatcherTypedCount(props))
  {
    if |props| == 0 then []
    else MethodsOfProperty(self, props[0]) + PropertyMethods(self, props[1..])
  }

  lemma {:induction false} PropertyMethodsAppend(self: TypeName, a: seq<BeanProperty>, b: seq<BeanProperty>)
    ensures PropertyMethods(self, a + b) == PropertyMethods(self, a) + PropertyMethods(self, b)
  {
    if |a| == 0 {
      assert a + b == b;
    } else {
      TailOfAppend(a, b);
      PropertyMethodsAppend(self, a[1..], b);
      var own := MethodsOfProperty(self, a[0]);
      calc {
        PropertyMethods(self, a + b);
        own + PropertyMethods(self, a[1..] + b);
        own + (PropertyMethods(self, a[1..]) + PropertyMethods(self, b));
        { AppendAssoc(own, PropertyMethods(self, a[1..]), PropertyMethods(self, b)); }
        (own + PropertyMethods(self, a[1..])) + PropertyMethods(self, b);
        PropertyMethods(self, a) + PropertyMethods(self, b);
      }
    }
  }

  /**
   * Property `i`'s methods start after those of the properties before it
   * (two each, one for a `Matcher`-typed one): first the matcher method,
   * then, unless the property is `Matcher`-typed, the value method; both
   * public, fluent, named `with` + the capitalized property name.
   */
  lemma PropertyMethodsOfProperty(self: TypeName, props: seq<BeanProperty>, i: nat)
    requires i < |props|
    ensures var r := PropertyMethods(self, props);
      var k := 2 * i - MatcherTypedCount(props[..i]);
      && 0 <= k < |r|
      && r[k] == PropertyMatcherMethod(self, props[i])
      && IsFluentRegistration(r[k], props[i].name, MatcherArgument, self)
      && r[k].parameters == [ParamDesc(AnyMatcherType(), "matcher")]
      && (!IsMatcherTyped(props[i]) ==>
            && k + 1 < |r|
            && r[k + 1] == PropertyValueMethod(self, props[i])
            && IsFluentRegistration(r[k + 1], props[i].name, EqualToValue, self)
            && r[k + 1].parameters == [ParamDesc(TypeOf(props[i].propertyType), "value")])
      && (IsMatcherTyped(props[i]) && i + 1 < |props| ==>
            k + 1 < |r| && r[k + 1] == PropertyMatcherMethod(self, props[i + 1]))
  {
    PropertyMethodsAt(self, props, i);
    PropertyMethodShapes(self, props[i]);
  }

  /** Where property `i`'s methods sit among the methods of all properties. */
  lemma PropertyMethodsAt(self: TypeName, props: seq<BeanProperty>, i: nat)
    requires i < |props|
    ensures var r := PropertyMethods(self, props);
      var k := 2 * i - MatcherTypedCount(props[..i]);
      && 0 <= k < |r|
      && r[k] == PropertyMatcherMethod(self, props[i])
      && (!IsMatcherTyped(props[i]) ==> k + 1 < |r| && r[k + 1] == PropertyValueMethod(self, props[i]))
      && (IsMatcherTyped(props[i]) && i + 1 < |props| ==>
            k + 1 < |r| && r[k + 1] == PropertyMatcherMethod(self, props[i + 1]))
  {
    var pre := PropertyMethods(self, props[..i]);
    var own := MethodsOfProperty(self, props[i]);
    var post := PropertyMethods(self, props[i + 1..]);
    PropertyMethodsAround(self, props, i);
    AtMiddle(pre, own, post, 0);
    if !IsMatcherTyped(props[i]) {
      AtMiddle(pre, own, post, 1);
    } else if i + 1 < |props| {
      AtLast(pre, own, post, 0);
      assert props[i + 1..][0] == props[i + 1];
    }
  }

  /** Both methods of a property are public fluent registrations of it, with one parameter each. */
  lemma PropertyMethodShapes(self: TypeName, p: BeanProperty)
    ensures IsFluentRegistration(PropertyMatcherMethod(self, p), p.name, MatcherArgument, self)
    ensures PropertyMatcherMethod(self, p).parameters == [ParamDesc(AnyMatcherType(), "matcher")]
    ensures IsFluentRegistration(PropertyValueMethod(self, p), p.name, EqualToValue, self)
    ensures PropertyValueMethod(self, p).parameters == [ParamDesc(TypeOf(p.propertyType), "value")]
  {
  }

  /** The methods of a bean's properties are those before property `i`, its own, and those after it. */
  lemma PropertyMethodsAround(self: TypeName, props: seq<BeanProperty>, i: nat)
    requires i < |props|
    ensures PropertyMethods(self, props)
      == PropertyMethods(self, props[..i]) + MethodsOfProperty(self, props[i]) + PropertyMethods(self, props[i + 1..])
  {
    var before := props[..i];
    var after := props[i + 1..];
    SplitAt(props, i);
    AppendAssoc(before, [props[i]], after);
    PropertyMethodsAppend(self, before, [props[i]] + after);
    TailOfAppend([props[i]], after);
    AppendAssoc(PropertyMethods(self, before), MethodsOfProperty(self, props[i]), PropertyMethods(self, after));
  }

  /** Every property method belongs to one property: its matcher method or, for a non-`Matcher` property, its value method. */
  lemma {:induction false} PropertyMethodOwner(self: TypeName, props: seq<BeanProperty>, j: nat) returns (i: nat)
    requires j < |PropertyMethods(self, props)|
    ensures i < |props|
    ensures var m := PropertyMethods(self, props)[j];
      || m == PropertyMatcherMethod(self, props[i])
      || (!IsMatcherTyped(props[i]) && m == PropertyValueMethod(self, props[i]))
  {
    var own := MethodsOfProperty(self, props[0]);
    if j < |own| {
      i := 0;
      HeadPropertyMethod(self, props, j);
    } else {
      TailPropertyMethod(self, props, j);
      var i' := PropertyMethodOwner(self, props[1..], j - |own|);
      i := i' + 1;
      assert props[1..][i'] == props[i];
    }
  }

  /** The first methods are the first property's own. */
  lemma HeadPropertyMethod(self: TypeName, props: seq<BeanProperty>, j: nat)
    requires |props| > 0 && j < |MethodsOfProperty(self, props[0])|
    ensures j < |PropertyMethods(self, props)|
    ensures var m := PropertyMethods(self, props)[j];
      || m == PropertyMatcherMethod(self, props[0])
      || (!IsMatcherTyped(props[0]) && m == PropertyValueMethod(self, props[0]))
  {
    var own := MethodsOfProperty(self, props[0]);
    assert PropertyMethods(self, props) == own + PropertyMethods(self, props[1..]);
  }

  /** The methods after the first property's own are those of the remaining properties. */
  lemma TailPropertyMethod(self: TypeName, props: seq<BeanProperty>, j: nat)
    requires |props| > 0 && |MethodsOfProperty(self, props[0])| <= j < |PropertyMethods(self, props)|
    ensures var k := j - |MethodsOfProperty(self, props[0])|;
      && k < |PropertyMethods(self, props[1..])|
      && PropertyMethods(self, props)[j] == PropertyMethods(self, props[1..])[k]
  {
    var own := MethodsOfProperty(self, props[0]);
    assert PropertyMethods(self, props) == own + PropertyMethods(self, props[1..]);
  }

  /** `factoryMethod`: `public static is<Simple>()` returning `new <Name>()`. */
  function FactoryMethod(self: TypeName, c: JavaClass): MethodDesc
  {
    MethodDesc(FactoryMethodName(c.simpleName), {Public, Static}, [], [], Some(self), [ReturnNew(self)])
  }

  /** `generatedAnnotations`: `@Generated(<generator class>)` and `@BasedOn(<type>.class)`. */
  function GeneratedAnnotations(c: JavaClass): (r: seq<AnnotationDesc>)
    ensures |r| == 2 && r[0] == GeneratedBy(GeneratorName) && r[1] == BasedOn(TypeOf(c))
  {
    [GeneratedBy(GeneratorName), BasedOn(TypeOf(c))]
  }

  function InnerFieldType(c: JavaClass): TypeName
  {
    Parameterized(Raw(BeanPropertyMatcherClassName), [TypeOf(c)])
  }

  function ConstructorOf(c: JavaClass): MethodDesc
  {
    MethodDesc(ConstructorName, {Public}, [], [], None,
      [InitializeField(InnerMatcherField, InnerFieldType(c), TypeOf(c))])
  }

  /** The methods in the order they are added: constructor, property methods, then delegates and factory. */
  function ClassMethodsOf(c: JavaClass, self: TypeName, props: seq<BeanProperty>): seq<MethodDesc>
  {
    [ConstructorOf(c)] + PropertyMethods(self, props) + TrailingMethodsOf(c, self)
  }

  /** `typesafeMatcherMethods` followed by `factoryMethod`. */
  function TrailingMethodsOf(c: JavaClass, self: TypeName): seq<MethodDesc>
  {
    DelegateMethods(TypeOf(c)) + [FactoryMethod(self, c)]
  }

  /** `generatedTypeFor` once the naming strategy has produced `matcherName`. */
  function GeneratedTypeFor(g: ClassGenerator, c: JavaClass, matcherName: string): ClassDesc
  {
    var self := Named(PackageNameFor(g, c), matcherName);
    ClassDesc(matcherName, {Public}, GeneratedAnnotations(c),
      Parameterized(Raw(TypeSafeMatcherClassName), [TypeOf(c)]),
      [FieldDesc(InnerFieldType(c), InnerMatcherField, {Private, Final})],
      ClassMethodsOf(c, self, g.propertiesOf(c)), [], [])
  }

  function TypeNameError(c: JavaClass): GenerationError
  {
    MatcherGenerationRuntimeException(TypeNameErrorPrefix + Describe(c))
  }

  /**
   * `prepareJavaFile`: the file in the strategy's package (or the empty
   * package). The builders of `generatedTypeFor` fail in the order they run:
   * the type-name error when the strategy produces no type name; JavaPoet's
   * error when that name is not a Java name (`classBuilder`); when the class
   * is primitive or `void`, which cannot be the type argument of
   * `TypeSafeMatcher` (`superclass`); and when `is` + the simple name is not
   * a Java name, as for an array class (the factory's `methodBuilder`).
   * `isName` is JavaPoet's `SourceVersion.isName` check.
   */
  function PrepareJavaFile(g: ClassGenerator, c: JavaClass, isName: string -> bool): (r: Result<JavaFile, GenerationError>)
    ensures r.Failure? <==>
      || g.naming.typeNameFor(c).None? || !isName(g.naming.typeNameFor(c).value)
      || c.isPrimitive || !isName(FactoryMethodName(c.simpleName))
    ensures g.naming.typeNameFor(c).None? ==> r == Failure(TypeNameError(c))
    ensures g.naming.typeNameFor(c).Some? && !isName(g.naming.typeNameFor(c).value) ==>
      r == Failure(InvalidTypeName(g.naming.typeNameFor(c).value))
    ensures g.naming.typeNameFor(c).Some? && isName(g.naming.typeNameFor(c).value) && c.isPrimitive ==>
      r == Failure(InvalidTypeArgument(c.name))
    ensures g.naming.typeNameFor(c).Some? && isName(g.naming.typeNameFor(c).value) && !c.isPrimitive
            && !isName(FactoryMethodName(c.simpleName)) ==>
      r == Failure(InvalidMethodName(FactoryMethodName(c.simpleName)))
    ensures r.Success? ==>
      && Some(r.value.typeSpec.name) == g.naming.typeNameFor(c)
      && (g.naming.packageFor(c).Some? ==> Some(r.value.packageName) == g.naming.packageFor(c))
      && (g.naming.packageFor(c).None? ==> r.value.packageName == NoPackage)
  {
    match g.naming.typeNameFor(c)
    case None => Failure(TypeNameError(c))
    case Some(n) =>
      if !isName(n) then Failure(InvalidTypeName(n))
      else if c.isPrimitive then Failure(InvalidTypeArgument(c.name))
      else if !isName(FactoryMethodName(c.simpleName)) then Failure(InvalidMethodName(FactoryMethodName(c.simpleName)))
      else Success(JavaFile(PackageNameFor(g, c), GeneratedTypeFor(g, c, n)))
  }

  /** The package as a directory path: dots become slashes. */
  function PackagePath(packageName: string): (r: string)
    ensures |r| == |packageName|
    ensures forall i :: 0 <= i < |r| ==> r[i] == (if packageName[i] == '.' then '/' else packageName[i])
  {
    if |packageName| == 0 then ""
    else [if packageName[0] == '.' then '/' else packageName[0]] + PackagePath(packageName[1..])
  }

  /** The relative name of the source file of class `simpleName` in `packageName`. */
  function SourceFileName(packageName: string, simpleName: string): (r: string)
    ensures packageName == NoPackage ==> r == simpleName + SourceSuffix
    ensures packageName != NoPackage ==> r == PackagePath(packageName) + "/" + simpleName + SourceSuffix
  {
    (if packageName == NoPackage then "" else PackagePath(packageName) + "/") + simpleName + SourceSuffix
  }

  /**
   * `generateMatcherFor`, with the outcome of the write as the parameter
   * `writeSucceeds`. A missing type name is a `MatcherGenerationRuntimeException`;
   * what JavaPoet's builders reject escapes as their error, the file is not
   * written; a failed write is a `MatcherGenerationException` naming the
   * class (the I/O cause is dropped); otherwise the result is the output
   * directory resolved with the file's relative name.
   */
  function GenerateMatcherFor(g: ClassGenerator, c: JavaClass, isName: string -> bool, writeSucceeds: JavaFile -> bool): (r: Result<OutputPath, GenerationError>)
    ensures g.naming.typeNameFor(c).None? ==>
      r == Failure(MatcherGenerationRuntimeException("Error on type name generation for the metcher for " + Describe(c)))
    ensures g.naming.typeNameFor(c).Some? && !isName(g.naming.typeNameFor(c).value) ==>
      r == Failure(InvalidTypeName(g.naming.typeNameFor(c).value))
    ensures g.naming.typeNameFor(c).Some? && isName(g.naming.typeNameFor(c).value) && c.isPrimitive ==>
      r == Failure(InvalidTypeArgument(c.name))
    ensures g.naming.typeNameFor(c).Some? && isName(g.naming.typeNameFor(c).value) && !c.isPrimitive
            && !isName(FactoryMethodName(c.simpleName)) ==>
      r == Failure(InvalidMethodName(FactoryMethodName(c.simpleName)))
    ensures g.naming.typeNameFor(c).Some? && isName(g.naming.typeNameFor(c).value) && !c.isPrimitive
            && isName(FactoryMethodName(c.simpleName)) ==>
      var n := g.naming.typeNameFor(c).value;
      var file := JavaFile(PackageNameFor(g, c), GeneratedTypeFor(g, c, n));
      && (r.Failure? <==> !writeSucceeds(file))
      && (r.Failure? ==> r.error == MatcherGenerationException("Error on writing Matcher for " + Describe(c)))
      && (r.Success? ==> r.value == Resolved(g.outputDir, SourceFileName(file.packageName, n)))
    ensures r.Success? ==> StartsWith(r.value.fileName, PackagePath(PackageNameFor(g, c)))
  {
    match PrepareJavaFile(g, c, isName)
    case Failure(e) => Failure(e)
    case Success(file) =>
      if writeSucceeds(file) then Success(Resolved(g.outputDir, SourceFileName(file.packageName, file.typeSpec.name)))
      else Failure(MatcherGenerationException(WriteErrorPrefix + Describe(c)))
  }

  /** `int.class`. */
  const IntClass := JavaClass("int", "int", false, true)

  /** `int[].class`: its simple name is `int[]`. */
  const IntArrayClass := JavaClass("[I", "int[]", false, false)

  /** A primitive class has no matcher: `TypeSafeMatcher<int>` is refused before anything is written. */
  lemma PrimitiveClassRejected(g: ClassGenerator, isName: string -> bool, writeSucceeds: JavaFile -> bool)
    requires g.naming.typeNameFor(IntClass).Some? && isName(g.naming.typeNameFor(IntClass).value)
    ensures GenerateMatcherFor(g, IntClass, isName, writeSucceeds) == Failure(InvalidTypeArgument("int"))
  {
  }

  /**
   * An array class has no matcher: its factory would be named `isint[]`,
   * which no Java name is, since none contains a bracket.
   */
  lemma ArrayClassRejected(g: ClassGenerator, isName: string -> bool, writeSucceeds: JavaFile -> bool)
    requires g.naming.typeNameFor(IntArrayClass).Some? && isName(g.naming.typeNameFor(IntArrayClass).value)
    requires forall s :: isName(s) ==> '[' !in s
    ensures GenerateMatcherFor(g, IntArrayClass, isName, writeSucceeds) == Failure(InvalidMethodName("isint[]"))
  {
    assert FactoryMethodName(IntArrayClass.simpleName) == "isint[]";
    assert "isint[]"[5] == '[';
  }

  /** The number of public methods, the constructor not counted. */
  function PublicMethodCount(methods: seq<MethodDesc>): nat
  {
    if |methods| == 0 then 0
    else
      var own := if Public in methods[0].modifiers && methods[0].name != ConstructorName then 1 else 0;
      own + PublicMethodCount(methods[1..])
  }

  lemma {:induction false} PublicMethodCountAppend(a: seq<MethodDesc>, b: seq<MethodDesc>)
    ensures PublicMethodCount(a + b) == PublicMethodCount(a) + PublicMethodCount(b)
  {
    if |a| == 0 {
      assert a + b == b;
    } else {
      assert (a + b)[1..] == a[1..] + b;
      PublicMethodCountAppend(a[1..], b);
    }
  }

  /** Every property method is public and none is a constructor. */
  lemma {:induction false} PropertyMethodsArePublic(self: TypeName, props: seq<BeanProperty>)
    ensures PublicMethodCount(PropertyMethods(self, props)) == |PropertyMethods(self, props)|
  {
    if |props| > 0 {
      var own := MethodsOfProperty(self, props[0]);
      PropertyMethodsArePublic(self, props[1..]);
      PublicMethodCountAppend(own, PropertyMethods(self, props[1..]));
      assert own[0].name[0] == 'w' != ConstructorName[0];
      if |own| == 2 {
        assert own[1].name[0] == 'w' != ConstructorName[0];
        assert own[1..][1..] == [];
      }
      assert own[1..][0..] == own[1..];
    }
  }

  /**
   * The layout of a generated class: the strategy's name, public, the two
   * annotations, `TypeSafeMatcher<Type>`, one private final inner matcher
   * field, and the methods constructor, property methods, describeTo /
   * matchesSafely / describeMismatchSafely (each only forwarding to the
   * field), and the public static `is<Simple>()` factory returning a new
   * instance of the generated class.
   */
  lemma GeneratedTypeLayout(g: ClassGenerator, c: JavaClass, matcherName: string)
    ensures var t := GeneratedTypeFor(g, c, matcherName);
      var props := g.propertiesOf(c);
      var m := MatcherTypedCount(props);
      var k := m + 2 * (|props| - m);
      var self := Named(PackageNameFor(g, c), matcherName);
      && t.name == matcherName
      && t.modifiers == {Public}
      && t.annotations == [GeneratedBy(GeneratorName), BasedOn(TypeOf(c))]
      && t.superclass == Parameterized(Raw(TypeSafeMatcherClassName), [TypeOf(c)])
      && t.fields == [FieldDesc(InnerFieldType(c), InnerMatcherField, {Private, Final})]
      && |t.methods| == k + 5
      && t.methods[0].name == ConstructorName
      && t.methods[1..k + 1] == PropertyMethods(self, props)
      && t.methods[k + 1].name == "describeTo"
      && t.methods[k + 2].name == "matchesSafely"
      && t.methods[k + 3].name == "describeMismatchSafely"
      && (forall j :: k + 1 <= j < k + 4 ==> ForwardsOnlyTo(t.methods[j], InnerMatcherField))
      && t.methods[k + 4].name == "is" + c.simpleName
      && t.methods[k + 4].modifiers == {Public, Static}
      && t.methods[k + 4].parameters == []
      && t.methods[k + 4].returnType == Some(self)
      && t.methods[k + 4].statements == [ReturnNew(self)]
  {
    var self := Named(PackageNameFor(g, c), matcherName);
    ClassMethodsOfLayout(c, self, g.propertiesOf(c));
    assert GeneratedTypeFor(g, c, matcherName).methods == ClassMethodsOf(c, self, g.propertiesOf(c));
  }

  /** The order of the methods for any property list: the part of `GeneratedTypeLayout` about methods. */
  lemma ClassMethodsOfLayout(c: JavaClass, self: TypeName, props: seq<BeanProperty>)
    ensures var methods := ClassMethodsOf(c, self, props);
      var k := |PropertyMethods(self, props)|;
      && |methods| == k + 5
      && methods[0].name == ConstructorName
      && methods[1..k + 1] == PropertyMethods(self, props)
      && methods[k + 1].name == "describeTo"
      && methods[k + 2].name == "matchesSafely"
      && methods[k + 3].name == "describeMismatchSafely"
      && (forall j :: k + 1 <= j < k + 4 ==> ForwardsOnlyTo(methods[j], InnerMatcherField))
      && methods[k + 4] == FactoryMethod(self, c)
  {
    var methods := ClassMethodsOf(c, self, props);
    var pm := PropertyMethods(self, props);
    var delegates := DelegateMethods(TypeOf(c));
    var k := |pm|;
    var head := [ConstructorOf(c)] + pm;
    assert methods == head + TrailingMethodsOf(c, self);
    assert methods[1..k + 1] == head[1..] == pm;
    forall j | k + 1 <= j < k + 4
      ensures methods[j] == delegates[j - k - 1]
    {
    }
    assert delegates[0] in delegates && delegates[1] in delegates && delegates[2] in delegates;
  }

  /**
   * A generated class has M + 2(N - M) + 2 public methods besides the
   * constructor: the property methods, describeTo and the factory.
   */
  lemma PublicMethodsOfGeneratedType(g: ClassGenerator, c: JavaClass, matcherName: string)
    ensures var props := g.propertiesOf(c);
      var m := MatcherTypedCount(props);
      PublicMethodCount(GeneratedTypeFor(g, c, matcherName).methods) == m + 2 * (|props| - m) + 2
  {
    var self := Named(PackageNameFor(g, c), matcherName);
    PublicMethodsOf(c, self, g.propertiesOf(c));
    assert GeneratedTypeFor(g, c, matcherName).methods == ClassMethodsOf(c, self, g.propertiesOf(c));
  }

  /** The public-method count for any property list: the part of `PublicMethodsOfGeneratedType` about methods. */
  lemma PublicMethodsOf(c: JavaClass, self: TypeName, props: seq<BeanProperty>)
    ensures var m := MatcherTypedCount(props);
      PublicMethodCount(ClassMethodsOf(c, self, props)) == m + 2 * (|props| - m) + 2
  {
    var pm := PropertyMethods(self, props);
    var ctor := [ConstructorOf(c)];
    PropertyMethodsArePublic(self, props);
    TrailingMethodsArePublic(c, self);
    PublicMethodCountAppend(ctor + pm, TrailingMethodsOf(c, self));
    PublicMethodCountAppend(ctor, pm);
    assert PublicMethodCount(ctor) == 0 by {
      assert ctor[1..] == [];
    }
  }

  /** Of the delegates and the factory, describeTo and the factory are public. */
  lemma TrailingMethodsArePublic(c: JavaClass, self: TypeName)
    ensures PublicMethodCount(TrailingMethodsOf(c, self)) == 2
  {
    var delegates := DelegateMethods(TypeOf(c));
    var factory := [FactoryMethod(self, c)];
    PublicMethodCountAppend(delegates, factory);
    assert PublicMethodCount(factory) == 1 by {
      assert factory[1..] == [];
      assert factory[0].name[0] == 'i' != ConstructorName[0];
    }
    assert PublicMethodCount(delegates) == 1 by {
      assert delegates[1..][1..][1..] == [];
      assert PublicMethodCount(delegates[1..][1..]) == 0;
      assert PublicMethodCount(delegates[1..]) == 0;
      assert delegates[0].name[0] == 'd' != ConstructorName[0];
    }
  }
}

=== FILE: classir.dfy ===
/**
 * A declarative description of a generated Java class, standing in for the
 * JavaPoet `TypeSpec`/`MethodSpec`/`FieldSpec` builders. Rendering to text
 * (indentation, imports) is not part of it. Both generators produce this
 * shape; the members shared by them are defined here once.
 */
module ClassIR {
  import opened Outcomes
  import opened Text
  import opened Elements

  const MatcherClassName := "org.hamcrest.Matcher"
  const TypeSafeMatcherClassName := "org.hamcrest.TypeSafeMatcher"
  const DescriptionClassName := "org.hamcrest.Description"
  const BeanPropertyMatcherClassName := "io.github.marmer.testutils.generators.beanmatcher.dependencies.BeanPropertyMatcher"
  const ObjectClassName := "java.lang.Object"

  /** The name of the one field of every generated matcher. */
  const InnerMatcherField := "beanPropertyMatcher"
  /** JavaPoet's name for a constructor. */
  const ConstructorName := "<init>"
  const WithPrefix := "with"
  const FactoryPrefix := "is"

  /** A JavaPoet `TypeName`. */
  datatype TypeName =
    | Mirror(mirror: TypeMirror)                          // TypeName.get(mirror)
    | Named(packageName: string, simpleName: string)      // ClassName.get(package, simple)
    | Raw(qualifiedName: string)                          // the name of a known class
    | Parameterized(rawType: TypeName, arguments: seq<TypeName>)
    | SuperOf(lowerBound: TypeName)                       // ? super bound
    | ExtendsOf(upperBound: TypeName)                     // ? extends bound
    | BooleanType                                         // primitive boolean

  /** What a `with` method hands to the inner matcher. */
  datatype Argument =
    | MatcherArgument     // the `matcher` parameter itself
    | EqualToValue        // Matchers.equalTo(value)

  /** The statements generated code consists of. */
  datatype Statement =
    | Register(field: string, property: string, argument: Argument)      // field.with("property", argument)
    | ReturnThis
    | Forward(field: string, operation: string, arguments: seq<string>, returnsResult: bool)
    | ReturnNew(matcherType: TypeName)
    | InitializeField(field: string, fieldType: TypeName, beanType: TypeName)  // field = new T(Bean.class)

  datatype AnnotationDesc =
    | GeneratedBy(generator: string)
    | BasedOn(beanType: TypeName)
    | Override

  /** A parameter; every generated parameter is final. */
  datatype ParamDesc = ParamDesc(paramType: TypeName, name: string)

  datatype MethodDesc = MethodDesc(
    name: string,
    modifiers: set<Modifier>,
    annotations: seq<AnnotationDesc>,
    parameters: seq<ParamDesc>,
    returnType: Option<TypeName>,
    statements: seq<Statement>)

  datatype FieldDesc = FieldDesc(fieldType: TypeName, name: string, modifiers: set<Modifier>)

  /** A generated class; `origins` are its originating elements. */
  datatype ClassDesc = ClassDesc(
    name: string,
    modifiers: set<Modifier>,
    annotations: seq<AnnotationDesc>,
    superclass: TypeName,
    fields: seq<FieldDesc>,
    methods: seq<MethodDesc>,
    nested: seq<ClassDesc>,
    origins: seq<Element>)

  /** A source file: a package name and its one top-level class. */
  datatype JavaFile = JavaFile(packageName: string, typeSpec: ClassDesc)

  /** The name of the fluent method for a property. */
  function WithMethodName(propertyName: string): (r: string)
    ensures StartsWith(r, WithPrefix) && |r| == |WithPrefix| + |propertyName|
    ensures |propertyName| > 0 ==> !IsLower(r[|WithPrefix|])
    ensures |propertyName| > 0 ==> r[|WithPrefix| + 1..] == propertyName[1..]
    ensures Decapitalize(r[|WithPrefix|..]) == Decapitalize(propertyName)
  {
    var r := WithPrefix + Capitalize(propertyName);
    assert r[|WithPrefix|..] == Capitalize(propertyName);
    DecapitalizeOfCapitalize(propertyName);
    r
  }

  /** The name of the static factory method for a bean type. */
  function FactoryMethodName(simpleName: string): (r: string)
    ensures StartsWith(r, FactoryPrefix) && r[|FactoryPrefix|..] == simpleName
  {
    FactoryPrefix + simpleName
  }

  /** The method only forwards to `field`: every statement is a forwarding call on it. */
  predicate ForwardsOnlyTo(m: MethodDesc, field: string)
  {
    |m.statements| > 0 && forall s :: s in m.statements ==> s.Forward? && s.field == field
  }

  /** A property method: public, fluent, and registers exactly one matcher for `property`. */
  predicate IsFluentRegistration(m: MethodDesc, property: string, argument: Argument, self: TypeName)
  {
    && m.modifiers == {Public}
    && m.name == WithMethodName(property)
    && m.returnType == Some(self)
    && m.statements == [Register(InnerMatcherField, property, argument), ReturnThis]
  }

  function DescribeTo(): MethodDesc
  {
    MethodDesc("describeTo", {Public}, [Override],
      [ParamDesc(Raw(DescriptionClassName), "description")], None,
      [Forward(InnerMatcherField, "describeTo", ["description"], false)])
  }

  function MatchesSafely(item: TypeName): MethodDesc
  {
    MethodDesc("matchesSafely", {Protected}, [Override],
      [ParamDesc(item, "item")], Some(BooleanType),
      [Forward(InnerMatcherField, "matches", ["item"], true)])
  }

  function DescribeMismatchSafely(item: TypeName): MethodDesc
  {
    MethodDesc("describeMismatchSafely", {Protected}, [Override],
      [ParamDesc(item, "item"), ParamDesc(Raw(DescriptionClassName), "description")], None,
      [Forward(InnerMatcherField, "describeMismatch", ["item", "description"], false)])
  }

  /**
   * The three `TypeSafeMatcher` operations, in the order describeTo,
   * matchesSafely, describeMismatchSafely; each overrides the superclass and
   * does nothing but forward to the inner matcher field.
   */
  function DelegateMethods(item: TypeName): (r: seq<MethodDesc>)
    ensures |r| == 3
    ensures r[0].name == "describeTo" && r[1].name == "matchesSafely" && r[2].name == "describeMismatchSafely"
    ensures forall m :: m in r ==> ForwardsOnlyTo(m, InnerMatcherField) && m.annotations == [Override]
    ensures Public in r[0].modifiers && Protected in r[1].modifiers && Protected in r[2].modifiers
    ensures |r[1].parameters| == 1 && r[1].parameters[0].paramType == item
    ensures |r[2].parameters| == 2 && r[2].parameters[0].paramType == item
  {
    [DescribeTo(), MatchesSafely(item), DescribeMismatchSafely(item)]
  }

  /** The same class, also declared static (a nested matcher). */
  function AsStatic(c: ClassDesc): (r: ClassDesc)
    ensures Static in r.modifiers && r.modifiers - {Static} == c.modifiers - {Static}
    ensures r.name == c.name && r.methods == c.methods && r.nested == c.nested
    ensures r.(modifiers := c.modifiers) == c
  {
    c.(modifiers := c.modifiers + {Static})
  }
}

=== FILE: elements.dfy ===
/**
 * An abstract, immutable stand-in for the `javax.lang.model` element API the
 * annotation processor works on: a type element carries its members, its
 * superclass and its interfaces as nested values, so every walk over the
 * type hierarchy is structural recursion.
 */
module Elements {
  import opened Outcomes
  import opened Seqs

  datatype Modifier = Public | Protected | Private | Static | Final | Abstract

  datatype ElementKind =
    | Class | Interface | Enum | Record | AnnotationType
    | Method | Constructor | Initializer
    | Field | EnumConstant

  datatype Primitive = Boolean | Byte | Short | Int | Long | Char | Float | Double

  /** The kinds of `TypeMirror` the generator distinguishes. */
  datatype TypeMirror =
    | PrimitiveType(primitive: Primitive)
    | VoidType
    | DeclaredType(name: string)
    | TypeVariable(name: string)
    | ArrayType(component: TypeMirror)
    | NoType

  /**
   * A type's superclass: `NoSuperclass` is a superclass mirror of kind NONE
   * (interfaces and `java.lang.Object`); otherwise the superclass's element.
   */
  datatype Supertype = NoSuperclass | Superclass(decl: Element)

  /**
   * One element. Type elements use `enclosed`, `superclass`, `interfaces`
   * and `typeParameters`; executable elements use `returnType` and
   * `parameters`. `generated` holds the values of a `@Generated` annotation
   * on the element, `None` when it has none.
   */
  datatype Element = Element(
    kind: ElementKind,
    simpleName: string,
    qualifiedName: string,
    modifiers: set<Modifier>,
    typeParameters: seq<string>,
    enclosed: seq<Element>,
    superclass: Supertype,
    interfaces: seq<Element>,
    returnType: TypeMirror,
    parameters: seq<TypeMirror>,
    generated: Option<seq<string>>)

  /** The element kinds that are `TypeElement`s. */
  predicate IsTypeKind(k: ElementKind)
  {
    k.Class? || k.Interface? || k.Enum? || k.Record? || k.AnnotationType?
  }

  /** The element kinds that are `ExecutableElement`s. */
  predicate IsExecutableKind(k: ElementKind)
  {
    k.Method? || k.Constructor? || k.Initializer?
  }

  predicate IsPublic(e: Element)
  {
    Public in e.modifiers
  }

  predicate IsStatic(e: Element)
  {
    Static in e.modifiers
  }

  predicate IsPublicType(e: Element)
  {
    IsTypeKind(e.kind) && IsPublic(e)
  }

  predicate IsNonPublicType(e: Element)
  {
    IsTypeKind(e.kind) && !IsPublic(e)
  }

  /** The public member types of `t`, in declaration order. */
  function PublicNestedTypes(t: Element): (r: seq<Element>)
    ensures forall x :: x in r <==> x in t.enclosed && IsPublicType(x)
  {
    Filter(t.enclosed, IsPublicType)
  }

  /** The member types of `t` that are not public, in declaration order. */
  function NonPublicNestedTypes(t: Element): (r: seq<Element>)
    ensures forall x :: x in r <==> x in t.enclosed && IsNonPublicType(x)
  {
    Filter(t.enclosed, IsNonPublicType)
  }

  /** A package and the (top-level) types it encloses. */
  datatype PackageElement = PackageElement(name: string, enclosed: seq<Element>)
}

=== FILE: filer.dfy ===
/**
 * The annotation-processing `Filer` as the worker meets it. A round is a
 * sequence of events in program order: diagnostics printed and source
 * files handed to the Filer. The Filer creates a source file at most once
 * per type name in a compilation; asking for a name it has already
 * created throws `FilerException`, and because nothing catches it the
 * round ends there.
 */
module Filer {
  import opened Outcomes
  import opened Seqs

  /** One step of a round: a diagnostic printed, or a source file handed to the Filer. */
  datatype Event<D, F> = Print(diagnostic: D) | Write(file: F)

  /**
   * What a round leaves behind: the diagnostics printed, the files
   * created, and the type name the Filer refused, if it refused one.
   */
  datatype Replay<D, F, N> = Replay(log: seq<D>, created: seq<F>, refused: Option<N>)

  /** The diagnostic an event prints, if it prints one. */
  function PrintedBy<D, F>(e: Event<D, F>): seq<D>
  {
    if e.Print? then [e.diagnostic] else []
  }

  /** The file an event hands over, if it hands one over. */
  function WrittenBy<D, F>(e: Event<D, F>): seq<F>
  {
    if e.Write? then [e.file] else []
  }

  /** The diagnostics of the events, in order. */
  function Printed<D, F>(events: seq<Event<D, F>>): seq<D>
  {
    if |events| == 0 then [] else PrintedBy(events[0]) + Printed(events[1..])
  }

  /** The files handed to the Filer, in order. */
  function Written<D, F>(events: seq<Event<D, F>>): seq<F>
  {
    if |events| == 0 then [] else WrittenBy(events[0]) + Written(events[1..])
  }

  /** Diagnostics printed one after the other. */
  function Says<D, F>(ds: seq<D>): (r: seq<Event<D, F>>)
    ensures |r| == |ds| && forall i :: 0 <= i < |r| ==> r[i].Print?
  {
    seq(|ds|, i requires 0 <= i < |ds| => Print(ds[i]))
  }

  /** Printing only prints. */
  lemma {:induction false} SaysPrintsOnly<D, F>(ds: seq<D>)
    ensures Printed(Says<D, F>(ds)) == ds
    ensures Written(Says<D, F>(ds)) == []
  {
    if |ds| > 0 {
      assert Says<D, F>(ds)[1..] == Says<D, F>(ds[1..]);
      SaysPrintsOnly<D, F>(ds[1..]);
    }
  }

  /** Both projections distribute over concatenation. */
  lemma ProjectionsAppend<D, F>(a: seq<Event<D, F>>, b: seq<Event<D, F>>)
    ensures Printed(a + b) == Printed(a) + Printed(b)
    ensures Written(a + b) == Written(a) + Written(b)
  {
    PrintedAppend(a, b);
    WrittenAppend(a, b);
  }

  /** The diagnostics of joined events are those of each part, joined. */
  lemma {:induction false} PrintedAppend<D, F>(a: seq<Event<D, F>>, b: seq<Event<D, F>>)
    ensures Printed(a + b) == Printed(a) + Printed(b)
  {
    if |a| == 0 {
      assert a + b == b;
    } else {
      TailOfAppend(a, b);
      PrintedAppend(a[1..], b);
    }
  }

  /** The files of joined events are those of each part, joined. */
  lemma {:induction false} WrittenAppend<D, F>(a: seq<Event<D, F>>, b: seq<Event<D, F>>)
    ensures Written(a + b) == Written(a) + Written(b)
  {
    if |a| == 0 {
      assert a + b == b;
    } else {
      TailOfAppend(a, b);
      WrittenAppend(a[1..], b);
    }
  }

  /** No two of `files` share a name, and none has a name in `taken`. */
  predicate Fresh<F, N(==)>(files: seq<F>, name: F -> N, taken: set<N>)
  {
    DistinctKeys(files, name) && forall i :: 0 <= i < |files| ==> name(files[i]) !in taken
  }

  /** Two sequences that share a file are not fresh together. */
  lemma SharedNotFresh<F, N>(a: seq<F>, b: seq<F>, f: F, name: F -> N, taken: set<N>)
    requires f in a && f in b
    ensures !Fresh(a + b, name, taken)
  {
    var i :| 0 <= i < |a| && a[i] == f;
    var j :| 0 <= j < |b| && b[j] == f;
    assert (a + b)[i] == (a + b)[|a| + j];
  }

  /** A sequence is fresh when its head is, and its tail is fresh once the head's name is taken. */
  lemma FreshCons<F, N>(f: F, files: seq<F>, name: F -> N, taken: set<N>)
    ensures Fresh([f] + files, name, taken) <==> name(f) !in taken && Fresh(files, name, taken + {name(f)})
  {
    var s := [f] + files;
    assert forall i :: 1 <= i < |s| ==> s[i] == files[i - 1];
    if name(f) !in taken && Fresh(files, name, taken + {name(f)}) {
      forall i, j | 0 <= i < j < |s|
        ensures name(s[i]) != name(s[j])
      {
        if i > 0 {
          assert name(files[i - 1]) != name(files[j - 1]);
        }
      }
    }
    if Fresh(s, name, taken) {
      assert name(s[0]) !in taken && s[0] == f;
      forall i | 0 <= i < |files|
        ensures name(files[i]) !in taken + {name(f)}
      {
        assert name(s[0]) != name(s[i + 1]);
        assert name(s[i + 1]) !in taken;
      }
      forall i, j | 0 <= i < j < |files|
        ensures name(files[i]) != name(files[j])
      {
        assert name(s[i + 1]) != name(s[j + 1]);
      }
    }
  }

  /**
   * The round replayed against the Filer: diagnostics are printed, a file
   * whose name is not yet created is created and its name taken, and the
   * first file whose name is already taken is refused and ends the round.
   */
  function Run<D, F, N(==)>(events: seq<Event<D, F>>, name: F -> N, taken: set<N>): (r: Replay<D, F, N>)
    ensures |r.created| <= |Written(events)|
  {
    if |events| == 0 then Replay([], [], None)
    else
      match events[0]
      case Print(d) =>
        var rest := Run(events[1..], name, taken);
        Replay([d] + rest.log, rest.created, rest.refused)
      case Write(f) =>
        if name(f) in taken then Replay([], [], Some(name(f)))
        else
          var rest := Run(events[1..], name, taken + {name(f)});
          Replay(rest.log, [f] + rest.created, rest.refused)
  }

  /** The Filer refuses nothing exactly when the files handed to it are fresh. */
  lemma {:induction false} RunRefusesIffRepeated<D, F, N>(events: seq<Event<D, F>>, name: F -> N, taken: set<N>)
    ensures Run(events, name, taken).refused.None? <==> Fresh(Written(events), name, taken)
  {
    if |events| > 0 {
      match events[0]
      case Print(d) =>
        assert Written(events) == Written(events[1..]);
        RunRefusesIffRepeated(events[1..], name, taken);
      case Write(f) =>
        assert Written(events) == [f] + Written(events[1..]);
        FreshCons(f, Written(events[1..]), name, taken);
        if name(f) !in taken {
          RunRefusesIffRepeated(events[1..], name, taken + {name(f)});
        }
    }
  }

  /** Without a refusal, everything is printed and every file is created, in order. */
  lemma {:induction false} RunWithoutRefusal<D, F, N>(events: seq<Event<D, F>>, name: F -> N, taken: set<N>)
    requires Run(events, name, taken).refused.None?
    ensures Run(events, name, taken).log == Printed(events)
    ensures Run(events, name, taken).created == Written(events)
  {
    if |events| > 0 {
      match events[0]
      case Print(d) =>
        RunWithoutRefusal(events[1..], name, taken);
        assert Printed(events) == [d] + Printed(events[1..]);
        assert Written(events) == Written(events[1..]);
      case Write(f) =>
        assert name(f) !in taken;
        RunWithoutRefusal(events[1..], name, taken + {name(f)});
        assert Printed(events) == Printed(events[1..]);
        assert Written(events) == [f] + Written(events[1..]);
    }
  }

  /**
   * After a refusal, the files created are the ones handed over before the
   * refused one, whose name was taken before the round or created in it.
   */
  lemma {:induction false} RunRefused<D, F, N>(events: seq<Event<D, F>>, name: F -> N, taken: set<N>)
    requires Run(events, name, taken).refused.Some?
    ensures var r := Run(events, name, taken);
      var files := Written(events);
      && |r.created| < |files|
      && r.created == files[..|r.created|]
      && name(files[|r.created|]) == r.refused.value
      && r.refused.value in taken + Keys(r.created, name)
  {
    match events[0]
    case Print(d) =>
      RunRefused(events[1..], name, taken);
    case Write(f) =>
      if name(f) !in taken {
        var rest := Run(events[1..], name, taken + {name(f)});
        RunRefused(events[1..], name, taken + {name(f)});
        var created := [f] + rest.created;
        assert created[1..] == rest.created;
        KeysCons(created, name);
      }
  }
}

=== FILE: matcher_file_generator.dfy ===
/**
 * The batch driver of the core module (`MatcherFileGenerator`): find the
 * classes for the given names, filter out the illegal ones, generate a
 * matcher file for each, and load the generated files. The finder, the
 * filter, the class generator and the loader are parameters; a generator
 * failure is a `Failure` result in place of a thrown exception.
 */
module MatcherFileGenerator {
  import opened Outcomes
  import opened Seqs

  const FailureLogPrefix := "Error on matcher generation for "

  /** The classes handed to the generator, in order, and what the loop produced. */
  datatype Batch<C, P, E> = Batch(invoked: seq<C>, outcome: Result<seq<P>, E>)

  /**
   * `generateMatchersFor` as written: one generator call per class, in
   * order; the first failure ends the loop and propagates, so the classes
   * after it are never handed to the generator. Without a failure the
   * paths match the classes one for one.
   */
  function GenerateMatchersFor<C, P, E>(classes: seq<C>, generate: C -> Result<P, E>): (r: Batch<C, P, E>)
    ensures |r.invoked| <= |classes| && r.invoked == classes[..|r.invoked|]
    ensures r.outcome.Success? <==> forall i :: 0 <= i < |classes| ==> generate(classes[i]).Success?
    ensures r.outcome.Success? ==>
      && r.invoked == classes
      && |r.outcome.value| == |classes|
      && forall i :: 0 <= i < |classes| ==> generate(classes[i]) == Success(r.outcome.value[i])
    ensures r.outcome.Failure? ==>
      && 0 < |r.invoked|
      && generate(r.invoked[|r.invoked| - 1]) == Failure(r.outcome.error)
      && forall i :: 0 <= i < |r.invoked| - 1 ==> generate(r.invoked[i]).Success?
  {
    if |classes| == 0 then Batch([], Success([]))
    else
      match generate(classes[0])
      case Failure(e) => Batch([classes[0]], Failure(e))
      case Success(p) =>
        var tail := classes[1..];
        var rest := GenerateMatchersFor(tail, generate);
        assert forall i :: 1 <= i < |classes| ==> classes[i] == tail[i - 1];
        match rest.outcome
        case Success(ps) =>
          assert forall i :: 1 <= i < |classes| ==> generate(classes[i]) == Success(ps[i - 1]);
          Batch([classes[0]] + rest.invoked, Success([p] + ps))
        case Failure(e) =>
          Batch([classes[0]] + rest.invoked, Failure(e))
  }

  /** The paths of the classes the generator succeeded on, in order. */
  function SuccessfulPaths<C, P(==,!new), E(==)>(classes: seq<C>, generate: C -> Result<P, E>): (r: seq<P>)
    ensures |r| == |classes| - FailureCount(classes, generate)
    ensures forall p :: p in r <==> exists i :: 0 <= i < |classes| && generate(classes[i]) == Success(p)
  {
    if |classes| == 0 then []
    else
      var rest := SuccessfulPaths(classes[1..], generate);
      assert forall p :: p in rest <==> exists i :: 1 <= i < |classes| && generate(classes[i]) == Success(p) by {
        forall p
          ensures p in rest <==> exists i :: 1 <= i < |classes| && generate(classes[i]) == Success(p)
        {
          if p in rest {
            var j :| 0 <= j < |classes[1..]| && generate(classes[1..][j]) == Success(p);
            assert classes[j + 1] == classes[1..][j];
          }
          if exists i :: 1 <= i < |classes| && generate(classes[i]) == Success(p) {
            var i :| 1 <= i < |classes| && generate(classes[i]) == Success(p);
            assert classes[1..][i - 1] == classes[i];
          }
        }
      }
      (match generate(classes[0]) case Success(p) => [p] case Failure(_) => []) + rest
  }

  /** The successful paths of a concatenation are the concatenated successful paths. */
  lemma {:induction false} SuccessfulPathsAppend<C, P(!new), E>(a: seq<C>, b: seq<C>, generate: C -> Result<P, E>)
    ensures SuccessfulPaths(a + b, generate) == SuccessfulPaths(a, generate) + SuccessfulPaths(b, generate)
  {
    if |a| == 0 {
      assert a + b == b;
    } else {
      assert (a + b)[1..] == a[1..] + b;
      SuccessfulPathsAppend(a[1..], b, generate);
    }
  }

  /** The number of classes the generator fails on. */
  function FailureCount<C, P, E>(classes: seq<C>, generate: C -> Result<P, E>): (r: nat)
    ensures r <= |classes|
    ensures r == 0 <==> forall i :: 0 <= i < |classes| ==> generate(classes[i]).Success?
  {
    if |classes| == 0 then 0
    else
      assert forall i :: 1 <= i < |classes| ==> classes[i] == classes[1..][i - 1];
      (if generate(classes[0]).Failure? then 1 else 0) + FailureCount(classes[1..], generate)
  }

  /**
   * `generateHelperForClassesAllIn` as written: find, filter, generate
   * each, load. It loads the paths of all classes when every class
   * succeeds; otherwise it fails with the error of the first failing
   * class and loads nothing.
   */
  function GenerateHelperForClassesAllIn<N, C, P, L, E>(
    names: seq<N>, find: seq<N> -> seq<C>, filter: seq<C> -> seq<C>,
    generate: C -> Result<P, E>, load: seq<P> -> L): (r: Result<L, E>)
    ensures var classes := filter(find(names));
      && (r.Success? <==> FailureCount(classes, generate) == 0)
      && (r.Success? ==> r.value == load(GenerateMatchersFor(classes, generate).outcome.value))
      && (r.Failure? ==>
            exists i :: (0 <= i < |classes| && generate(classes[i]) == Failure(r.error)
              && forall k :: 0 <= k < i ==> generate(classes[k]).Success?))
  {
    var classes := filter(find(names));
    var batch := GenerateMatchersFor(classes, generate);
    match batch.outcome
    case Success(paths) => Success(load(paths))
    case Failure(e) =>
      var i := |batch.invoked| - 1;
      assert classes[i] == batch.invoked[i];
      Failure(e)
  }

  /** Without a failure, the loop's paths are exactly the successful paths, class for class. */
  lemma {:induction false} AllSucceededPaths<C, P(!new), E>(classes: seq<C>, generate: C -> Result<P, E>)
    requires FailureCount(classes, generate) == 0
    ensures GenerateMatchersFor(classes, generate).outcome == Success(SuccessfulPaths(classes, generate))
  {
    if |classes| > 0 {
      assert forall i :: 1 <= i < |classes| ==> classes[i] == classes[1..][i - 1];
      AllSucceededPaths(classes[1..], generate);
    }
  }

  /** A failure as the isolating driver logs it: the message and the cause. */
  datatype LogEntry<E> = LogEntry(message: string, cause: E)

  /** What the isolating driver returns: the loaded classes, and the failures it logged. */
  datatype Isolated<L, E> = Isolated(loaded: L, log: seq<LogEntry<E>>)

  /** One log entry per class the generator fails on, in order. */
  function FailureLog<C, P, E>(classes: seq<C>, generate: C -> Result<P, E>, describe: C -> string): (r: seq<LogEntry<E>>)
    ensures |r| == FailureCount(classes, generate)
    ensures forall i :: 0 <= i < |classes| && generate(classes[i]).Failure? ==>
      LogEntry(FailureLogPrefix + describe(classes[i]), generate(classes[i]).error) in r
    ensures forall e :: e in r ==>
      exists i :: 0 <= i < |classes| && generate(classes[i]).Failure?
        && e == LogEntry(FailureLogPrefix + describe(classes[i]), generate(classes[i]).error)
  {
    if |classes| == 0 then []
    else
      var rest := FailureLog(classes[1..], generate, describe);
      assert forall i :: 1 <= i < |classes| ==> classes[i] == classes[1..][i - 1];
      var own := match generate(classes[0])
        case Failure(err) => [LogEntry(FailureLogPrefix + describe(classes[0]), err)]
        case Success(_) => [];
      assert forall e :: e in rest ==>
        exists i :: 0 <= i < |classes| && generate(classes[i]).Failure?
          && e == LogEntry(FailureLogPrefix + describe(classes[i]), generate(classes[i]).error) by {
        forall e | e in rest
          ensures exists i :: (0 <= i < |classes| && generate(classes[i]).Failure?
            && e == LogEntry(FailureLogPrefix + describe(classes[i]), generate(classes[i]).error))
        {
          var j :| 0 <= j < |classes[1..]| && generate(classes[1..][j]).Failure?
            && e == LogEntry(FailureLogPrefix + describe(classes[1..][j]), generate(classes[1..][j]).error);
          assert classes[j + 1] == classes[1..][j];
        }
      }
      own + rest
  }

  /**
   * The driver with failure isolation: every class is handed to the
   * generator; a failing class is logged as "Error on matcher generation
   * for <class>" with its cause and left out; the paths of all other
   * classes are loaded.
   */
  function GenerateHelperIsolated<N, C, P(==,!new), L, E(==)>(
    names: seq<N>, find: seq<N> -> seq<C>, filter: seq<C> -> seq<C>,
    generate: C -> Result<P, E>, load: seq<P> -> L, describe: C -> string): (r: Isolated<L, E>)
    ensures var classes := filter(find(names));
      && r.loaded == load(SuccessfulPaths(classes, generate))
      && r.log == FailureLog(classes, generate, describe)
      && |SuccessfulPaths(classes, generate)| + |r.log| == |classes|
  {
    var classes := filter(find(names));
    Isolated(load(SuccessfulPaths(classes, generate)), FailureLog(classes, generate, describe))
  }

  /** Without a failure, the isolating driver loads what the driver as written loads, and logs nothing. */
  lemma IsolationAgreesWithoutFailures<N, C, P(!new), L, E>(
    names: seq<N>, find: seq<N> -> seq<C>, filter: seq<C> -> seq<C>,
    generate: C -> Result<P, E>, load: seq<P> -> L, describe: C -> string)
    requires FailureCount(filter(find(names)), generate) == 0
    ensures var r := GenerateHelperIsolated(names, find, filter, generate, load, describe);
      && GenerateHelperForClassesAllIn(names, find, filter, generate, load) == Success(r.loaded)
      && r.log == []
  {
    AllSucceededPaths(filter(find(names)), generate);
  }

  /**
   * Isolation: when exactly one class `classes[k]` fails, the paths loaded
   * are those of the classes before it followed by those of the classes
   * after it, each as the loop produces them, and the one log entry names
   * that class.
   */
  lemma OneFailureIsolated<C, P(!new), E>(classes: seq<C>, generate: C -> Result<P, E>, describe: C -> string, k: nat)
    requires k < |classes| && generate(classes[k]).Failure?
    requires forall i :: 0 <= i < |classes| && i != k ==> generate(classes[i]).Success?
    ensures GenerateMatchersFor(classes[..k], generate).outcome.Success?
    ensures GenerateMatchersFor(classes[k + 1..], generate).outcome.Success?
    ensures SuccessfulPaths(classes, generate)
         == GenerateMatchersFor(classes[..k], generate).outcome.value
          + GenerateMatchersFor(classes[k + 1..], generate).outcome.value
    ensures FailureLog(classes, generate, describe)
         == [LogEntry(FailureLogPrefix + describe(classes[k]), generate(classes[k]).error)]
  {
    OneFailurePaths(classes, generate, k);
    OneFailureLogged(classes, generate, describe, k);
  }

  /** With exactly one failing class, the paths are those of the classes around it. */
  lemma OneFailurePaths<C, P(!new), E>(classes: seq<C>, generate: C -> Result<P, E>, k: nat)
    requires k < |classes| && generate(classes[k]).Failure?
    requires forall i :: 0 <= i < |classes| && i != k ==> generate(classes[i]).Success?
    ensures GenerateMatchersFor(classes[..k], generate).outcome.Success?
    ensures GenerateMatchersFor(classes[k + 1..], generate).outcome.Success?
    ensures SuccessfulPaths(classes, generate)
         == GenerateMatchersFor(classes[..k], generate).outcome.value
          + GenerateMatchersFor(classes[k + 1..], generate).outcome.value
  {
    var before, after := classes[..k], classes[k + 1..];
    NoFailureAround(classes, generate, k);
    AllSucceededPaths(before, generate);
    AllSucceededPaths(after, generate);
    calc {
      SuccessfulPaths(classes, generate);
      { SplitAt(classes, k); }
      SuccessfulPaths(before + [classes[k]] + after, generate);
      { SkipFailingPaths(before, classes[k], after, generate); }
      SuccessfulPaths(before, generate) + SuccessfulPaths(after, generate);
    }
  }

  /** With one failing class, the classes before it and those after it all succeed. */
  lemma NoFailureAround<C, P, E>(classes: seq<C>, generate: C -> Result<P, E>, k: nat)
    requires k < |classes|
    requires forall i :: 0 <= i < |classes| && i != k ==> generate(classes[i]).Success?
    ensures FailureCount(classes[..k], generate) == 0
    ensures FailureCount(classes[k + 1..], generate) == 0
  {
    var before, after := classes[..k], classes[k + 1..];
    assert forall i :: 0 <= i < |before| ==> before[i] == classes[i];
    assert forall i :: 0 <= i < |after| ==> after[i] == classes[k + 1 + i];
  }

  /** A failing class between two runs of classes contributes no path. */
  lemma SkipFailingPaths<C, P(!new), E>(before: seq<C>, c: C, after: seq<C>, generate: C -> Result<P, E>)
    requires generate(c).Failure?
    ensures SuccessfulPaths(before + [c] + after, generate)
         == SuccessfulPaths(before, generate) + SuccessfulPaths(after, generate)
  {
    var failing := [c];
    assert SuccessfulPaths(failing, generate) == [] by {
      assert failing[1..] == [];
    }
    SuccessfulPathsAppend(before + failing, after, generate);
    SuccessfulPathsAppend(before, failing, generate);
    assert SuccessfulPaths(before, generate) + [] == SuccessfulPaths(before, generate);
  }

  /** With exactly one failing class, the log holds that class's entry alone. */
  lemma {:induction false} OneFailureLogged<C, P, E>(classes: seq<C>, generate: C -> Result<P, E>, describe: C -> string, k: nat)
    requires k < |classes| && generate(classes[k]).Failure?
    requires forall i :: 0 <= i < |classes| && i != k ==> generate(classes[i]).Success?
    ensures FailureLog(classes, generate, describe)
         == [LogEntry(FailureLogPrefix + describe(classes[k]), generate(classes[k]).error)]
  {
    assert forall i :: 1 <= i < |classes| ==> classes[i] == classes[1..][i - 1];
    if k == 0 {
      assert FailureCount(classes[1..], generate) == 0;
      assert FailureLog(classes[1..], generate, describe) == [];
    } else {
      OneFailureLogged(classes[1..], generate, describe, k - 1);
    }
  }

  /** The finder of the driver's test: two classes for every input. */
  function SampleFind(names: seq<string>): seq<string>
  {
    ["SamplePojo1", "SamplePojo2"]
  }

  /** The filter of the driver's test: both classes are legal. */
  function SampleFilter(classes: seq<string>): seq<string>
  {
    classes
  }

  /** The generator of the driver's test: `SamplePojo2` fails with an I/O error. */
  function SampleGenerate(c: string): Result<string, string>
  {
    if c == "SamplePojo2" then Failure("someError") else Success("simplePojo1MatcherPath")
  }

  /** The loader of the driver's test: the paths themselves. */
  function SampleLoad(paths: seq<string>): seq<string>
  {
    paths
  }

  function SampleDescribe(c: string): string
  {
    "class " + c
  }

  /**
   * Two legal classes, the second failing: as written the batch fails with
   * the second class's error and loads nothing, where the isolating driver
   * loads the first class's path and logs the second.
   */
  lemma BatchAbortsOnFailingClass()
    ensures GenerateHelperForClassesAllIn(["packageName"], SampleFind, SampleFilter, SampleGenerate, SampleLoad)
         == Failure("someError")
    ensures GenerateHelperIsolated(["packageName"], SampleFind, SampleFilter, SampleGenerate, SampleLoad, SampleDescribe)
         == Isolated(["simplePojo1MatcherPath"],
                     [LogEntry("Error on matcher generation for " + "class SamplePojo2", "someError")])
  {
    var classes := ["SamplePojo1", "SamplePojo2"];
    assert "SamplePojo1"[10] != "SamplePojo2"[10];
    assert SampleGenerate(classes[0]) == Success("simplePojo1MatcherPath");
    assert SampleGenerate(classes[1]) == Failure("someError");
    assert classes[1..] == ["SamplePojo2"];
    assert classes[1..][1..] == [];
    assert SuccessfulPaths(classes, SampleGenerate) == ["simplePojo1MatcherPath"];
    OneFailureIsolated(classes, SampleGenerate, SampleDescribe, 1);
    assert SampleDescribe(classes[1]) == "class SamplePojo2";
    assert SampleFilter(SampleFind(["packageName"])) == classes;
  }
}

=== FILE: matcher_generator.dfy ===
/**
 * The class shape the Kotlin `MatcherGenerator` builds for one type element:
 * a public `<Simple>Matcher extends TypeSafeMatcher<Simple>` with one inner
 * `BeanPropertyMatcher` field, a constructor, two `with<Property>` methods
 * per property, the three delegate methods, the `is<Simple>` factory, and a
 * static nested matcher for every public nested type.
 */
module MatcherGenerator {
  import opened Outcomes
  import opened Seqs
  import opened Text
  import opened Elements
  import opened ClassIR
  import opened PropertyExtraction

  const MatcherSuffix := "Matcher"
  const SkipNotePrefix := "Matcher generation skipped for non public type: "

  /** The generated class and the notes logged while building it. */
  datatype GeneratedMatcher = GeneratedMatcher(file: JavaFile, notes: seq<string>)

  function SimpleMatcherName(base: Element): string
  {
    base.simpleName + MatcherSuffix
  }

  /** `ClassName.get("", simpleMatcherName)`. */
  function GeneratedTypeName(base: Element): TypeName
  {
    Named("", SimpleMatcherName(base))
  }

  /** The bean type, with `? extends Object` for every type parameter. */
  function TypeNameWithWildcards(base: Element): TypeName
  {
    if |base.typeParameters| == 0 then Mirror(DeclaredType(base.qualifiedName))
    else Parameterized(Raw(base.qualifiedName),
      seq(|base.typeParameters|, _ => ExtendsOf(Raw(ObjectClassName))))
  }

  function BuilderFieldType(base: Element): TypeName
  {
    Parameterized(Raw(BeanPropertyMatcherClassName), [TypeNameWithWildcards(base)])
  }

  /** `with<Name>(Matcher<? super Boxed> matcher)`. */
  function HamcrestMatcherMethod(base: Element, p: Property): MethodDesc
  {
    MethodDesc(WithMethodName(p.name), {Public}, [],
      [ParamDesc(Parameterized(Raw(MatcherClassName), [SuperOf(Mirror(BoxedType(p.propertyType)))]), "matcher")],
      Some(GeneratedTypeName(base)),
      [Register(InnerMatcherField, p.name, MatcherArgument), ReturnThis])
  }

  /** `with<Name>(Type value)` registering `Matchers.equalTo(value)`. */
  function EqualsMatcherMethod(base: Element, p: Property): MethodDesc
  {
    MethodDesc(WithMethodName(p.name), {Public}, [],
      [ParamDesc(Mirror(p.propertyType), "value")],
      Some(GeneratedTypeName(base)),
      [Register(InnerMatcherField, p.name, EqualToValue), ReturnThis])
  }

  /** `getPropertyMatcherMethods`: a matcher method then a value method per property. */
  function PropertyMatcherMethods(base: Element, props: seq<Property>): (r: seq<MethodDesc>)
    ensures |r| == 2 * |props|
  {
    PairUp(base, props, HamcrestMatcherMethod, EqualsMatcherMethod)
  }

  /** Property `i` owns positions `2i` (matcher method) and `2i + 1` (value method). */
  lemma PropertyMatcherMethodsAt(base: Element, props: seq<Property>, i: nat)
    requires i < |props|
    ensures var r := PropertyMatcherMethods(base, props);
      && 2 * i + 1 < |r|
      && r[2 * i] == HamcrestMatcherMethod(base, props[i])
      && r[2 * i + 1] == EqualsMatcherMethod(base, props[i])
  {
    PairUpAt(base, props, HamcrestMatcherMethod, EqualsMatcherMethod, i);
  }

  /** `getApiInitializer`: `public static <Simple>Matcher is<Simple>()`. */
  function ApiInitializer(base: Element): MethodDesc
  {
    MethodDesc(FactoryMethodName(base.simpleName), {Public, Static}, [], [],
      Some(GeneratedTypeName(base)), [ReturnNew(GeneratedTypeName(base))])
  }

  function MatcherConstructor(base: Element): MethodDesc
  {
    MethodDesc(ConstructorName, {Public}, [], [], None,
      [InitializeField(InnerMatcherField, BuilderFieldType(base), Mirror(DeclaredType(base.qualifiedName)))])
  }

  /** The methods of the class for `props`: constructor, property methods, then delegates and factory. */
  function ClassMethods(base: Element, props: seq<Property>): seq<MethodDesc>
  {
    [MatcherConstructor(base)] + PropertyMatcherMethods(base, props) + TrailingMethods(base)
  }

  /** `getMatcherMethods` followed by `getApiInitializer`. */
  function TrailingMethods(base: Element): seq<MethodDesc>
  {
    DelegateMethods(TypeNameWithWildcards(base)) + [ApiInitializer(base)]
  }

  /** `getPreparedTypeSpecBuilder`: the class for `base`, with `origins` as additional originating elements. */
  function PreparedType(base: Element, marker: string, origins: seq<Element>): ClassDesc
    decreases base, 1
  {
    ClassDesc(
      SimpleMatcherName(base),
      {Public},
      [GeneratedBy(marker)],
      Parameterized(Raw(TypeSafeMatcherClassName), [TypeNameWithWildcards(base)]),
      [FieldDesc(BuilderFieldType(base), InnerMatcherField, {Private, Final})],
      ClassMethods(base, Properties(base)),
      InnerMatchers(base, marker, origins),
      [base] + origins)
  }

  /** `getInnerMatchers`: one static nested matcher per public nested type. */
  function InnerMatchers(base: Element, marker: string, origins: seq<Element>): seq<ClassDesc>
    decreases base, 0
  {
    var nested := PublicNestedTypes(base);
    assert forall i :: 0 <= i < |nested| ==> nested[i] in base.enclosed;
    seq(|nested|, i requires 0 <= i < |nested| => AsStatic(PreparedType(nested[i], marker, [base] + origins)))
  }

  function SkipNote(t: Element): string
  {
    SkipNotePrefix + t.qualifiedName
  }

  /**
   * The notes logged while building the class: one per non-public nested
   * type of `base`, then those of every public nested type, recursively.
   */
  function SkipNotes(base: Element): (r: seq<string>)
    ensures forall t :: t in NonPublicNestedTypes(base) ==> SkipNote(t) in r
    ensures |NonPublicNestedTypes(base)| <= |r|
    decreases base
  {
    var hidden := NonPublicNestedTypes(base);
    var nested := PublicNestedTypes(base);
    assert forall i :: 0 <= i < |nested| ==> nested[i] in base.enclosed;
    var own := seq(|hidden|, i requires 0 <= i < |hidden| => SkipNote(hidden[i]));
    assert forall t :: t in hidden ==> SkipNote(t) in own by {
      forall t | t in hidden
        ensures SkipNote(t) in own
      {
        var i :| 0 <= i < |hidden| && hidden[i] == t;
        assert own[i] == SkipNote(t);
      }
    }
    seq(|hidden|, i requires 0 <= i < |hidden| => SkipNote(hidden[i]))
      + Concat(seq(|nested|, i requires 0 <= i < |nested| => SkipNotes(nested[i])))
  }

  /** `t` is a non-public nested type of `base` or of a type below it through public nesting. */
  predicate HiddenBelow(base: Element, t: Element)
    decreases base
  {
    || t in NonPublicNestedTypes(base)
    || exists u :: u in PublicNestedTypes(base) && u in base.enclosed && HiddenBelow(u, t)
  }

  /** The skip notes are exactly the notes of the types hidden below `base`. */
  lemma SkipNotesAreHiddenTypes(base: Element, n: string)
    ensures n in SkipNotes(base) <==> exists t :: HiddenBelow(base, t) && n == SkipNote(t)
  {
    if n in SkipNotes(base) {
      SkipNoteOwner(base, n);
    }
    if exists t :: HiddenBelow(base, t) && n == SkipNote(t) {
      var t :| HiddenBelow(base, t) && n == SkipNote(t);
      HiddenTypeNoted(base, t);
    }
  }

  /** Every skip note names a type hidden below `base`. */
  lemma {:induction false} SkipNoteOwner(base: Element, n: string)
    requires n in SkipNotes(base)
    ensures exists t :: HiddenBelow(base, t) && n == SkipNote(t)
    decreases base
  {
    var hidden := NonPublicNestedTypes(base);
    var nested := PublicNestedTypes(base);
    var own := seq(|hidden|, i requires 0 <= i < |hidden| => SkipNote(hidden[i]));
    var deeper := seq(|nested|, i requires 0 <= i < |nested| => SkipNotes(nested[i]));
    assert SkipNotes(base) == own + Concat(deeper);
    if n in own {
      var i :| 0 <= i < |hidden| && own[i] == n;
      assert hidden[i] in hidden;
      assert HiddenBelow(base, hidden[i]);
    } else {
      assert n in Concat(deeper);
      var i :| 0 <= i < |deeper| && n in deeper[i];
      var u := nested[i];
      assert u in nested;
      SkipNoteOwner(u, n);
      var t :| HiddenBelow(u, t) && n == SkipNote(t);
      assert HiddenBelow(base, t);
    }
  }

  /** Every type hidden below `base` gets its skip note. */
  lemma {:induction false} HiddenTypeNoted(base: Element, t: Element)
    requires HiddenBelow(base, t)
    ensures SkipNote(t) in SkipNotes(base)
    decreases base
  {
    if t !in NonPublicNestedTypes(base) {
      var nested := PublicNestedTypes(base);
      var u :| u in nested && u in base.enclosed && HiddenBelow(u, t);
      var i :| 0 <= i < |nested| && nested[i] == u;
      HiddenTypeNoted(u, t);
      NestedSkipNotesKept(base, i, SkipNote(t));
    }
  }

  /** The notes of a public nested type are among those of its enclosing type. */
  lemma NestedSkipNotesKept(base: Element, i: nat, n: string)
    requires i < |PublicNestedTypes(base)| && n in SkipNotes(PublicNestedTypes(base)[i])
    ensures n in SkipNotes(base)
  {
    var hidden := NonPublicNestedTypes(base);
    var nested := PublicNestedTypes(base);
    assert nested[i] in nested;
    var own := seq(|hidden|, i requires 0 <= i < |hidden| => SkipNote(hidden[i]));
    var deeper := seq(|nested|, i requires 0 <= i < |nested| => SkipNotes(nested[i]));
    assert SkipNotes(base) == own + Concat(deeper);
    assert n in deeper[i];
  }


  /** `generate`: the source file, in the bean's package, and the notes. */
  function Generate(packageName: string, base: Element, marker: string, origins: seq<Element>): (r: GeneratedMatcher)
    ensures r.file.packageName == packageName
    ensures r.file.typeSpec.name == base.simpleName + MatcherSuffix
  {
    GeneratedMatcher(JavaFile(packageName, PreparedType(base, marker, origins)), SkipNotes(base))
  }

  /**
   * The layout of a generated class: named `<Simple>Matcher`, public,
   * `@Generated(marker)`, extending `TypeSafeMatcher<Simple>`, one private
   * final `beanPropertyMatcher` field; methods in the order constructor,
   * 2N property methods, describeTo/matchesSafely/describeMismatchSafely,
   * factory; originating elements `base` then `origins`.
   */
  lemma PreparedTypeLayout(base: Element, marker: string, origins: seq<Element>)
    ensures var c := PreparedType(base, marker, origins);
      var n := |Properties(base)|;
      && c.name == base.simpleName + "Matcher"
      && c.modifiers == {Public}
      && c.annotations == [GeneratedBy(marker)]
      && c.superclass == Parameterized(Raw(TypeSafeMatcherClassName), [TypeNameWithWildcards(base)])
      && c.fields == [FieldDesc(BuilderFieldType(base), InnerMatcherField, {Private, Final})]
      && |c.methods| == 2 * n + 5
      && c.methods[0].name == ConstructorName
      && c.methods[2 * n + 1].name == "describeTo"
      && c.methods[2 * n + 2].name == "matchesSafely"
      && c.methods[2 * n + 3].name == "describeMismatchSafely"
      && (forall k :: 2 * n + 1 <= k < 2 * n + 4 ==> ForwardsOnlyTo(c.methods[k], InnerMatcherField))
      && c.methods[2 * n + 4] == ApiInitializer(base)
      && c.origins == [base] + origins
  {
    ClassMethodsLayout(base, Properties(base));
    assert PreparedType(base, marker, origins).methods == ClassMethods(base, Properties(base));
  }

  /** The order of the methods for any property list: the part of `PreparedTypeLayout` about methods. */
  lemma ClassMethodsLayout(base: Element, props: seq<Property>)
    ensures var m := ClassMethods(base, props);
      var n := |props|;
      && |m| == 2 * n + 5
      && m[0].name == ConstructorName
      && m[2 * n + 1].name == "describeTo"
      && m[2 * n + 2].name == "matchesSafely"
      && m[2 * n + 3].name == "describeMismatchSafely"
      && (forall k :: 2 * n + 1 <= k < 2 * n + 4 ==> ForwardsOnlyTo(m[k], InnerMatcherField))
      && m[2 * n + 4] == ApiInitializer(base)
  {
    var n := |props|;
    var m := ClassMethods(base, props);
    var delegates := DelegateMethods(TypeNameWithWildcards(base));
    var head := [MatcherConstructor(base)] + PropertyMatcherMethods(base, props);
    assert m == head + TrailingMethods(base);
    assert TrailingMethods(base) == delegates + [ApiInitializer(base)];
    forall k | 2 * n + 1 <= k < 2 * n + 4
      ensures m[k] == delegates[k - 2 * n - 1]
    {
    }
    assert delegates[0] in delegates && delegates[1] in delegates && delegates[2] in delegates;
  }

  /**
   * Property `i` contributes methods `1 + 2i` and `2 + 2i`: both public,
   * named `with` + the capitalized property name, returning the matcher
   * type; the first takes a `Matcher<? super Boxed>` and registers it, the
   * second takes a value of the declared type and registers `equalTo(value)`.
   */
  lemma PropertyMethodPair(base: Element, marker: string, origins: seq<Element>, i: nat)
    requires i < |Properties(base)|
    ensures var c := PreparedType(base, marker, origins);
      var p := Properties(base)[i];
      && IsFluentRegistration(c.methods[1 + 2 * i], p.name, MatcherArgument, GeneratedTypeName(base))
      && IsFluentRegistration(c.methods[2 + 2 * i], p.name, EqualToValue, GeneratedTypeName(base))
      && c.methods[1 + 2 * i].parameters
         == [ParamDesc(Parameterized(Raw(MatcherClassName), [SuperOf(Mirror(BoxedType(p.propertyType)))]), "matcher")]
      && c.methods[2 + 2 * i].parameters == [ParamDesc(Mirror(p.propertyType), "value")]
  {
    ClassMethodsAtProperty(base, Properties(base), i);
    assert PreparedType(base, marker, origins).methods == ClassMethods(base, Properties(base));
  }

  /**
   * Two properties with the same name and the same boxed type get two
   * matcher methods with the same name and the same parameter types.
   */
  lemma SamePropertyNameCollides(base: Element, marker: string, origins: seq<Element>, i: nat, j: nat)
    requires i < j < |Properties(base)|
    requires Properties(base)[i].name == Properties(base)[j].name
    requires BoxedType(Properties(base)[i].propertyType) == BoxedType(Properties(base)[j].propertyType)
    ensures var ms := PreparedType(base, marker, origins).methods;
      && 1 + 2 * j < |ms|
      && ms[1 + 2 * i].name == ms[1 + 2 * j].name == WithMethodName(Properties(base)[i].name)
      && ms[1 + 2 * i].parameters == ms[1 + 2 * j].parameters
  {
    PropertyMethodPair(base, marker, origins, i);
    PropertyMethodPair(base, marker, origins, j);
  }

  /**
   * The bean with `Boolean getActive()` and `boolean isActive()` gets two
   * `withActive(Matcher<? super Boolean>)` methods: the same name and the
   * same parameter types, which Java does not accept in one class.
   */
  lemma ActiveMatcherMethodsCollide(marker: string, origins: seq<Element>)
    ensures var ms := PreparedType(ActiveBean, marker, origins).methods;
      && |ms| > 3
      && ms[1].name == ms[3].name == WithMethodName("active")
      && ms[1].parameters == ms[3].parameters
  {
    GetterAndIsAccessorShareAPropertyName();
    SamePropertyNameCollides(ActiveBean, marker, origins, 0, 1);
  }

  /** Property `i` owns the methods right after the constructor, at `1 + 2i` and `2 + 2i`. */
  lemma ClassMethodsAtProperty(base: Element, props: seq<Property>, i: nat)
    requires i < |props|
    ensures var m := ClassMethods(base, props);
      && 2 + 2 * i < |m|
      && m[1 + 2 * i] == HamcrestMatcherMethod(base, props[i])
      && m[2 + 2 * i] == EqualsMatcherMethod(base, props[i])
  {
    var pm := PropertyMatcherMethods(base, props);
    PropertyMatcherMethodsAt(base, props, i);
    var head := [MatcherConstructor(base)] + pm;
    assert head[1 + 2 * i] == pm[2 * i] && head[2 + 2 * i] == pm[2 * i + 1];
  }

  /** The factory is `public static is<Simple>()` and returns a new instance of the matcher. */
  lemma FactoryReturnsNewMatcher(base: Element, marker: string, origins: seq<Element>)
    ensures var c := PreparedType(base, marker, origins);
      var f := c.methods[|c.methods| - 1];
      && f.name == "is" + base.simpleName
      && f.modifiers == {Public, Static}
      && f.parameters == []
      && f.returnType == Some(Named("", c.name))
      && f.statements == [ReturnNew(Named("", c.name))]
  {
    PreparedTypeLayout(base, marker, origins);
  }

  /**
   * Exactly the public nested types become nested matchers, in declaration
   * order, each static and generated with `base` prepended to the origins.
   */
  lemma NestedMatchersArePublicNestedTypes(base: Element, marker: string, origins: seq<Element>)
    ensures var c := PreparedType(base, marker, origins);
      var nested := PublicNestedTypes(base);
      && |c.nested| == |nested|
      && forall k :: 0 <= k < |nested| ==>
           && c.nested[k] == AsStatic(PreparedType(nested[k], marker, [base] + origins))
           && Static in c.nested[k].modifiers
           && c.nested[k].name == nested[k].simpleName + "Matcher"
           && c.nested[k].origins == [nested[k], base] + origins
           && IsPublic(nested[k])
  {
    InnerMatchersLayout(base, marker, origins);
    assert PreparedType(base, marker, origins).nested == InnerMatchers(base, marker, origins);
  }

  /** The nested matchers for any base: the part of `NestedMatchersArePublicNestedTypes` about `InnerMatchers`. */
  lemma InnerMatchersLayout(base: Element, marker: string, origins: seq<Element>)
    ensures var inner := InnerMatchers(base, marker, origins);
      var nested := PublicNestedTypes(base);
      && |inner| == |nested|
      && forall k :: 0 <= k < |nested| ==>
           && inner[k] == AsStatic(PreparedType(nested[k], marker, [base] + origins))
           && Static in inner[k].modifiers
           && inner[k].name == nested[k].simpleName + "Matcher"
           && inner[k].origins == [nested[k], base] + origins
           && IsPublic(nested[k])
  {
    var inner := InnerMatchers(base, marker, origins);
    var nested := PublicNestedTypes(base);
    forall k | 0 <= k < |nested|
      ensures && inner[k] == AsStatic(PreparedType(nested[k], marker, [base] + origins))
              && Static in inner[k].modifiers
              && inner[k].name == nested[k].simpleName + "Matcher"
              && inner[k].origins == [nested[k], base] + origins
              && IsPublic(nested[k])
    {
      InnerMatcherAt(base, marker, origins, k);
    }
  }

  /** The nested matcher at one position: the static class prepared for that public nested type. */
  lemma InnerMatcherAt(base: Element, marker: string, origins: seq<Element>, k: nat)
    requires k < |PublicNestedTypes(base)|
    ensures var inner := InnerMatchers(base, marker, origins);
      var t := PublicNestedTypes(base)[k];
      && k < |inner|
      && inner[k] == AsStatic(PreparedType(t, marker, [base] + origins))
      && Static in inner[k].modifiers
      && inner[k].name == t.simpleName + "Matcher"
      && inner[k].origins == [t, base] + origins
      && IsPublic(t)
  {
    var t := PublicNestedTypes(base)[k];
    assert t in PublicNestedTypes(base);
    var prepared := PreparedType(t, marker, [base] + origins);
    assert prepared.origins == [t] + ([base] + origins);
    PrependTwo(t, base, origins);
  }
}

=== FILE: outcomes.dfy ===
/**
 * Optional values and success/failure results. `None` stands for a Java or
 * Kotlin `null`; `Failure` stands for a thrown exception.
 */
module Outcomes {

  datatype Option<+T> = None | Some(value: T)

  datatype Result<+T, +E> = Success(value: T) | Failure(error: E)
}

=== FILE: processor_worker.dfy ===
/**
 * The annotation processor's worker (`MatcherGenerationProcessorWorker`):
 * it resolves the names configured by every `@MatcherConfiguration` element
 * to type elements, skips the types this processor generated itself, and
 * hands every other type to the matcher generator. The compiler's element
 * utilities are an `Environment`; messages are a log of diagnostics and the
 * files handed to the Filer are the produced `JavaFile` values.
 */
module ProcessorWorker {
  import opened Outcomes
  import opened Seqs
  import opened Elements
  import opened ClassIR
  import opened MatcherGenerator
  import opened Filer

  const MatcherConfigurationName := "io.github.marmer.annotationprocessing.MatcherConfiguration"
  const StartedMessage := "Annotation processor for hamcrest matcher generation started"

  /**
   * A type element as the worker sees it: its package, the chain of types
   * enclosing it (outermost first; empty for a top-level type, and for a
   * type whose enclosing element is not a type) and its own declaration.
   */
  datatype TypeRef = TypeRef(packageName: string, outer: seq<Element>, decl: Element)

  /** The declarations from the outermost enclosing type down to `t` itself. */
  function Path(t: TypeRef): seq<Element>
  {
    t.outer + [t.decl]
  }

  /** The nested type `c` of `t`. */
  function Child(t: TypeRef, c: Element): TypeRef
  {
    TypeRef(t.packageName, Path(t), c)
  }

  /** The type enclosing a nested type. */
  function EnclosingType(t: TypeRef): TypeRef
    requires |t.outer| > 0
  {
    TypeRef(t.packageName, t.outer[..|t.outer| - 1], t.outer[|t.outer| - 1])
  }

  /** Every type of the chain is a member type of the one before it. */
  predicate WellNested(t: TypeRef)
  {
    forall k :: 0 <= k < |Path(t)| - 1 ==> Path(t)[k + 1] in Path(t)[k].enclosed
  }

  /**
   * The elements of the compiler's model the worker queries: every package
   * element (several may share a name, one per module) and
   * `getTypeElement`, keyed by canonical name.
   */
  datatype Environment = Environment(packages: seq<PackageElement>, typeByName: map<string, TypeRef>)

  /** An element annotated with `@MatcherConfiguration`, with the names in its `value`. */
  datatype Configuration = Configuration(host: Element, names: seq<string>)

  /** A processing round: whether it is the last one, and the configuration elements in it. */
  datatype RoundEnvironment = RoundEnvironment(processingOver: bool, configurations: seq<Configuration>)

  datatype Diagnostic = Note(text: string) | MandatoryWarning(text: string)

  /** Resolved types and the diagnostics printed while resolving them. */
  datatype Resolution = Resolution(types: seq<TypeRef>, log: seq<Diagnostic>)

  /** Diagnostics printed and source files written. */
  datatype Emission = Emission(log: seq<Diagnostic>, files: seq<JavaFile>)

  /**
   * What a call of `process` did: `claimed` records the branch it took
   * (whether it went on to claim the annotations), which is the value it
   * returns when it returns normally; the diagnostics it printed and the
   * files the Filer created; `refused` is the type name of a file the Filer
   * refused to create again, whose `FilerException` escapes `process`, which
   * then returns nothing, and ends the round.
   */
  datatype ProcessOutcome = ProcessOutcome(claimed: bool, log: seq<Diagnostic>, files: seq<JavaFile>, refused: Option<string>)

  /** What the worker does, step by step: print a diagnostic or hand a file to the Filer. */
  type Step = Event<Diagnostic, JavaFile>

  /**
   * `getHighestNestingType`: climbs to the enclosing type while there is
   * one. Absent in, absent out; otherwise the outermost type of the chain,
   * a top-level type of the same package.
   */
  function HighestNestingType(t: Option<TypeRef>): (r: Option<TypeRef>)
    ensures r.None? <==> t.None?
    ensures t.Some? ==>
      && r.value.outer == []
      && r.value.packageName == t.value.packageName
      && r.value.decl == Path(t.value)[0]
    decreases if t.Some? then |t.value.outer| else 0
  {
    if t.Some? && |t.value.outer| > 0 then
      assert Path(EnclosingType(t.value)) == t.value.outer;
      HighestNestingType(Some(EnclosingType(t.value)))
    else t
  }

  /** Climbing from the outermost type stays there. */
  lemma HighestNestingTypeIdempotent(t: Option<TypeRef>)
    ensures HighestNestingType(HighestNestingType(t)) == HighestNestingType(t)
  {
  }

  /** A well-nested type and its outermost type share the top of the chain. */
  lemma HighestNestingTypeOfNested(t: TypeRef, c: Element)
    requires c in t.decl.enclosed
    ensures HighestNestingType(Some(Child(t, c))) == HighestNestingType(Some(t))
  {
    assert Path(Child(t, c))[0] == Path(t)[0];
  }

  /** The types a package encloses. */
  function PackageTypes(p: PackageElement): (r: seq<TypeRef>)
    ensures |r| == |p.enclosed|
    ensures forall t :: t in r <==> t.packageName == p.name && t.outer == [] && t.decl in p.enclosed
  {
    var r := seq(|p.enclosed|, i requires 0 <= i < |p.enclosed| => TypeRef(p.name, [], p.enclosed[i]));
    assert forall e :: e in p.enclosed ==> TypeRef(p.name, [], e) in r by {
      forall e | e in p.enclosed
        ensures TypeRef(p.name, [], e) in r
      {
        var i :| 0 <= i < |p.enclosed| && p.enclosed[i] == e;
        assert r[i] == TypeRef(p.name, [], e);
      }
    }
    r
  }

  /** Whether `p` is a package element named `name`. */
  predicate HasName(name: string, p: PackageElement)
  {
    p.name == name
  }

  function TypesOfPackagesNamed(env: Environment, name: string): (r: seq<TypeRef>)
    ensures forall t :: t in r <==>
      exists p :: p in env.packages && p.name == name && t in PackageTypes(p)
  {
    var packages := Filter(env.packages, p => HasName(name, p));
    var parts := seq(|packages|, i requires 0 <= i < |packages| => PackageTypes(packages[i]));
    var r := Concat(parts);
    assert forall t :: t in r <==> exists p :: p in env.packages && p.name == name && t in PackageTypes(p) by {
      forall t
        ensures t in r <==> exists p :: p in env.packages && p.name == name && t in PackageTypes(p)
      {
        if t in r {
          var i :| 0 <= i < |parts| && t in parts[i];
          assert packages[i] in packages;
        }
        if exists p :: p in env.packages && p.name == name && t in PackageTypes(p) {
          var p :| p in env.packages && p.name == name && t in PackageTypes(p);
          assert p in packages;
          var i :| 0 <= i < |packages| && packages[i] == p;
          assert t in parts[i];
        }
      }
    }
    r
  }

  /** `getTypeElement(name)`. */
  function TypeElement(env: Environment, name: string): Option<TypeRef>
  {
    if name in env.typeByName then Some(env.typeByName[name]) else None
  }

  function UnresolvedWarning(name: string): Diagnostic
  {
    MandatoryWarning("Neither a type nor a type exists for '" + name + "'")
  }

  /**
   * `getAllTypeElementsFor(name, configuration)`: the types of every
   * package named `name`, then the outermost type of the type named `name`
   * if there is one. When that is nothing, one mandatory warning naming
   * `name`; otherwise no diagnostic.
   */
  function TypesForName(env: Environment, name: string): (r: Resolution)
    ensures forall t :: t in r.types <==>
      || (exists p :: p in env.packages && p.name == name && t in PackageTypes(p))
      || (name in env.typeByName && Some(t) == HighestNestingType(Some(env.typeByName[name])))
    ensures r.types == [] ==> r.log == [UnresolvedWarning(name)]
    ensures r.types != [] ==> r.log == []
  {
    var fromPackages := TypesOfPackagesNamed(env, name);
    var highest := HighestNestingType(TypeElement(env, name));
    var types := fromPackages + (if highest.Some? then [highest.value] else []);
    Resolution(types, if |types| == 0 then [UnresolvedWarning(name)] else [])
  }

  /** A configured name resolves to a type of its own package or to a top-level type. */
  lemma ResolvedTypesAreTopLevel(env: Environment, name: string, t: TypeRef)
    requires t in TypesForName(env, name).types
    ensures t.outer == []
    ensures (exists p :: p in env.packages && p.name == name && t.packageName == name)
         || (name in env.typeByName && t.packageName == env.typeByName[name].packageName)
  {
    if !exists p :: p in env.packages && p.name == name && t in PackageTypes(p) {
      assert name in env.typeByName;
    } else {
      var p :| p in env.packages && p.name == name && t in PackageTypes(p);
      var i :| 0 <= i < |PackageTypes(p)| && PackageTypes(p)[i] == t;
    }
  }

  /**
   * The names resolved one after the other; a name that resolves to
   * nothing is warned about and the remaining names are still resolved.
   */
  function ResolveNames(env: Environment, names: seq<string>): (r: Resolution)
    ensures forall t :: t in r.types <==> exists n :: n in names && t in TypesForName(env, n).types
    ensures forall d :: d in r.log <==> exists n :: n in names && TypesForName(env, n).types == [] && d == UnresolvedWarning(n)
  {
    if |names| == 0 then Resolution([], [])
    else
      var first := TypesForName(env, names[0]);
      var rest := ResolveNames(env, names[1..]);
      assert forall n :: n in names <==> n == names[0] || n in names[1..];
      Resolution(first.types + rest.types, first.log + rest.log)
  }

  /** Different names are warned about with different diagnostics. */
  lemma UnresolvedWarningInjective(a: string, b: string)
    ensures UnresolvedWarning(a) == UnresolvedWarning(b) ==> a == b
  {
    if UnresolvedWarning(a) == UnresolvedWarning(b) {
      var prefix := "Neither a type nor a type exists for '";
      var wa := prefix + a + "'";
      var wb := prefix + b + "'";
      assert wa == UnresolvedWarning(a).text && wb == UnresolvedWarning(b).text;
      assert |a| == |b|;
      assert a == wa[|prefix|..|prefix| + |a|];
      assert b == wb[|prefix|..|prefix| + |b|];
    }
  }

  /** Resolving names that are pairwise different warns about each of them at most once. */
  lemma {:induction false} ResolveNamesWarnsOnce(env: Environment, names: seq<string>)
    requires NoDuplicates(names)
    ensures NoDuplicates(ResolveNames(env, names).log)
  {
    if |names| > 0 {
      var first := TypesForName(env, names[0]);
      var rest := ResolveNames(env, names[1..]);
      NoDuplicatesTail(names);
      ResolveNamesWarnsOnce(env, names[1..]);
      forall n | n in names[1..]
        ensures UnresolvedWarning(n) != UnresolvedWarning(names[0])
      {
        UnresolvedWarningInjective(n, names[0]);
      }
      assert forall i :: 0 <= i < |first.log| ==> first.log[i] == UnresolvedWarning(names[0]);
      NoDuplicatesAppend(first.log, rest.log);
      assert ResolveNames(env, names).log == first.log + rest.log;
    }
  }

  /**
   * `getAllTypeElementsFor(configuration)`: the configured names without
   * repetitions, resolved in order, and the resulting types without
   * repetitions; every configured name's types are included, and a name
   * that resolves to nothing is warned about once however often it is
   * configured.
   */
  function TypesFor(env: Environment, config: Configuration): (r: Resolution)
    ensures NoDuplicates(r.types)
    ensures forall t :: t in r.types <==> exists n :: n in config.names && t in TypesForName(env, n).types
    ensures forall d :: d in r.log <==>
      exists n :: n in config.names && TypesForName(env, n).types == [] && d == UnresolvedWarning(n)
    ensures NoDuplicates(r.log)
  {
    var names := Distinct(config.names);
    var resolved := ResolveNames(env, names);
    ResolveNamesWarnsOnce(env, names);
    Resolution(Distinct(resolved.types), resolved.log)
  }

  /** A name configured twice that resolves to nothing is warned about once. */
  lemma RepeatedUnresolvedNameWarnedOnce(env: Environment, host: Element, name: string)
    requires TypesForName(env, name).types == []
    ensures TypesFor(env, Configuration(host, [name, name])).log == [UnresolvedWarning(name)]
  {
    DistinctOfRepeated(name);
    assert ResolveNames(env, [name][1..]) == Resolution([], []);
  }

  /**
   * `u` lies below `t`: same package, `t`'s chain continued, and every
   * type of the continuation public.
   */
  predicate Below(t: TypeRef, u: TypeRef)
  {
    && u.packageName == t.packageName
    && Path(t) <= Path(u)
    && forall k :: |Path(t)| <= k < |Path(u)| ==> IsPublicType(Path(u)[k])
  }

  /** Below a public member type is below its enclosing type. */
  lemma BelowChild(t: TypeRef, c: Element, u: TypeRef)
    requires IsPublicType(c)
    requires Below(Child(t, c), u)
    ensures Below(t, u)
  {
    assert Path(Child(t, c)) == Path(t) + [c];
    assert Path(u)[|Path(t)|] == c;
  }

  /**
   * `expandToNestedTypes`: the type itself, then the expansion of every
   * public member type in declaration order (pre-order). Everything below
   * `t` is reached through public types only, so a non-public member type
   * and everything inside it are left out.
   */
  function ExpandToNestedTypes(t: TypeRef): (r: seq<TypeRef>)
    ensures |r| > 0 && r[0] == t
    ensures forall u :: u in r ==> Below(t, u)
    decreases t.decl
  {
    var nested := PublicNestedTypes(t.decl);
    assert forall i :: 0 <= i < |nested| ==> nested[i] in t.decl.enclosed;
    var parts := seq(|nested|, i requires 0 <= i < |nested| => ExpandToNestedTypes(Child(t, nested[i])));
    var below := Concat(parts);
    assert forall u :: u in below ==> Below(t, u) by {
      forall u | u in below
        ensures Below(t, u)
      {
        var i :| 0 <= i < |parts| && u in parts[i];
        assert nested[i] in nested;
        BelowChild(t, nested[i], u);
      }
    }
    [t] + below
  }

  /** Every public member type's expansion is part of the expansion. */
  lemma ExpansionIncludesPublicMembers(t: TypeRef, c: Element, u: TypeRef)
    requires c in t.decl.enclosed && IsPublicType(c)
    requires u in ExpandToNestedTypes(Child(t, c))
    ensures u in ExpandToNestedTypes(t)
  {
    var nested := PublicNestedTypes(t.decl);
    assert forall i :: 0 <= i < |nested| ==> nested[i] in t.decl.enclosed;
    var parts := seq(|nested|, i requires 0 <= i < |nested| => ExpandToNestedTypes(Child(t, nested[i])));
    assert c in nested;
    var i :| 0 <= i < |nested| && nested[i] == c;
    assert u in parts[i];
    assert ExpandToNestedTypes(t) == [t] + Concat(parts);
  }

  /** A member type that is not public appears in no expansion, nor does anything inside it. */
  lemma NonPublicMembersExcluded(t: TypeRef, c: Element, u: TypeRef)
    requires c in t.decl.enclosed && !IsPublic(c)
    requires Path(t) + [c] <= Path(u)
    ensures u !in ExpandToNestedTypes(t)
  {
    assert Path(u)[|Path(t)|] == c;
  }

  /** The expansion keeps the chains well nested. */
  lemma ExpansionWellNested(t: TypeRef, u: TypeRef)
    requires WellNested(t)
    requires u in ExpandToNestedTypes(t)
    ensures WellNested(u)
    decreases t.decl
  {
    var nested := PublicNestedTypes(t.decl);
    assert forall i :: 0 <= i < |nested| ==> nested[i] in t.decl.enclosed;
    var parts := seq(|nested|, i requires 0 <= i < |nested| => ExpandToNestedTypes(Child(t, nested[i])));
    assert ExpandToNestedTypes(t) == [t] + Concat(parts);
    if u != t {
      var i :| 0 <= i < |parts| && u in parts[i];
      var c := Child(t, nested[i]);
      assert WellNested(c) by {
        assert Path(c) == Path(t) + [nested[i]];
        forall k | 0 <= k < |Path(c)| - 1
          ensures Path(c)[k + 1] in Path(c)[k].enclosed
        {
          if k == |Path(t)| - 1 {
            assert Path(c)[k] == t.decl;
          } else {
            assert Path(c)[k] == Path(t)[k] && Path(c)[k + 1] == Path(t)[k + 1];
          }
        }
      }
      ExpansionWellNested(c, u);
    }
  }

  /** The expansions of several types, one after the other. */
  function Expansions(ts: seq<TypeRef>): seq<TypeRef>
  {
    if |ts| == 0 then [] else ExpandToNestedTypes(ts[0]) + Expansions(ts[1..])
  }

  lemma {:induction false} ExpansionsMembers(ts: seq<TypeRef>, u: TypeRef)
    ensures u in Expansions(ts) <==> exists t :: t in ts && u in ExpandToNestedTypes(t)
  {
    if |ts| > 0 {
      ExpansionsMembers(ts[1..], u);
      assert Expansions(ts) == ExpandToNestedTypes(ts[0]) + Expansions(ts[1..]);
      assert forall t :: t in ts <==> t == ts[0] || t in ts[1..];
    }
  }

  /** The types of every configuration, resolved one configuration after the other. */
  function TypesForAll(env: Environment, configs: seq<Configuration>): Resolution
  {
    if |configs| == 0 then Resolution([], [])
    else
      var first := TypesFor(env, configs[0]);
      var rest := TypesForAll(env, configs[1..]);
      Resolution(first.types + rest.types, first.log + rest.log)
  }

  lemma {:induction false} TypesForAllMembers(env: Environment, configs: seq<Configuration>, t: TypeRef)
    ensures t in TypesForAll(env, configs).types <==> exists c :: c in configs && t in TypesFor(env, c).types
  {
    if |configs| > 0 {
      TypesForAllMembers(env, configs[1..], t);
      assert forall c :: c in configs <==> c == configs[0] || c in configs[1..];
    }
  }

  /**
   * `getTypesWithAsserters`: every type configured anywhere in the round,
   * with its public nested types, without repetitions. Resolving the names
   * again repeats their warnings.
   */
  function TypesWithAsserters(env: Environment, configs: seq<Configuration>): (r: Resolution)
    ensures NoDuplicates(r.types)
    ensures r.log == TypesForAll(env, configs).log
  {
    var all := TypesForAll(env, configs);
    Resolution(Distinct(Expansions(all.types)), all.log)
  }

  /** A type has an asserter exactly when it is a configured type or lies below one through public types. */
  lemma TypesWithAssertersMembers(env: Environment, configs: seq<Configuration>, u: TypeRef)
    ensures u in TypesWithAsserters(env, configs).types <==>
      exists c, t :: c in configs && t in TypesFor(env, c).types && u in ExpandToNestedTypes(t)
  {
    var all := TypesForAll(env, configs);
    ExpansionsMembers(all.types, u);
    forall t
      ensures t in all.types <==> exists c :: c in configs && t in TypesFor(env, c).types
    {
      TypesForAllMembers(env, configs, t);
    }
  }

  /** The declarations of a sequence of types. */
  function Decls(ts: seq<TypeRef>): (r: seq<Element>)
    ensures |r| == |ts| && forall i :: 0 <= i < |ts| ==> r[i] == ts[i].decl
  {
    seq(|ts|, i requires 0 <= i < |ts| => ts[i].decl)
  }

  /** `isSelfGenerated`: a `@Generated` annotation whose values include the generator's name. */
  predicate IsSelfGenerated(t: TypeRef, generatorName: string)
  {
    t.decl.generated.Some? && generatorName in t.decl.generated.value
  }

  function SelfGeneratedNote(t: TypeRef): Diagnostic
  {
    Note("Generation skipped for: '" + t.decl.qualifiedName + "' because is is already generated by this processor")
  }

  /**
   * The matcher file for one type: generated in the type's package, with
   * the generator's name as marker and every type with an asserter as
   * additional originating element.
   */
  function MatcherFileFor(env: Environment, configs: seq<Configuration>, t: TypeRef, generatorName: string): JavaFile
  {
    MatcherFile(TypesWithAsserters(env, configs), t, generatorName)
  }

  /** The matcher file for one type, given the types with asserters. */
  function MatcherFile(asserters: Resolution, t: TypeRef, generatorName: string): JavaFile
  {
    Generate(t.packageName, t.decl, generatorName, Decls(asserters.types)).file
  }

  /**
   * The diagnostics printed for one type: either the self-generation note,
   * or the warnings of resolving the asserters again and the generator's notes.
   */
  function TypeLog(asserters: Resolution, t: TypeRef, generatorName: string): seq<Diagnostic>
  {
    if IsSelfGenerated(t, generatorName) then [SelfGeneratedNote(t)]
    else
      var notes := Generate(t.packageName, t.decl, generatorName, Decls(asserters.types)).notes;
      asserters.log + seq(|notes|, i requires 0 <= i < |notes| => Note(notes[i]))
  }

  function NotSelfGenerated(generatorName: string): TypeRef -> bool
  {
    t => !IsSelfGenerated(t, generatorName)
  }

  /** The matcher file of a type, as a function value. */
  function FileOf(asserters: Resolution, generatorName: string): TypeRef -> JavaFile
  {
    t => MatcherFile(asserters, t, generatorName)
  }

  /**
   * The loop of `generateMatcherBy` over the resolved types: a
   * self-generated type gets a note and no file; every other type gets
   * exactly one matcher file, in order.
   */
  function GenerateEach(asserters: Resolution, types: seq<TypeRef>, generatorName: string): Emission
  {
    Emission(EachLog(asserters, types, generatorName), KeepMap(types, NotSelfGenerated(generatorName), FileOf(asserters, generatorName)))
  }

  /** What the loop prints, type by type. */
  function EachLog(asserters: Resolution, types: seq<TypeRef>, generatorName: string): seq<Diagnostic>
  {
    if |types| == 0 then []
    else TypeLog(asserters, types[0], generatorName) + EachLog(asserters, types[1..], generatorName)
  }

  /** One file per type that is not self-generated, in the order of the types. */
  lemma GenerateEachFiles(asserters: Resolution, types: seq<TypeRef>, generatorName: string)
    ensures var files := GenerateEach(asserters, types, generatorName).files;
      var kept := Filter(types, NotSelfGenerated(generatorName));
      && |files| == |kept|
      && forall j :: 0 <= j < |kept| ==> files[j] == MatcherFile(asserters, kept[j], generatorName)
  {
    KeepMapIsMapOfFilter(types, NotSelfGenerated(generatorName), FileOf(asserters, generatorName));
  }

  /** Every file of the loop is the matcher file of a type that is not self-generated. */
  lemma GenerateEachFileOwner(asserters: Resolution, types: seq<TypeRef>, generatorName: string, f: JavaFile)
    returns (u: TypeRef)
    requires f in GenerateEach(asserters, types, generatorName).files
    ensures u in types && !IsSelfGenerated(u, generatorName) && f == MatcherFile(asserters, u, generatorName)
  {
    KeepMapOwner(types, NotSelfGenerated(generatorName), FileOf(asserters, generatorName), f);
    u :| u in types && NotSelfGenerated(generatorName)(u) && f == FileOf(asserters, generatorName)(u);
  }

  /** A self-generated type gets the skip note. */
  lemma {:induction false} GenerateEachNotesSelfGenerated(asserters: Resolution, types: seq<TypeRef>, generatorName: string, t: TypeRef)
    requires t in types && IsSelfGenerated(t, generatorName)
    ensures SelfGeneratedNote(t) in GenerateEach(asserters, types, generatorName).log
  {
    var log := GenerateEach(asserters, types, generatorName).log;
    var first := TypeLog(asserters, types[0], generatorName);
    var rest := EachLog(asserters, types[1..], generatorName);
    assert log == first + rest;
    if types[0] == t {
      assert first == [SelfGeneratedNote(t)];
    } else {
      GenerateEachNotesSelfGenerated(asserters, types[1..], generatorName, t);
    }
  }

  /**
   * A type this processor generated itself is noted and skipped: it is not
   * among the types the loop generates for, every file of the loop belongs
   * to another type, and the loop writes fewer files than it has types.
   */
  lemma SelfGeneratedTypesSkipped(asserters: Resolution, types: seq<TypeRef>, generatorName: string, t: TypeRef)
    requires t in types && IsSelfGenerated(t, generatorName)
    ensures SelfGeneratedNote(t) in GenerateEach(asserters, types, generatorName).log
    ensures t !in Filter(types, NotSelfGenerated(generatorName))
    ensures forall f :: f in GenerateEach(asserters, types, generatorName).files ==>
      exists u :: u in types && u != t && !IsSelfGenerated(u, generatorName) && f == MatcherFile(asserters, u, generatorName)
    ensures |GenerateEach(asserters, types, generatorName).files| < |types|
  {
    GenerateEachNotesSelfGenerated(asserters, types, generatorName, t);
    GenerateEachFiles(asserters, types, generatorName);
    FilterDropsRejected(types, NotSelfGenerated(generatorName), t);
    forall f | f in GenerateEach(asserters, types, generatorName).files
      ensures exists u :: u in types && u != t && !IsSelfGenerated(u, generatorName) && f == MatcherFile(asserters, u, generatorName)
    {
      var u := GenerateEachFileOwner(asserters, types, generatorName, f);
      assert u != t;
    }
  }

  /** `generateMatcherBy`: resolve the configuration's types, then generate for each. */
  function GenerateMatcherBy(env: Environment, configs: seq<Configuration>, config: Configuration, generatorName: string): (r: Emission)
    ensures var resolved := TypesFor(env, config);
      var kept := Filter(resolved.types, NotSelfGenerated(generatorName));
      && resolved.log <= r.log
      && |r.files| == |kept|
      && forall j :: 0 <= j < |kept| ==> r.files[j] == MatcherFileFor(env, configs, kept[j], generatorName)
  {
    var resolved := TypesFor(env, config);
    var asserters := TypesWithAsserters(env, configs);
    var each := GenerateEach(asserters, resolved.types, generatorName);
    GenerateEachFiles(asserters, resolved.types, generatorName);
    Emission(resolved.log + each.log, each.files)
  }

  /** The configurations handled one after the other. */
  function GenerateForAll(env: Environment, configs: seq<Configuration>, pending: seq<Configuration>, generatorName: string): Emission
  {
    if |pending| == 0 then Emission([], [])
    else
      var first := GenerateMatcherBy(env, configs, pending[0], generatorName);
      var rest := GenerateForAll(env, configs, pending[1..], generatorName);
      Emission(first.log + rest.log, first.files + rest.files)
  }

  /** A type of the configuration `c` that is not self-generated. */
  predicate Generates(env: Environment, c: Configuration, t: TypeRef, generatorName: string)
  {
    t in TypesFor(env, c).types && !IsSelfGenerated(t, generatorName)
  }

  /** Every file of one configuration is that of one of its types that is not self-generated. */
  lemma GenerateMatcherByFileOwner(env: Environment, configs: seq<Configuration>, c: Configuration, generatorName: string, j: nat)
    returns (t: TypeRef)
    requires j < |GenerateMatcherBy(env, configs, c, generatorName).files|
    ensures Generates(env, c, t, generatorName)
    ensures GenerateMatcherBy(env, configs, c, generatorName).files[j] == MatcherFileFor(env, configs, t, generatorName)
  {
    var kept := Filter(TypesFor(env, c).types, NotSelfGenerated(generatorName));
    t := kept[j];
    assert t in kept;
  }

  /** Every type of a configuration that is not self-generated gets its file. */
  lemma GenerateMatcherByFileFor(env: Environment, configs: seq<Configuration>, c: Configuration, generatorName: string, t: TypeRef)
    requires Generates(env, c, t, generatorName)
    ensures MatcherFileFor(env, configs, t, generatorName) in GenerateMatcherBy(env, configs, c, generatorName).files
  {
    var files := GenerateMatcherBy(env, configs, c, generatorName).files;
    var kept := Filter(TypesFor(env, c).types, NotSelfGenerated(generatorName));
    assert t in kept;
    var j :| 0 <= j < |kept| && kept[j] == t;
    assert files[j] == MatcherFileFor(env, configs, t, generatorName);
  }

  /** The files of one configuration are those of its types that are not self-generated. */
  lemma GenerateMatcherByFiles(env: Environment, configs: seq<Configuration>, c: Configuration, generatorName: string, f: JavaFile)
    ensures f in GenerateMatcherBy(env, configs, c, generatorName).files <==>
      exists t :: Generates(env, c, t, generatorName) && f == MatcherFileFor(env, configs, t, generatorName)
  {
    if f in GenerateMatcherBy(env, configs, c, generatorName).files {
      GenerateMatcherByFileIsOwned(env, configs, c, generatorName, f);
    } else {
      forall t | Generates(env, c, t, generatorName)
        ensures f != MatcherFileFor(env, configs, t, generatorName)
      {
        GenerateMatcherByFileFor(env, configs, c, generatorName, t);
      }
    }
  }

  /** A file of one configuration belongs to one of its types that is not self-generated. */
  lemma GenerateMatcherByFileIsOwned(env: Environment, configs: seq<Configuration>, c: Configuration, generatorName: string, f: JavaFile)
    requires f in GenerateMatcherBy(env, configs, c, generatorName).files
    ensures exists t :: Generates(env, c, t, generatorName) && f == MatcherFileFor(env, configs, t, generatorName)
  {
    var files := GenerateMatcherBy(env, configs, c, generatorName).files;
    var j :| 0 <= j < |files| && files[j] == f;
    var t := GenerateMatcherByFileOwner(env, configs, c, generatorName, j);
    assert Generates(env, c, t, generatorName) && f == MatcherFileFor(env, configs, t, generatorName);
  }

  /** Across the configurations, a file is written for exactly the configured types that are not self-generated. */
  lemma GenerateForAllFiles(env: Environment, configs: seq<Configuration>, pending: seq<Configuration>, generatorName: string, f: JavaFile)
    ensures f in GenerateForAll(env, configs, pending, generatorName).files <==>
      exists c, t :: c in pending && Generates(env, c, t, generatorName) && f == MatcherFileFor(env, configs, t, generatorName)
  {
    var files := GenerateForAll(env, configs, pending, generatorName).files;
    if f in files {
      var c, t := GenerateForAllFileOwner(env, configs, pending, generatorName, f);
    } else {
      forall c, t | c in pending && Generates(env, c, t, generatorName)
        ensures f != MatcherFileFor(env, configs, t, generatorName)
      {
        GenerateForAllFileFor(env, configs, pending, generatorName, c, t);
      }
    }
  }

  /** Every file handed over belongs to a type of one of the configurations. */
  lemma {:induction false} GenerateForAllFileOwner(env: Environment, configs: seq<Configuration>, pending: seq<Configuration>, generatorName: string, f: JavaFile)
    returns (c: Configuration, t: TypeRef)
    requires f in GenerateForAll(env, configs, pending, generatorName).files
    ensures c in pending && Generates(env, c, t, generatorName) && f == MatcherFileFor(env, configs, t, generatorName)
  {
    if f in GenerateMatcherBy(env, configs, pending[0], generatorName).files {
      GenerateMatcherByFileIsOwned(env, configs, pending[0], generatorName, f);
      c := pending[0];
      t :| Generates(env, c, t, generatorName) && f == MatcherFileFor(env, configs, t, generatorName);
    } else {
      c, t := GenerateForAllFileOwner(env, configs, pending[1..], generatorName, f);
    }
  }

  /** Every type of one of the configurations gets its file handed over. */
  lemma {:induction false} GenerateForAllFileFor(env: Environment, configs: seq<Configuration>, pending: seq<Configuration>, generatorName: string,
                                                 c: Configuration, t: TypeRef)
    requires c in pending && Generates(env, c, t, generatorName)
    ensures MatcherFileFor(env, configs, t, generatorName) in GenerateForAll(env, configs, pending, generatorName).files
  {
    if c == pending[0] {
      GenerateMatcherByFileFor(env, configs, c, generatorName, t);
    } else {
      GenerateForAllFileFor(env, configs, pending[1..], generatorName, c, t);
    }
  }

  /**
   * The name the Filer knows a generated file by: JavaPoet's
   * `writeTo(Filer)` creates the source file of `<package>.<Name>`, or of
   * `<Name>` in the unnamed package.
   */
  function SourceTypeName(f: JavaFile): string
  {
    if f.packageName == "" then f.typeSpec.name else f.packageName + "." + f.typeSpec.name
  }

  /** One type of the loop: its diagnostics, then, unless it is self-generated, its file. */
  function TypeSteps(asserters: Resolution, t: TypeRef, generatorName: string): seq<Step>
  {
    Says(TypeLog(asserters, t, generatorName))
      + (if IsSelfGenerated(t, generatorName) then [] else [Write(MatcherFile(asserters, t, generatorName))])
  }

  /** The loop over the types, step by step. */
  function EachSteps(asserters: Resolution, types: seq<TypeRef>, generatorName: string): seq<Step>
  {
    if |types| == 0 then []
    else TypeSteps(asserters, types[0], generatorName) + EachSteps(asserters, types[1..], generatorName)
  }

  /** One type's steps print its diagnostics and hand over its file when it is not self-generated. */
  lemma TypeStepsProjections(asserters: Resolution, t: TypeRef, generatorName: string)
    ensures Printed(TypeSteps(asserters, t, generatorName)) == TypeLog(asserters, t, generatorName)
    ensures Written(TypeSteps(asserters, t, generatorName))
         == (if NotSelfGenerated(generatorName)(t) then [FileOf(asserters, generatorName)(t)] else [])
  {
    var log := TypeLog(asserters, t, generatorName);
    var own: seq<Step> := if IsSelfGenerated(t, generatorName) then [] else [Write(MatcherFile(asserters, t, generatorName))];
    SaysPrintsOnly<Diagnostic, JavaFile>(log);
    ProjectionsAppend(Says<Diagnostic, JavaFile>(log), own);
    if |own| > 0 {
      assert own[1..] == [];
    }
  }

  /** The loop's steps print exactly its log and hand over exactly its files. */
  lemma {:induction false} EachStepsProjections(asserters: Resolution, types: seq<TypeRef>, generatorName: string)
    ensures Printed(EachSteps(asserters, types, generatorName)) == GenerateEach(asserters, types, generatorName).log
    ensures Written(EachSteps(asserters, types, generatorName)) == GenerateEach(asserters, types, generatorName).files
  {
    if |types| > 0 {
      TypeStepsProjections(asserters, types[0], generatorName);
      EachStepsProjections(asserters, types[1..], generatorName);
      ProjectionsAppend(TypeSteps(asserters, types[0], generatorName), EachSteps(asserters, types[1..], generatorName));
    }
  }

  /** `generateMatcherBy`, step by step: the resolution warnings, then the loop. */
  function ConfigSteps(env: Environment, configs: seq<Configuration>, config: Configuration, generatorName: string): seq<Step>
  {
    var resolved := TypesFor(env, config);
    Says(resolved.log) + EachSteps(TypesWithAsserters(env, configs), resolved.types, generatorName)
  }

  /** A configuration's steps print exactly its log and hand over exactly its files. */
  lemma ConfigStepsProjections(env: Environment, configs: seq<Configuration>, config: Configuration, generatorName: string)
    ensures Printed(ConfigSteps(env, configs, config, generatorName)) == GenerateMatcherBy(env, configs, config, generatorName).log
    ensures Written(ConfigSteps(env, configs, config, generatorName)) == GenerateMatcherBy(env, configs, config, generatorName).files
  {
    var resolved := TypesFor(env, config);
    var asserters := TypesWithAsserters(env, configs);
    SaysPrintsOnly<Diagnostic, JavaFile>(resolved.log);
    EachStepsProjections(asserters, resolved.types, generatorName);
    ProjectionsAppend(Says<Diagnostic, JavaFile>(resolved.log), EachSteps(asserters, resolved.types, generatorName));
  }

  /** The configurations handled one after the other, step by step. */
  function RoundSteps(env: Environment, configs: seq<Configuration>, pending: seq<Configuration>, generatorName: string): seq<Step>
  {
    if |pending| == 0 then []
    else ConfigSteps(env, configs, pending[0], generatorName) + RoundSteps(env, configs, pending[1..], generatorName)
  }

  /** The round's steps print exactly its log and hand over exactly its files. */
  lemma {:induction false} RoundStepsProjections(env: Environment, configs: seq<Configuration>, pending: seq<Configuration>, generatorName: string)
    ensures Printed(RoundSteps(env, configs, pending, generatorName)) == GenerateForAll(env, configs, pending, generatorName).log
    ensures Written(RoundSteps(env, configs, pending, generatorName)) == GenerateForAll(env, configs, pending, generatorName).files
  {
    if |pending| > 0 {
      ConfigStepsProjections(env, configs, pending[0], generatorName);
      RoundStepsProjections(env, configs, pending[1..], generatorName);
      ProjectionsAppend(ConfigSteps(env, configs, pending[0], generatorName), RoundSteps(env, configs, pending[1..], generatorName));
    }
  }

  /** A claimed round, step by step: the started note, then every configuration. */
  function ClaimedSteps(env: Environment, round: RoundEnvironment, generatorName: string): seq<Step>
  {
    Says([Note(StartedMessage)]) + RoundSteps(env, round.configurations, round.configurations, generatorName)
  }

  /** A claimed round hands the Filer exactly the files of all configurations, in order. */
  lemma ClaimedStepsWritten(env: Environment, round: RoundEnvironment, generatorName: string)
    ensures Written(ClaimedSteps(env, round, generatorName))
         == GenerateForAll(env, round.configurations, round.configurations, generatorName).files
  {
    var started := [Note(StartedMessage)];
    var rest := RoundSteps(env, round.configurations, round.configurations, generatorName);
    SaysPrintsOnly<Diagnostic, JavaFile>(started);
    RoundStepsProjections(env, round.configurations, round.configurations, generatorName);
    ProjectionsAppend(Says<Diagnostic, JavaFile>(started), rest);
  }

  /**
   * `process`: nothing in the last round; otherwise the started note, and
   * the annotations are claimed exactly when `@MatcherConfiguration` is
   * among them, in which case every configuration element is handled and
   * its files are handed to the Filer, which has already created the
   * names in `created`.
   */
  function Process(env: Environment, annotations: set<string>, round: RoundEnvironment, generatorName: string, created: set<string>): (r: ProcessOutcome)
    ensures r.claimed <==> !round.processingOver && MatcherConfigurationName in annotations
    ensures round.processingOver ==> r.log == [] && r.files == [] && r.refused.None?
    ensures !round.processingOver ==> |r.log| > 0 && r.log[0] == Note(StartedMessage)
    ensures !r.claimed ==> r.files == [] && r.refused.None?
  {
    if round.processingOver then ProcessOutcome(false, [], [], None)
    else
      var started := [Note(StartedMessage)];
      if MatcherConfigurationName in annotations then
        var steps := ClaimedSteps(env, round, generatorName);
        assert steps[0] == Print(Note(StartedMessage));
        var run := Run(steps, SourceTypeName, created);
        ProcessOutcome(true, run.log, run.created, run.refused)
      else
        ProcessOutcome(false, started, [], None)
  }

  /**
   * A claimed round ends without a refusal exactly when no two of the files
   * of its configurations share a type name and none was created before.
   */
  lemma ProcessRefusesIffRepeated(env: Environment, annotations: set<string>, round: RoundEnvironment, generatorName: string, created: set<string>)
    ensures var r := Process(env, annotations, round, generatorName, created);
      r.claimed ==>
        (r.refused.None? <==> Fresh(GenerateForAll(env, round.configurations, round.configurations, generatorName).files, SourceTypeName, created))
  {
    if !round.processingOver && MatcherConfigurationName in annotations {
      ClaimedStepsWritten(env, round, generatorName);
      RunRefusesIffRepeated(ClaimedSteps(env, round, generatorName), SourceTypeName, created);
    }
  }

  /**
   * A claimed round creates the files of its configurations in order: all
   * of them without a refusal, and otherwise those before the refused one,
   * whose type name was created before or earlier in the round.
   */
  lemma ProcessCreatesInOrder(env: Environment, annotations: set<string>, round: RoundEnvironment, generatorName: string, created: set<string>)
    requires !round.processingOver && MatcherConfigurationName in annotations
    ensures var r := Process(env, annotations, round, generatorName, created);
      var attempted := GenerateForAll(env, round.configurations, round.configurations, generatorName).files;
      && (r.refused.None? ==> r.files == attempted)
      && (r.refused.Some? ==>
            && |r.files| < |attempted|
            && r.files == attempted[..|r.files|]
            && SourceTypeName(attempted[|r.files|]) == r.refused.value
            && r.refused.value in created + Keys(r.files, SourceTypeName))
  {
    var steps := ClaimedSteps(env, round, generatorName);
    ClaimedStepsWritten(env, round, generatorName);
    if Run(steps, SourceTypeName, created).refused.None? {
      RunWithoutRefusal(steps, SourceTypeName, created);
    } else {
      RunRefused(steps, SourceTypeName, created);
    }
  }

  /**
   * When `process` claims the round, every file it creates is the matcher
   * of a configured type that is not self-generated, and without a refusal
   * every such type gets its file.
   */
  lemma ProcessWritesConfiguredTypes(env: Environment, annotations: set<string>, round: RoundEnvironment, generatorName: string, created: set<string>, f: JavaFile)
    requires !round.processingOver && MatcherConfigurationName in annotations
    ensures var r := Process(env, annotations, round, generatorName, created);
      && (f in r.files ==>
            exists c, t :: c in round.configurations && Generates(env, c, t, generatorName)
              && f == MatcherFileFor(env, round.configurations, t, generatorName))
      && (r.refused.None? ==>
            (f in r.files <==>
               exists c, t :: c in round.configurations && Generates(env, c, t, generatorName)
                 && f == MatcherFileFor(env, round.configurations, t, generatorName)))
  {
    ProcessFilesAttempted(env, annotations, round, generatorName, created, f);
    GenerateForAllFiles(env, round.configurations, round.configurations, generatorName, f);
  }

  /** The files a claimed round creates are among those it hands over, and without a refusal they are all of them. */
  lemma ProcessFilesAttempted(env: Environment, annotations: set<string>, round: RoundEnvironment, generatorName: string, created: set<string>, f: JavaFile)
    requires !round.processingOver && MatcherConfigurationName in annotations
    ensures var r := Process(env, annotations, round, generatorName, created);
      var attempted := GenerateForAll(env, round.configurations, round.configurations, generatorName).files;
      && (f in r.files ==> f in attempted)
      && (r.refused.None? ==> (f in r.files <==> f in attempted))
  {
    var r := Process(env, annotations, round, generatorName, created);
    var attempted := GenerateForAll(env, round.configurations, round.configurations, generatorName).files;
    ProcessCreatesInOrder(env, annotations, round, generatorName, created);
    if f in r.files && r.refused.Some? {
      var j :| 0 <= j < |r.files| && r.files[j] == f;
      assert attempted[j] == f;
    }
  }

  /**
   * A type that two configurations of the round both resolve is handed to
   * the Filer twice, and the Filer refuses the second file: the round ends
   * in the `FilerException`.
   */
  lemma TypeConfiguredTwiceIsRefused(env: Environment, annotations: set<string>, round: RoundEnvironment, generatorName: string,
                                     created: set<string>, i: nat, j: nat, t: TypeRef)
    requires !round.processingOver && MatcherConfigurationName in annotations
    requires i < j < |round.configurations|
    requires Generates(env, round.configurations[i], t, generatorName) && Generates(env, round.configurations[j], t, generatorName)
    ensures Process(env, annotations, round, generatorName, created).refused.Some?
  {
    ConfiguredTwiceNotFresh(env, round.configurations, i, j, t, generatorName, created);
    ProcessRefusesIffRepeated(env, annotations, round, generatorName, created);
  }

  /** Two configurations that resolve the same type hand over its file twice. */
  lemma ConfiguredTwiceNotFresh(env: Environment, configs: seq<Configuration>, i: nat, j: nat, t: TypeRef, generatorName: string,
                                created: set<string>)
    requires i < j < |configs|
    requires Generates(env, configs[i], t, generatorName) && Generates(env, configs[j], t, generatorName)
    ensures !Fresh(GenerateForAll(env, configs, configs, generatorName).files, SourceTypeName, created)
  {
    var file := MatcherFileFor(env, configs, t, generatorName);
    var before := configs[..j];
    var from := configs[j..];
    GenerateForAllSplit(env, configs, configs, generatorName, j);
    assert before[i] == configs[i] && from[0] == configs[j];
    GenerateForAllFileFor(env, configs, before, generatorName, configs[i], t);
    GenerateForAllFileFor(env, configs, from, generatorName, configs[j], t);
    SharedNotFresh(GenerateForAll(env, configs, before, generatorName).files,
                   GenerateForAll(env, configs, from, generatorName).files, file, SourceTypeName, created);
  }

  /** The files of the configurations before position `k`, then those from `k` on. */
  lemma GenerateForAllSplit(env: Environment, configs: seq<Configuration>, pending: seq<Configuration>, generatorName: string, k: nat)
    requires k <= |pending|
    ensures GenerateForAll(env, configs, pending, generatorName).files
         == GenerateForAll(env, configs, pending[..k], generatorName).files + GenerateForAll(env, configs, pending[k..], generatorName).files
  {
    var files := ConfigFiles(env, configs, generatorName);
    GenerateForAllFlat(env, configs, pending, generatorName);
    GenerateForAllFlat(env, configs, pending[..k], generatorName);
    GenerateForAllFlat(env, configs, pending[k..], generatorName);
    FlatMapSplit(pending, files, k);
  }

  /** The files of one configuration, as a function value. */
  function ConfigFiles(env: Environment, configs: seq<Configuration>, generatorName: string): Configuration -> seq<JavaFile>
  {
    c => GenerateMatcherBy(env, configs, c, generatorName).files
  }

  /** The files handed over are those of each configuration, joined in order. */
  lemma {:induction false} GenerateForAllFlat(env: Environment, configs: seq<Configuration>, pending: seq<Configuration>, generatorName: string)
    ensures GenerateForAll(env, configs, pending, generatorName).files == FlatMap(pending, ConfigFiles(env, configs, generatorName))
  {
    if |pending| > 0 {
      GenerateForAllCons(env, configs, pending, generatorName);
      GenerateForAllFlat(env, configs, pending[1..], generatorName);
    }
  }

  /** The files of the remaining configurations: those of the first, then those of the rest. */
  lemma GenerateForAllCons(env: Environment, configs: seq<Configuration>, pending: seq<Configuration>, generatorName: string)
    requires |pending| > 0
    ensures GenerateForAll(env, configs, pending, generatorName).files
         == GenerateMatcherBy(env, configs, pending[0], generatorName).files + GenerateForAll(env, configs, pending[1..], generatorName).files
  {
  }
}

=== FILE: property_extraction.dfy ===
/**
 * Property extraction of the Kotlin annotation-processor generator: which
 * members are accessors, how the type hierarchy is walked, how accessor
 * names become property names, and how property types are boxed.
 */
module PropertyExtraction {
  import opened Outcomes
  import opened Seqs
  import opened Text
  import opened Elements

  /** A bean property: derived name, declared type and the accessor's name. */
  datatype Property = Property(name: string, propertyType: TypeMirror, accessor: string)

  const GetPrefix := "get"
  const IsPrefix := "is"

  predicate HasReturnType(e: Element)
  {
    e.returnType != VoidType
  }

  /**
   * `hasReturnType() && startsWith("get") && kind != BOOLEAN || (startsWith("is") && kind == BOOLEAN)`;
   * `&&` binds tighter than `||`.
   */
  predicate HasReturnTypeWithMatchingPropertyPrefix(e: Element)
  {
    || (HasReturnType(e) && StartsWith(e.simpleName, GetPrefix) && e.returnType != PrimitiveType(Boolean))
    || (StartsWith(e.simpleName, IsPrefix) && e.returnType == PrimitiveType(Boolean))
  }

  /** A member counts as a property accessor. */
  predicate IsProperty(e: Element)
  {
    && IsExecutableKind(e.kind)
    && IsPublic(e)
    && !IsStatic(e)
    && HasReturnTypeWithMatchingPropertyPrefix(e)
    && e.parameters == []
  }

  /** Removes one leading `get` or `is` (the regex `^((get)|(is))`) and decapitalizes. */
  function WithoutPropertyPrefix(name: string): string
  {
    Decapitalize(
      if StartsWith(name, GetPrefix) then name[|GetPrefix|..]
      else if StartsWith(name, IsPrefix) then name[|IsPrefix|..]
      else name)
  }

  /**
   * Although `&&` binds tighter than `||`, the unguarded `is` branch needs
   * no return-type check of its own: a primitive `boolean` is never `void`.
   * So a member matches exactly when it returns something and either starts
   * with `get` and does not return `boolean`, or starts with `is` and does.
   */
  lemma PropertyPrefixPrecedence(e: Element)
    ensures HasReturnTypeWithMatchingPropertyPrefix(e) <==>
      && HasReturnType(e)
      && (|| (StartsWith(e.simpleName, GetPrefix) && e.returnType != PrimitiveType(Boolean))
          || (StartsWith(e.simpleName, IsPrefix) && e.returnType == PrimitiveType(Boolean)))
  {
  }

  /**
   * One leading `get` or `is` is removed and the rest decapitalized: only
   * the first prefix goes (`getget` gives `get`), `get` alone gives the
   * empty name, and a name with neither prefix is only decapitalized.
   */
  lemma WithoutPropertyPrefixStripsOnePrefix(rest: string, other: string)
    requires !StartsWith(other, GetPrefix) && !StartsWith(other, IsPrefix)
    ensures WithoutPropertyPrefix(GetPrefix + rest) == Decapitalize(rest)
    ensures WithoutPropertyPrefix(IsPrefix + rest) == Decapitalize(rest)
    ensures WithoutPropertyPrefix(GetPrefix) == ""
    ensures WithoutPropertyPrefix(other) == Decapitalize(other)
  {
    assert (GetPrefix + rest)[..|GetPrefix|] == GetPrefix;
    assert (GetPrefix + rest)[|GetPrefix|..] == rest;
    assert (IsPrefix + rest)[..|IsPrefix|] == IsPrefix;
    assert (IsPrefix + rest)[|IsPrefix|..] == rest;
    assert !StartsWith(IsPrefix + rest, GetPrefix) by {
      if |IsPrefix + rest| >= 3 {
        assert (IsPrefix + rest)[0] == 'i';
      }
    }
  }

  /** The superclass is walked unless its mirror has kind NONE or the type is an enum. */
  predicate FollowsSuperclass(t: Element)
  {
    t.superclass.Superclass? && t.kind != Enum
  }

  /**
   * Own members, then the members reached through the superclass chain,
   * then those reached through every interface, in order.
   */
  function TransitiveInheritedElements(t: Element): (r: seq<Element>)
    ensures t.enclosed <= r
    decreases t
  {
    t.enclosed
    + (if FollowsSuperclass(t) then TransitiveInheritedElements(t.superclass.decl) else [])
    + Concat(seq(|t.interfaces|, i requires 0 <= i < |t.interfaces| => TransitiveInheritedElements(t.interfaces[i])))
  }

  /**
   * Reference definition of the walked hierarchy: `u` is `t` itself, or is
   * reached from the superclass (when it is followed) or from an interface.
   */
  ghost predicate Reaches(t: Element, u: Element)
    decreases t
  {
    || u == t
    || (FollowsSuperclass(t) && Reaches(t.superclass.decl, u))
    || (exists i :: 0 <= i < |t.interfaces| && Reaches(t.interfaces[i], u))
  }

  /** The walk yields exactly the members of the types the hierarchy reaches. */
  lemma {:induction false} TransitiveInheritedElementsAreReachedMembers(t: Element, e: Element)
    ensures e in TransitiveInheritedElements(t) <==> exists u :: Reaches(t, u) && e in u.enclosed
    decreases t
  {
    var parts := seq(|t.interfaces|, i requires 0 <= i < |t.interfaces| => TransitiveInheritedElements(t.interfaces[i]));
    var viaSuper := if FollowsSuperclass(t) then TransitiveInheritedElements(t.superclass.decl) else [];
    assert TransitiveInheritedElements(t) == t.enclosed + viaSuper + Concat(parts);
    if e in TransitiveInheritedElements(t) {
      if e in t.enclosed {
        assert Reaches(t, t);
      } else if e in viaSuper {
        TransitiveInheritedElementsAreReachedMembers(t.superclass.decl, e);
        var u :| Reaches(t.superclass.decl, u) && e in u.enclosed;
        assert Reaches(t, u);
      } else {
        assert e in Concat(parts);
        var i :| 0 <= i < |parts| && e in parts[i];
        TransitiveInheritedElementsAreReachedMembers(t.interfaces[i], e);
        var u :| Reaches(t.interfaces[i], u) && e in u.enclosed;
        assert Reaches(t, u);
      }
    }
    if exists u :: Reaches(t, u) && e in u.enclosed {
      var u :| Reaches(t, u) && e in u.enclosed;
      if u == t {
      } else if FollowsSuperclass(t) && Reaches(t.superclass.decl, u) {
        TransitiveInheritedElementsAreReachedMembers(t.superclass.decl, e);
      } else {
        var i :| 0 <= i < |t.interfaces| && Reaches(t.interfaces[i], u);
        TransitiveInheritedElementsAreReachedMembers(t.interfaces[i], e);
        assert e in parts[i];
      }
    }
  }

  /** Without a followed superclass, only own members and interfaces are walked. */
  lemma SuperclassNotFollowed(t: Element)
    requires t.superclass.NoSuperclass? || t.kind == Enum
    ensures TransitiveInheritedElements(t)
         == t.enclosed + Concat(seq(|t.interfaces|, i requires 0 <= i < |t.interfaces| => TransitiveInheritedElements(t.interfaces[i])))
  {
  }

  function AccessorName(e: Element): string
  {
    e.simpleName
  }

  /** The accessors behind the properties: first occurrence of every accessor name. */
  function PropertyAccessors(t: Element): (r: seq<Element>)
    ensures forall e :: e in r ==> IsProperty(e) && e in TransitiveInheritedElements(t)
    ensures DistinctKeys(r, AccessorName)
  {
    DistinctBy(Filter(TransitiveInheritedElements(t), IsProperty), AccessorName)
  }

  function PropertyOf(accessor: Element): Property
  {
    Property(WithoutPropertyPrefix(accessor.simpleName), accessor.returnType, accessor.simpleName)
  }

  /** `TypeElement.properties`. */
  function Properties(t: Element): seq<Property>
  {
    var accessors := PropertyAccessors(t);
    seq(|accessors|, i requires 0 <= i < |accessors| => PropertyOf(accessors[i]))
  }

  /**
   * The extracted properties are the first occurrences of every property
   * accessor name in the walk order, one property per accessor, and no two
   * share an accessor name.
   */
  lemma PropertiesAreFirstAccessors(t: Element)
    ensures var firsts := FirstOccurrences(Filter(TransitiveInheritedElements(t), IsProperty), AccessorName);
      && |Properties(t)| == |firsts|
      && forall i :: 0 <= i < |firsts| ==> Properties(t)[i] == PropertyOf(firsts[i])
    ensures forall i, j :: 0 <= i < j < |Properties(t)| ==> Properties(t)[i].accessor != Properties(t)[j].accessor
  {
    DistinctByIsFirstOccurrences(Filter(TransitiveInheritedElements(t), IsProperty), AccessorName);
  }

  /** Every accessor met in the walk is represented by a property with its name. */
  lemma {:induction false} EveryAccessorRepresented(t: Element, e: Element) returns (i: nat)
    requires e in TransitiveInheritedElements(t) && IsProperty(e)
    ensures i < |Properties(t)| && Properties(t)[i].accessor == e.simpleName
  {
    var candidates := Filter(TransitiveInheritedElements(t), IsProperty);
    var j :| 0 <= j < |candidates| && candidates[j] == e;
    assert AccessorName(e) in Keys(PropertyAccessors(t), AccessorName);
    i := KeyWitness(PropertyAccessors(t), AccessorName, AccessorName(e));
  }

  /** A property's name is its accessor's name without the `get`/`is` prefix, decapitalized. */
  lemma PropertyNameFromAccessor(t: Element, i: nat)
    requires i < |Properties(t)|
    ensures var p := Properties(t)[i];
      || (StartsWith(p.accessor, GetPrefix) && p.name == Decapitalize(p.accessor[3..]))
      || (StartsWith(p.accessor, IsPrefix) && p.name == Decapitalize(p.accessor[2..])
          && p.propertyType == PrimitiveType(Boolean))
  {
    var e := PropertyAccessors(t)[i];
    assert e in PropertyAccessors(t);
  }

  /** The `with` method name of an accessor-derived property is `with` + the accessor's suffix, capitalized. */
  lemma WithNameOfAccessor(name: string, suffix: string)
    requires name == GetPrefix + suffix || (name == IsPrefix + suffix && !StartsWith(name, GetPrefix))
    ensures Capitalize(WithoutPropertyPrefix(name)) == Capitalize(suffix)
  {
    if name == GetPrefix + suffix {
      assert name[|GetPrefix|..] == suffix;
    } else {
      assert name[|IsPrefix|..] == suffix;
    }
    CapitalizeDecapitalize(suffix);
  }

  const ObjectTypeName := "java.lang.Object"

  function BoxName(p: Primitive): string
  {
    match p
    case Boolean => "java.lang.Boolean"
    case Byte => "java.lang.Byte"
    case Short => "java.lang.Short"
    case Int => "java.lang.Integer"
    case Long => "java.lang.Long"
    case Char => "java.lang.Character"
    case Float => "java.lang.Float"
    case Double => "java.lang.Double"
  }

  /** The primitive whose box class has the given name, if any. */
  function UnboxedPrimitive(name: string): Option<Primitive>
  {
    if name == "java.lang.Boolean" then Some(Boolean)
    else if name == "java.lang.Byte" then Some(Byte)
    else if name == "java.lang.Short" then Some(Short)
    else if name == "java.lang.Integer" then Some(Int)
    else if name == "java.lang.Long" then Some(Long)
    else if name == "java.lang.Character" then Some(Char)
    else if name == "java.lang.Float" then Some(Float)
    else if name == "java.lang.Double" then Some(Double)
    else None
  }

  /**
   * `Property.boxedType`: a primitive becomes its box class, a type variable
   * becomes `Object`, anything else is kept.
   */
  function BoxedType(t: TypeMirror): (r: TypeMirror)
    ensures !r.PrimitiveType? && !r.TypeVariable?
    ensures t.PrimitiveType? ==> r.DeclaredType? && UnboxedPrimitive(r.name) == Some(t.primitive)
    ensures t.TypeVariable? ==> r == DeclaredType(ObjectTypeName)
    ensures !t.PrimitiveType? && !t.TypeVariable? ==> r == t
  {
    match t
    case PrimitiveType(p) => DeclaredType(BoxName(p))
    case TypeVariable(_) => DeclaredType(ObjectTypeName)
    case _ => t
  }

  /** Boxing is idempotent. */
  lemma BoxedTypeIdempotent(t: TypeMirror)
    ensures BoxedType(BoxedType(t)) == BoxedType(t)
  {
  }

  /** A public, non-static, parameterless method. */
  function Accessor(name: string, returnType: TypeMirror): Element
  {
    Element(Method, name, name, {Public}, [], [], NoSuperclass, [], returnType, [], None)
  }

  const ActiveGetter := Accessor("getActive", DeclaredType("java.lang.Boolean"))
  const ActiveIsAccessor := Accessor("isActive", PrimitiveType(Boolean))

  lemma ActiveAccessorsAreProperties()
    ensures Filter([ActiveGetter, ActiveIsAccessor], IsProperty) == [ActiveGetter, ActiveIsAccessor]
  {
    assert IsProperty(ActiveGetter) && IsProperty(ActiveIsAccessor);
    assert Filter([ActiveIsAccessor], IsProperty) == [ActiveIsAccessor];
    assert [ActiveGetter, ActiveIsAccessor][1..] == [ActiveIsAccessor];
  }

  lemma ActiveAccessorsAreDistinct()
    ensures DistinctBy([ActiveGetter, ActiveIsAccessor], AccessorName) == [ActiveGetter, ActiveIsAccessor]
  {
    assert [ActiveGetter, ActiveIsAccessor][1..] == [ActiveIsAccessor];
    assert DistinctFrom([ActiveIsAccessor], AccessorName, {"getActive"}) == [ActiveIsAccessor];
  }

  /** A public bean declaring both `Boolean getActive()` and `boolean isActive()`. */
  const ActiveBean := Element(Class, "Bean", "Bean", {Public}, [], [ActiveGetter, ActiveIsAccessor], NoSuperclass, [], NoType, [], None)

  /**
   * Uniqueness is on the accessor name, not on the property name: a bean
   * with `Boolean getActive()` and `boolean isActive()` yields two
   * properties named `active`, one typed `Boolean` and one `boolean`.
   */
  lemma GetterAndIsAccessorShareAPropertyName()
    ensures |Properties(ActiveBean)| == 2
    ensures Properties(ActiveBean)[0].name == Properties(ActiveBean)[1].name == "active"
    ensures Properties(ActiveBean)[0].propertyType == DeclaredType("java.lang.Boolean")
    ensures Properties(ActiveBean)[1].propertyType == PrimitiveType(Boolean)
    ensures BoxedType(Properties(ActiveBean)[0].propertyType) == BoxedType(Properties(ActiveBean)[1].propertyType)
  {
    ActiveBeanAccessors();
    ActivePropertyNames();
  }

  /** The bean's property accessors are its two accessors, in declaration order. */
  lemma ActiveBeanAccessors()
    ensures PropertyAccessors(ActiveBean) == [ActiveGetter, ActiveIsAccessor]
  {
    assert TransitiveInheritedElements(ActiveBean) == [ActiveGetter, ActiveIsAccessor];
    ActiveAccessorsAreProperties();
    ActiveAccessorsAreDistinct();
  }

  /** Both accessor names strip to `active`. */
  lemma ActivePropertyNames()
    ensures WithoutPropertyPrefix("getActive") == "active"
    ensures WithoutPropertyPrefix("isActive") == "active"
  {
    assert StartsWith("getActive", GetPrefix) && "getActive"[|GetPrefix|..] == "Active";
    assert !StartsWith("isActive", GetPrefix) && StartsWith("isActive", IsPrefix) && "isActive"[|IsPrefix|..] == "Active";
  }
}

=== FILE: seqs.dfy ===
/**
 * Sequence combinators with the semantics of the Kotlin collection
 * operations the generator uses: `filter`, `flatMap`/`flatten`, `distinct`
 * and `distinctBy` (both keep the first occurrence of every key).
 */
module Seqs {

  /** The elements of `s` that satisfy `p`, in their original order. */
  function Filter<T(==,!new)>(s: seq<T>, p: T -> bool): (r: seq<T>)
    ensures |r| <= |s|
    ensures forall x :: x in r <==> x in s && p(x)
  {
    if |s| == 0 then [] else (if p(s[0]) then [s[0]] else []) + Filter(s[1..], p)
  }

  /** Filtering distributes over concatenation. */
  lemma {:induction false} FilterAppend<T(!new)>(a: seq<T>, b: seq<T>, p: T -> bool)
    ensures Filter(a + b, p) == Filter(a, p) + Filter(b, p)
  {
    if |a| == 0 {
      assert a + b == b;
    } else {
      assert (a + b)[1..] == a[1..] + b;
      FilterAppend(a[1..], b, p);
    }
  }

  /** Filtering out an element that fails the predicate shortens the sequence. */
  lemma {:induction false} FilterDropsRejected<T(!new)>(s: seq<T>, p: T -> bool, x: T)
    requires x in s && !p(x)
    ensures |Filter(s, p)| < |s|
  {
    if s[0] != x {
      FilterDropsRejected(s[1..], p, x);
    }
  }

  /** Prepending two elements one at a time is prepending the pair. */
  lemma PrependTwo<T>(x: T, y: T, s: seq<T>)
    ensures [x] + ([y] + s) == [x, y] + s
  {
    assert [x, y] == [x] + [y];
  }

  /** An element of the middle part of a three-part join, by its index in the join. */
  lemma AtMiddle<T>(a: seq<T>, b: seq<T>, c: seq<T>, j: nat)
    requires j < |b|
    ensures |a| + j < |a + b + c| && (a + b + c)[|a| + j] == b[j]
  {
  }

  /** An element of the last part of a three-part join, by its index in the join. */
  lemma AtLast<T>(a: seq<T>, b: seq<T>, c: seq<T>, j: nat)
    requires j < |c|
    ensures |a| + |b| + j < |a + b + c| && (a + b + c)[|a| + |b| + j] == c[j]
  {
  }

  /** Dropping the head of a join drops the head of its first part. */
  lemma TailOfAppend<T>(a: seq<T>, b: seq<T>)
    requires |a| > 0
    ensures (a + b)[0] == a[0] && (a + b)[1..] == a[1..] + b
  {
  }

  /** Joining is associative. */
  lemma AppendAssoc<T>(a: seq<T>, b: seq<T>, c: seq<T>)
    ensures a + (b + c) == (a + b) + c
  {
  }

  /** A sequence is the part before position `k`, its element there, and the part after. */
  lemma SplitAt<T>(s: seq<T>, k: nat)
    requires k < |s|
    ensures s == s[..k] + [s[k]] + s[k + 1..]
  {
    assert s[..k] + [s[k]] == s[..k + 1];
  }

  /** One pass over `s` that maps the elements `keep` accepts with `f` and drops the others. */
  function KeepMap<T, U>(s: seq<T>, keep: T -> bool, f: T -> U): (r: seq<U>)
    ensures |r| <= |s|
  {
    if |s| == 0 then []
    else (if keep(s[0]) then [f(s[0])] else []) + KeepMap(s[1..], keep, f)
  }

  /** The single pass equals filtering first and mapping afterwards. */
  lemma {:induction false} KeepMapIsMapOfFilter<T(!new), U>(s: seq<T>, keep: T -> bool, f: T -> U)
    ensures var kept := Filter(s, keep);
      && |KeepMap(s, keep, f)| == |kept|
      && forall j :: 0 <= j < |kept| ==> KeepMap(s, keep, f)[j] == f(kept[j])
  {
    if |s| > 0 {
      KeepMapIsMapOfFilter(s[1..], keep, f);
      if keep(s[0]) {
        var kept := Filter(s, keep);
        var r := KeepMap(s, keep, f);
        assert kept == [s[0]] + Filter(s[1..], keep);
        assert r == [f(s[0])] + KeepMap(s[1..], keep, f);
        forall j | 0 < j < |kept|
          ensures r[j] == f(kept[j])
        {
          assert kept[j] == Filter(s[1..], keep)[j - 1];
        }
      }
    }
  }

  /** Every element of the single pass is the image of a kept element. */
  lemma {:induction false} KeepMapOwner<T, U>(s: seq<T>, keep: T -> bool, f: T -> U, y: U)
    requires y in KeepMap(s, keep, f)
    ensures exists x :: x in s && keep(x) && y == f(x)
  {
    if keep(s[0]) && y == f(s[0]) {
      assert s[0] in s;
    } else {
      KeepMapOwner(s[1..], keep, f, y);
      var x :| x in s[1..] && keep(x) && y == f(x);
      assert x in s;
    }
  }

  /** All sequences of `ss` joined in order (Kotlin's `flatten`). */
  function Concat<T(==,!new)>(ss: seq<seq<T>>): (r: seq<T>)
    ensures forall x :: x in r <==> exists i :: 0 <= i < |ss| && x in ss[i]
  {
    if |ss| == 0 then []
    else
      var rest := Concat(ss[1..]);
      assert forall x :: x in rest <==> exists i :: 1 <= i < |ss| && x in ss[i] by {
        forall x
          ensures x in rest <==> exists i :: 1 <= i < |ss| && x in ss[i]
        {
          if x in rest {
            var j :| 0 <= j < |ss[1..]| && x in ss[1..][j];
            assert x in ss[j + 1];
          }
        }
      }
      ss[0] + rest
  }

  /** The sequences `f` gives for the elements of `s`, joined in order. */
  function FlatMap<T, U>(s: seq<T>, f: T -> seq<U>): seq<U>
  {
    if |s| == 0 then [] else f(s[0]) + FlatMap(s[1..], f)
  }

  /** Joining the parts before and from position `k` gives the whole. */
  lemma {:induction false} FlatMapSplit<T, U>(s: seq<T>, f: T -> seq<U>, k: nat)
    requires k <= |s|
    ensures FlatMap(s, f) == FlatMap(s[..k], f) + FlatMap(s[k..], f)
  {
    if k == 0 {
      assert s[k..] == s;
    } else {
      assert s[..k][0] == s[0];
      assert s[..k][1..] == s[1..][..k - 1];
      assert s[k..] == s[1..][k - 1..];
      FlatMapSplit(s[1..], f, k - 1);
      AppendAssoc(f(s[0]), FlatMap(s[1..][..k - 1], f), FlatMap(s[1..][k - 1..], f));
    }
  }

  /** Joining distributes over concatenation. */
  lemma {:induction false} ConcatAppend<T(!new)>(a: seq<seq<T>>, b: seq<seq<T>>)
    ensures Concat(a + b) == Concat(a) + Concat(b)
  {
    if |a| == 0 {
      assert a + b == b;
    } else {
      assert (a + b)[1..] == a[1..] + b;
      ConcatAppend(a[1..], b);
    }
  }

  /**
   * `flatMap { listOf(first(ctx, it), second(ctx, it)) }`: two elements per
   * element of `s`, in order.
   */
  function PairUp<C, T, U>(ctx: C, s: seq<T>, first: (C, T) -> U, second: (C, T) -> U): (r: seq<U>)
    ensures |r| == 2 * |s|
  {
    if |s| == 0 then []
    else [first(ctx, s[0]), second(ctx, s[0])] + PairUp(ctx, s[1..], first, second)
  }

  /** Element `i` of `s` owns positions `2i` and `2i + 1` of its pairing. */
  lemma {:induction false} PairUpAt<C, T, U>(ctx: C, s: seq<T>, first: (C, T) -> U, second: (C, T) -> U, i: nat)
    requires i < |s|
    ensures PairUp(ctx, s, first, second)[2 * i] == first(ctx, s[i])
    ensures PairUp(ctx, s, first, second)[2 * i + 1] == second(ctx, s[i])
  {
    if i > 0 {
      PairUpAt(ctx, s[1..], first, second, i - 1);
      assert s[1..][i - 1] == s[i];
    }
  }

  /** The set of keys of the elements of `s`. */
  function Keys<T, K>(s: seq<T>, key: T -> K): (r: set<K>)
    ensures forall i :: 0 <= i < |s| ==> key(s[i]) in r
  {
    if |s| == 0 then {} else {key(s[0])} + Keys(s[1..], key)
  }

  /** Every key in `Keys(s, key)` is the key of some element of `s`. */
  lemma {:induction false} KeyWitness<T, K>(s: seq<T>, key: T -> K, k: K) returns (i: nat)
    requires k in Keys(s, key)
    ensures i < |s| && key(s[i]) == k
  {
    if key(s[0]) == k {
      i := 0;
    } else {
      var j := KeyWitness(s[1..], key, k);
      i := j + 1;
    }
  }

  /** No two elements of `s` share a key. */
  predicate DistinctKeys<T, K(==)>(s: seq<T>, key: T -> K)
  {
    forall i, j :: 0 <= i < j < |s| ==> key(s[i]) != key(s[j])
  }

  /** No element occurs twice in `s`. */
  predicate NoDuplicates<T(==,!new)>(s: seq<T>)
  {
    forall i, j :: 0 <= i < j < |s| ==> s[i] != s[j]
  }

  /** Two repetition-free sequences with no element in common join without repetitions. */
  lemma NoDuplicatesAppend<T(!new)>(a: seq<T>, b: seq<T>)
    requires NoDuplicates(a) && NoDuplicates(b)
    requires forall i :: 0 <= i < |a| ==> a[i] !in b
    ensures NoDuplicates(a + b)
  {
    forall i, j | 0 <= i < j < |a + b|
      ensures (a + b)[i] != (a + b)[j]
    {
      if i < |a| && |a| <= j {
        assert (a + b)[j] == b[j - |a|];
      }
    }
  }

  /** Dropping the head keeps a sequence free of repetitions. */
  lemma NoDuplicatesTail<T(!new)>(s: seq<T>)
    requires |s| > 0 && NoDuplicates(s)
    ensures NoDuplicates(s[1..]) && s[0] !in s[1..]
  {
    forall i, j | 0 <= i < j < |s[1..]|
      ensures s[1..][i] != s[1..][j]
    {
      assert s[1..][i] == s[i + 1] && s[1..][j] == s[j + 1];
    }
  }

  /**
   * Walks `s` front to back and keeps an element when its key was not seen
   * before, neither in `seen` nor earlier in `s`.
   */
  function DistinctFrom<T(==,!new), K(==)>(s: seq<T>, key: T -> K, seen: set<K>): (r: seq<T>)
    ensures |r| <= |s|
    ensures DistinctKeys(r, key)
    ensures forall x :: x in r ==> x in s && key(x) !in seen
    ensures Keys(r, key) == Keys(s, key) - seen
  {
    if |s| == 0 then []
    else if key(s[0]) in seen then DistinctFrom(s[1..], key, seen)
    else
      var rest := DistinctFrom(s[1..], key, seen + {key(s[0])});
      assert forall j :: 0 <= j < |rest| ==> key(rest[j]) != key(s[0]) by {
        forall j | 0 <= j < |rest|
          ensures key(rest[j]) != key(s[0])
        {
          assert rest[j] in rest;
        }
      }
      [s[0]] + rest
  }

  /** Kotlin's `distinctBy(key)`: the first element of every key, in order. */
  function DistinctBy<T(==,!new), K(==)>(s: seq<T>, key: T -> K): (r: seq<T>)
    ensures |r| <= |s|
    ensures DistinctKeys(r, key)
    ensures forall x :: x in r ==> x in s
    ensures Keys(r, key) == Keys(s, key)
  {
    DistinctFrom(s, key, {})
  }

  /** Kotlin's `distinct()`: the first occurrence of every element, in order. */
  function Distinct<T(==,!new)>(s: seq<T>): (r: seq<T>)
    ensures NoDuplicates(r)
    ensures forall x :: x in r <==> x in s
  {
    var r := DistinctBy(s, (x: T) => x);
    assert forall x :: x in s ==> x in r by {
      forall x | x in s
        ensures x in r
      {
        var i := KeyWitness(r, (z: T) => z, x);
      }
    }
    r
  }

  /** An element listed twice is kept once. */
  lemma DistinctOfRepeated<T(!new)>(x: T)
    ensures Distinct([x, x]) == [x]
  {
    var r := Distinct([x, x]);
    assert x in r;
    assert forall i :: 0 <= i < |r| ==> r[i] == x;
    assert |r| == 1;
  }

  /**
   * Reference definition of "keep the first occurrence of every key": built
   * from the back, the last element survives exactly when its key does not
   * occur among the elements before it.
   */
  function FirstOccurrences<T(==,!new), K(==)>(s: seq<T>, key: T -> K): seq<T>
    decreases |s|
  {
    if |s| == 0 then []
    else
      var init := s[..|s| - 1];
      FirstOccurrences(init, key) + (if key(s[|s| - 1]) in Keys(init, key) then [] else [s[|s| - 1]])
  }

  /** Appending one element to the input of `DistinctFrom`. */
  lemma {:induction false} DistinctFromSnoc<T(!new), K>(s: seq<T>, x: T, key: T -> K, seen: set<K>)
    ensures DistinctFrom(s + [x], key, seen)
         == DistinctFrom(s, key, seen) + (if key(x) in seen + Keys(s, key) then [] else [x])
  {
    if |s| == 0 {
      assert s + [x] == [x];
      assert Keys(s, key) == {};
    } else {
      var t := s[1..];
      var sx := s + [x];
      assert sx[0] == s[0] && sx[1..] == t + [x];
      KeysCons(s, key);
      var last := if key(x) in seen + Keys(s, key) then [] else [x];
      if key(s[0]) in seen {
        assert seen + Keys(s, key) == seen + Keys(t, key);
        DistinctFromSnoc(t, x, key, seen);
        calc {
          DistinctFrom(sx, key, seen);
          DistinctFrom(t + [x], key, seen);
          DistinctFrom(t, key, seen) + last;
          DistinctFrom(s, key, seen) + last;
        }
      } else {
        var seen' := seen + {key(s[0])};
        assert seen + Keys(s, key) == seen' + Keys(t, key);
        DistinctFromSnoc(t, x, key, seen');
        calc {
          DistinctFrom(sx, key, seen);
          [s[0]] + DistinctFrom(t + [x], key, seen');
          [s[0]] + (DistinctFrom(t, key, seen') + last);
          ([s[0]] + DistinctFrom(t, key, seen')) + last;
          DistinctFrom(s, key, seen) + last;
        }
      }
    }
  }

  /** The keys of a non-empty sequence: that of its head and those of its tail. */
  lemma KeysCons<T, K>(s: seq<T>, key: T -> K)
    requires |s| > 0
    ensures Keys(s, key) == {key(s[0])} + Keys(s[1..], key)
  {
  }

  /** `distinctBy` keeps exactly the first occurrence of every key, in order. */
  lemma {:induction false} DistinctByIsFirstOccurrences<T(!new), K>(s: seq<T>, key: T -> K)
    ensures DistinctBy(s, key) == FirstOccurrences(s, key)
    decreases |s|
  {
    if |s| > 0 {
      var init := s[..|s| - 1];
      assert s == init + [s[|s| - 1]];
      DistinctByIsFirstOccurrences(init, key);
      DistinctFromSnoc(init, s[|s| - 1], key, {});
      assert {} + Keys(init, key) == Keys(init, key);
    }
  }
}

=== FILE: text.dfy ===
/**
 * String helpers. The source's locale-dependent `titlecase`, `lowercase`
 * and `StringUtils.capitalize` are modelled as ASCII case mapping of the
 * first character.
 */
module Text {

  /** `prefix` is a prefix of `s` (Kotlin's and Java's `startsWith`). */
  predicate StartsWith(s: string, prefix: string)
  {
    prefix <= s
  }

  predicate IsUpper(c: char)
  {
    'A' <= c <= 'Z'
  }

  predicate IsLower(c: char)
  {
    'a' <= c <= 'z'
  }

  function LowerChar(c: char): char
  {
    if IsUpper(c) then (c as int + 32) as char else c
  }

  function UpperChar(c: char): char
  {
    if IsLower(c) then (c as int - 32) as char else c
  }

  /** `replaceFirstChar { it.titlecase() }`: only the first character changes. */
  function Capitalize(s: string): (r: string)
    ensures |r| == |s|
    ensures |s| > 0 ==> !IsLower(r[0]) && r[1..] == s[1..]
    ensures |s| > 0 && !IsLower(s[0]) ==> r == s
  {
    if |s| == 0 then s else [UpperChar(s[0])] + s[1..]
  }

  /** `replaceFirstChar { it.lowercase() }`: only the first character changes. */
  function Decapitalize(s: string): (r: string)
    ensures |r| == |s|
    ensures |s| > 0 ==> !IsUpper(r[0]) && r[1..] == s[1..]
    ensures |s| > 0 && !IsUpper(s[0]) ==> r == s
  {
    if |s| == 0 then s else [LowerChar(s[0])] + s[1..]
  }

  /** Capitalizing forgets a preceding decapitalization. */
  lemma CapitalizeDecapitalize(s: string)
    ensures Capitalize(Decapitalize(s)) == Capitalize(s)
  {
    if |s| > 0 {
      assert Decapitalize(s)[1..] == s[1..];
    }
  }

  /** Decapitalizing forgets a preceding capitalization. */
  lemma DecapitalizeOfCapitalize(s: string)
    ensures Decapitalize(Capitalize(s)) == Decapitalize(s)
  {
    if |s| > 0 {
      assert Capitalize(s)[1..] == s[1..];
    }
  }

  /** Decapitalization undoes capitalization of a lower-case first letter. */
  lemma DecapitalizeCapitalize(s: string)
    requires |s| > 0 ==> !IsUpper(s[0])
    ensures Decapitalize(Capitalize(s)) == s
  {
    if |s| > 0 {
      assert Capitalize(s)[1..] == s[1..];
      assert s == [s[0]] + s[1..];
    }
  }
}
